=== FILE: README.md ===
# freelance-flow core, modelled in Dafny

This project models the small, deterministic pieces of freelance-flow, a
desktop application for freelancers. The back end is Go and the front end is
Vue/TypeScript. It covers these parts:

- **Formatters** (`formatters.dfy`): the currency-symbol table, snake_case
  to Title Case conversion of service types, and `{{key}}` placeholder
  substitution over the key/value map that reflection builds from a struct.
- **Version handling** (`semver.dfy`, `version.dfy`):
  - the Semantic Versioning 2.0.0 parser and precedence the update package
    relies on;
  - the package's tolerant `ParseVersion`, `CompareVersions` and
    `IsUpdateAvailable`;
  - the version texts of the package's tests.
- **Release tool** (`release.dfy`): the major/minor/patch bump, the
  first-occurrence rewrite of `"version": "<old>"`, and the tag name.
- **Release-asset selection** (`github.dfy`): the `update.json` asset is
  used when present. Otherwise the update information is built from the
  release, and platforms are guessed from the asset names.
- **Downloader** (`downloader.dfy`): the progress counter as a state
  machine, and the digest comparison of `VerifyHash`.
- **Template functions** (`template_funcs.dfy`): `sub` with Go's 64-bit
  wrap-around, and `iterate`.
- **Invoice fallbacks** (`invoice.dfy`): the billing city line, the
  billing-company, sender-name, due-date and summary fallbacks, and the copy
  of items into the template data.
- **Router** (`router.dfy`): the route table with its meta and redirects, the
  `beforeEach` guard as a pure decision function, and the `afterEach`
  last-route record.
- **Finance module descriptor** (`modules.dfy`): the descriptor as data, a
  well-formedness predicate proved for it, and how it fits the router's
  table.

Shared helpers:

- `Wrappers`: `Option`/`Result`.
- `Strings`: Go's `TrimSpace`, `TrimPrefix`, `Fields`, `Join`, `Split`,
  `Contains` and `IndexOf`, plus ASCII case mapping.
- `Collections`: the "later item overwrites" map fold, `Sum`, and "first
  non-empty".

The semver library itself is not part of this model. Its behaviour is taken
from sections 2, 9, 10 and 11 of Semantic Versioning 2.0.0, with components
below 2^64 because the library stores them as `uint64`.

## Model

| member | source | states |
|---|---|---|
| Formatters.GetCurrencySymbol | internal/utils/formatters.go:48-61 | the symbol is ¥ exactly for CNY and JPY, € exactly for EUR, £ exactly for GBP, and "$" for every other code |
| Formatters.CurrencySymbolTable | internal/utils/formatters.go:49-60 | the six table entries; lookup is exact, so "cad" and "" fall back to "$" |
| Formatters.FormatServiceType | internal/utils/formatters.go:64-77 | the result is empty iff the input is only underscores and white space; the result never contains an underscore, and its only white space is single " " separators |
| Formatters.FormatServiceTypeWords | internal/utils/formatters.go:68-76 | the words of the result are the input's underscore- or space-separated fields, in order, each with its first letter upper-cased |
| Formatters.FormatServiceTypeIsTidy | internal/utils/formatters.go:69-76 | the result has no white space at either end and no two white-space characters in a row |
| Formatters.FormatServiceTypeIdempotent | internal/utils/formatters.go:64-77 | formatting an already formatted service type changes nothing |
| Formatters.Capitalize | internal/utils/formatters.go:71-74 | a word keeps its length; its first character is upper-cased and the rest is unchanged |
| Formatters.DataMap | internal/utils/formatters.go:97-117 | a key is present iff some field provides it, as json name or lower-cased name; it holds the value of the last such field |
| Formatters.ApplyTemplate | internal/utils/formatters.go:81-117 | an empty template gives ""; a value that is not a struct leaves the template unchanged; a struct fails iff it has a field that is not exported, naming the first such field (the panic of `Interface()`) |
| Formatters.ApplyTemplateRendered | internal/utils/formatters.go:81-135 | on a struct whose fields are all exported, a template written as text and placeholders expands piece by piece over the struct's data map; the text may hold stray braces and malformed placeholders |
| Formatters.MatchLaidOut | internal/utils/formatters.go:121 | `{{`, optional `\s`, a key of `[A-Za-z0-9_]`, optional `\s` and `}}` at the front form one match of exactly that length, capturing that key |
| Formatters.SubstituteText | internal/utils/formatters.go:121-135 | text in which no placeholder starts, given what follows it, passes through substitution unchanged; this covers stray braces and malformed placeholders |
| Formatters.SubstituteNothing | internal/utils/formatters.go:131-134 | with no data every placeholder is kept verbatim, so the template comes back unchanged |
| Formatters.SubstituteRendered | internal/utils/formatters.go:121-135 | for a template of literal text (stray braces and malformed placeholders allowed) and placeholders, substitution equals the piecewise reference: text unchanged, each placeholder replaced by its value or kept verbatim, values never rescanned |
| Formatters.SubstituteUnmatched | internal/utils/formatters.go:121-135 | a text in which no placeholder starts at any position comes back unchanged, whatever the data |
| Formatters.SplitKeyKept | internal/utils/formatters.go:121-135 | a placeholder whose key is broken by white space, such as `{{ client name }}`, is not matched and is kept as it is, and scanning continues after it |
| Formatters.WrappedPlaceholder | internal/utils/formatters.go:121-135 | in a placeholder wrapped in one more pair of braces, such as `{{{id}}}`, the inner placeholder is replaced or kept and the outer braces stay |
| Formatters.PlaceholderCaseInsensitive | internal/utils/formatters.go:129-133 | a placeholder written in upper case finds the value stored under the lower-cased key |
| SemVer.Parse | internal/update/version.go:18 | the empty text is the empty-version error; every accepted text gives a well-formed version that prints back as that same text |
| SemVer.FormatParse | internal/update/version.go:18 | every well-formed version, printed, parses back to itself |
| SemVer.Compare | internal/update/version.go:36 | the result is -1, 0 or 1, and it is 0 iff the two versions have the same precedence (build metadata ignored); a smaller major, then minor, then patch ranks lower; a pre-release ranks below the release with the same numbers |
| SemVer.CompareMatchesPrecedence | internal/update/version.go:36 | the result is -1 exactly when section 11 of Semantic Versioning 2.0.0 ranks the first version lower, and 1 exactly when it ranks the second lower |
| SemVer.ComparePreBelow | internal/update/version.go:36 | pre-release lists rank lower exactly when the first differing identifier is lower, or the list is a proper prefix of the other |
| SemVer.CompareIdentBelow | internal/update/version.go:36 | an identifier ranks lower exactly when both are numbers and it is smaller, it is a number and the other a word, or both are words and it comes first in character order |
| SemVer.CompareStringBelow | internal/update/version.go:36 | word comparison ranks lower exactly when the first differing character is smaller, or the word is a proper prefix of the other |
| SemVer.CompareAntisymmetric | internal/update/version.go:36 | swapping the versions negates the result |
| SemVer.CompareTransitive | internal/update/version.go:36 | if u < v and v < w then u < w |
| SemVer.PrereleaseBelowRelease | internal/update/version.go:36 | a pre-release ranks below its release |
| SemVer.LongerPrereleaseRanksHigher | internal/update/version.go:36 | a longer pre-release list ranks above its own prefix |
| UpdateVersion.ParseVersion | internal/update/version.go:16-19 | whatever is accepted is well formed, and the trimmed text is its printed form, possibly after one "v" |
| UpdateVersion.ParseVersionIgnoresSpace | internal/update/version.go:17 | white space around the text does not change the result |
| UpdateVersion.ParseVersionAcceptsPrinted | internal/update/version.go:16-19 | a printed well-formed version is accepted as itself |
| UpdateVersion.ParseVersionAcceptsTagged | internal/update/version.go:17 | a printed version after one "v" is accepted as itself |
| UpdateVersion.RejectsNoDot | internal/update/version.go:17-18 | a text without a dot is rejected for missing components |
| UpdateVersion.RejectsOneDot | internal/update/version.go:17-18 | a text with exactly one dot is rejected for missing components |
| UpdateVersion.CompareVersions | internal/update/version.go:27-37 | there is no error iff both texts parse; the first failing argument's error comes with 0; otherwise the result is the semantic-version comparison of the parsed versions: 0 iff the two have the same precedence, -1 iff the first ranks lower and 1 iff the second does |
| UpdateVersion.CompareVersionsAntisymmetric | internal/update/version.go:27-37 | swapping the arguments negates the value, whether or not they parse |
| UpdateVersion.CompareVersionsReflexive | internal/update/version.go:36 | a text that parses compares equal to itself, with no error |
| UpdateVersion.IsUpdateAvailable | internal/update/version.go:40-46 | true iff both parse and `current` ranks below `latest` by section 11 of Semantic Versioning 2.0.0; any parse error gives false |
| UpdateVersion.UpdateIsOneWay | internal/update/version.go:40-46 | a version is never an update of itself, and never both ways |
| UpdateVersion.ParseTestCases | internal/update/version_test.go:14-20 | "1.0.0", "1.0.0-alpha.1", "1.0.0+build123" and "v1.0.0" are accepted; "", "invalid" and "1.0" are rejected |
| UpdateVersion.CompareTestCases | internal/update/version_test.go:41-47 | the seven rows of the comparison test, including both error rows |
| UpdateVersion.UpdateTestCases | internal/update/version_test.go:66-84 | 1.0.0 to 1.0.1 is an update; 1.0.0 to 1.0.0 is not |
| Release.ParsePart | cmd/release/main.go:49-61 | "major", "minor" and "patch" select their part; every other flag is an invalid-part error |
| Release.DefaultPartIsPatch | cmd/release/main.go:22 | the default flag selects the patch bump |
| Release.Inc64 | cmd/release/main.go:51 | `++` on a `uint64` adds one below the maximum and wraps to 0 at it |
| Release.BumpAsWritten | cmd/release/main.go:48-61 | the chosen component is incremented with wrap-around, lower ones reset to 0, higher ones and pre-release/build kept |
| Release.BumpAsWrittenGoesBackwards | cmd/release/main.go:50-53 | at the largest major, the bump as written yields 0.0.0, which ranks below the current version |
| Release.Bump | cmd/release/main.go:48-61 | fails with an overflow error iff the bumped component is at its maximum; otherwise it is the bump as written, ranks strictly above the current version and has that component one higher |
| Release.BumpShapes | cmd/release/main.go:50-58 | each bump increments exactly its component and resets only the ones below it |
| Release.ReplaceFirst | cmd/release/main.go:68-71 | without an occurrence the text is unchanged; with one, the text before the first occurrence and after it is kept and the replacement sits in between |
| Release.ReplaceFirstAt | cmd/release/main.go:68-71 | when the first occurrence is known, exactly that one is replaced |
| Release.TagName | cmd/release/main.go:83 | the tag is "v" followed by the printed version, and reads back through the update parser as that version |
| Release.ParseConfigured | cmd/release/main.go:42-45 | the configured version is parsed strictly; a version that does not parse stops the tool with the parser's error |
| Release.ReleaseStepAsWritten | cmd/release/main.go:42-83 | the tool as written: stops only on a version that does not parse or an unknown part; otherwise the new version is the wrapping bump, the configuration's first version entry is rewritten, and the tag is "v" + the new version |
| Release.ReleaseStepAsWrittenGoesBackwards | cmd/release/main.go:48-84 | at the largest major, the tool as written writes and tags 0.0.0, which ranks below the configured version |
| Release.ReleaseStep | cmd/release/main.go:42-83 | the tool with the corrected bump: whenever it succeeds it does exactly what the tool as written does; it fails where that succeeds only with the overflow error; the new version ranks higher; the tag is "v" + the new version |
| GitHubRelease.FindUpdateJson | internal/update/github.go:53-57 | the index of the first asset named exactly "update.json", and none iff there is no such asset |
| GitHubRelease.SelectSource | internal/update/github.go:52-82 | the update.json source is chosen iff such an asset exists, with the first one's URL; otherwise the fallback is built |
| GitHubRelease.FallbackInfo | internal/update/github.go:59-82 | the version is the tag minus one leading "v"; notes, URL and date are copied; the platforms are those of the release's assets, so a key is present iff some asset is classified under it |
| GitHubRelease.Classify | internal/update/github.go:66-73 | a key is given iff one of the three checks matches the lower-cased name; it is the key of the first matching check |
| GitHubRelease.ClassifyIgnoresCase | internal/update/github.go:66 | upper-casing an asset name does not change its classification |
| GitHubRelease.Platforms | internal/update/github.go:64-74 | a key is present iff some asset is classified under it; it holds the URL and size of the last such asset, with an empty signature |
| GitHubRelease.PlatformsIgnoreCase | internal/update/github.go:64-74 | asset names differing only in case give the same platform map |
| GitHubRelease.FetchTestCase | internal/update/github_test.go:25-44 | the test's release, which lists an update.json asset second, is served from that asset |
| GitHubRelease.FallbackVersionOfTag | internal/update/github.go:61 | for a tag made by the release tool, the fallback version is the printed version and parses back to it |
| Downloader.NewProgressWriter | internal/update/downloader.go:50-54 | a new counter holds the announced total, has seen nothing, and keeps the callback choice |
| Downloader.Write | internal/update/downloader.go:96-103 | the whole chunk is reported written; the count grows by its length; the total never changes; one callback with (total, new count) iff a callback is set |
| Downloader.WriteAll | internal/update/downloader.go:96-103 | after any chunks the count is their sum; there is one report per chunk iff a callback is set; report i carries the total and the running sum; reported counts never go down |
| Downloader.WriteAllSilent | internal/update/downloader.go:99-101 | without a callback nothing is reported |
| Downloader.DownloadOfUnknownSize | internal/update/downloader.go:26-54 | when the response has no length, every report carries the unknown size -1 and the running count, one report per chunk |
| Downloader.HexEncode | internal/update/downloader.go:82 | two lower-case hexadecimal digits per byte, in order, high nibble first |
| Downloader.HexRoundTrip | internal/update/downloader.go:82 | the hexadecimal text decodes back to the digest |
| Downloader.HexEncodeInjective | internal/update/downloader.go:82 | different digests never print the same |
| Downloader.VerifyHash | internal/update/downloader.go:82-85 | succeeds iff the expected text equals the digest's lower-case hexadecimal text; otherwise a mismatch carrying both texts |
| Downloader.VerifyHashAcceptsOneDigest | internal/update/downloader.go:82-85 | an expected hash accepts at most one digest |
| Downloader.VerifyHashIsCaseSensitive | internal/update/downloader.go:83 | an expected hash holding an upper-case A-F is never accepted |
| TemplateFuncs.Sub | internal/services/template_renderer.go:78-80 | the difference, as a 64-bit value congruent to a - b, and exactly a - b when that fits |
| TemplateFuncs.SubThenAdd | internal/services/template_renderer.go:78-80 | adding b back to `sub(a, b)`, with the same wrap-around, gives a |
| TemplateFuncs.Iterate | internal/services/template_renderer.go:81-87 | a negative length is the `make` panic; otherwise a list of length n whose element i is i |
| TemplateFuncs.RangeElements | internal/services/template_renderer.go:81-87 | element i of the counting-up reference list is i |
| TemplateFuncs.IterateIsRange | internal/services/template_renderer.go:81-87 | `iterate(n)` is the counting-up reference list 0, 1, …, n-1 |
| Invoice.NonEmpty | internal/pdf/invoice_generator.go:107-116 | the kept strings are non-empty, and none are kept iff all are empty |
| Invoice.NonEmptyOfThree | internal/pdf/invoice_generator.go:107-116 | of three strings, each is kept in turn exactly when it is not empty |
| Invoice.BillingCityLine | internal/pdf/invoice_generator.go:106-121 | the placeholder line when city, province and postal code are all empty; otherwise the non-empty ones joined by ", " |
| Invoice.CityLineSegments | internal/pdf/invoice_generator.go:106-121 | split at its commas, the line gives back exactly the non-empty parts in order, none empty, so there is no leading, trailing or doubled separator |
| Invoice.CityLineOfAllParts | internal/pdf/invoice_generator.go:106-120 | with all three parts given, the line is "city, province, postal code" |
| Invoice.BillingCompany | internal/pdf/invoice_generator.go:57-60 | the billing company, or the client name when it is empty |
| Invoice.SenderName | internal/pdf/invoice_generator.go:183-189 | the sender name, else the company, else "Sender"; never empty |
| Invoice.DueDate | internal/pdf/invoice_generator.go:220-223 | the due date, or "DUE DATE" when it is empty; never empty |
| Invoice.SummaryDescription | internal/pdf/invoice_generator.go:242-245 | the first item's description when it exists and is non-empty, else "Invoice Summary" |
| Invoice.TemplateItems | internal/pdf/invoice_generator.go:92-99 | one row per item, in order, with every field copied |
| Router.BeforeEach | frontend/src/router/index.ts:142-166 | proceeds iff the session matches the page's need, or the page is the open splash page; a protected page without a session goes to splash while the store is loading, then to login when some user exists and to register otherwise; an open page redirects only to the dashboard, and only with a session |
| Router.NoRedirectLoop | frontend/src/router/index.ts:142-166 | every redirect target, guarded again with the same session state, proceeds |
| Router.SplashAlwaysProceeds | frontend/src/router/index.ts:157-164 | the splash page proceeds in every session state |
| Router.Navigate | frontend/src/router/index.ts:142-166 | the page finally shown passes the guard, needs a session only when there is one, and is the requested page whenever that one passes |
| Router.AfterEach | frontend/src/router/index.ts:135-139 | a protected page's full path is remembered; an open page leaves the record unchanged |
| Router.RememberedRouteIsProtected | frontend/src/router/index.ts:135-139 | the remembered route is always a protected page |
| Router.Resolve | frontend/src/router/index.ts:7-126 | a path whose table entry has a redirect resolves to the redirect target; any other path resolves to itself |
| Router.LookupIn | frontend/src/router/index.ts:7-126 | the entry found has the path asked for, and nothing is found iff no entry has it |
| Router.RootRedirect | frontend/src/router/index.ts:9-12 | "/" resolves to the open splash page |
| Router.SplashIsOpen | frontend/src/router/index.ts:13-17 | the splash page does not require a session |
| Router.LoginIsOpen | frontend/src/router/index.ts:18-22 | the login page does not require a session |
| Router.RegisterIsOpen | frontend/src/router/index.ts:23-27 | the registration page does not require a session |
| Router.DashboardIsProtected | frontend/src/router/index.ts:30-34 | the dashboard requires a session |
| Router.FinanceRedirect | frontend/src/router/index.ts:65-68 | "/finance" resolves to the protected "/finance/overview" |
| Router.FinanceOverviewIsProtected | frontend/src/router/index.ts:60-94 | "/finance/overview" is a protected page |
| Router.FinanceChildIsProtected | frontend/src/router/index.ts:60-94 | every non-empty child of "/finance" is found in the table and requires a session |
| Router.SettingsRedirect | frontend/src/router/index.ts:100-103 | "/settings" resolves to the protected "/settings/general" |
| Router.SettingsGeneralIsProtected | frontend/src/router/index.ts:95-125 | "/settings/general" is a protected page |
| AppModules.FinanceWellFormed | frontend/src/modules/finance/module.ts:5-54 | the id is "finance", disabled by default and toggleable; exactly one settings page ("finance", "settings.finance.title", order 50); and the descriptor is well formed: nav tagged, nav matching the routes, index redirect to a nav entry, settings tagged, every label resolving in both locales |
| AppModules.FinanceLabelKeys | frontend/src/modules/finance/module.ts:10-19 | the descriptor's label keys are "nav.finance", the six "finance.nav.<page>" keys and "settings.finance.title" |
| AppModules.FinanceLabelsResolve | frontend/src/modules/finance/module.ts:10-47 | every label key resolves to a string in both the en-US and the zh-CN messages |
| AppModules.CatalogueResolves | frontend/src/modules/finance/i18n.ts:4-107 | every label key of the descriptor resolves to a string in a message tree of the finance catalogue's shape |
| AppModules.NavFinanceResolves | frontend/src/modules/finance/i18n.ts:5-7 | "nav.finance" resolves to a string |
| AppModules.PageLabelResolves | frontend/src/modules/finance/i18n.ts:11-18 | each "finance.nav.<page>" key resolves to a string |
| AppModules.SettingsTitleResolves | frontend/src/modules/finance/i18n.ts:84-86 | "settings.finance.title" resolves to a string |
| AppModules.KeyPath | frontend/src/modules/finance/module.ts:10-19 | a dotted key splits back into its parts when the parts hold no dot |
| AppModules.FinancePagePaths | frontend/src/modules/finance/module.ts:27-41 | the route's non-empty child paths are the six pages, in order |
| AppModules.FinanceRouteShape | frontend/src/modules/finance/module.ts:22-43 | one top-level route "/finance" whose meta requires a session, uses the main layout and is tagged with the module |
| AppModules.FinanceIndexRedirect | frontend/src/modules/finance/module.ts:28 | the empty child path redirects to "/finance/overview" |
| AppModules.OverviewIsFirstNavEntry | frontend/src/modules/finance/module.ts:14-28 | the index redirect target is the first nav entry |
| AppModules.FinanceRouteInRouter | frontend/src/router/index.ts:60-94 | the router's "/finance" record is the module's route, with the same children and a meta that agrees on session and layout |
| AppModules.NavEntryPath | frontend/src/modules/finance/module.ts:14-19 | nav entry i opens the router path of child route i + 1 under "/finance" |
| AppModules.FinanceNavIsProtected | frontend/src/modules/finance/module.ts:14-19 | every finance nav entry opens a page of the router's table that requires a session |

## Left out

- `FormatAmount`, `FormatDate` and the legacy PDF quantity, rate and amount
  arithmetic: they format floats and depend on Go's time layouts and
  timezone database. Invoice amounts are a type parameter that is only copied.
- PDF drawing, font loading, HTML template execution, the print-to-PDF path
  and the template-directory search: external libraries and file I/O.
- HTTP requests, JSON decoding, status-code checks, and file creation and
  copying in the update package. A release arrives already decoded. The
  `update.json` download is represented by its URL only.
- SHA-256: `VerifyHash` receives the digest bytes as a parameter, and the
  file reading before it is not modelled.
- The git commands, the printing, and the reading and writing of
  `wails.json` in the release tool. The configuration is a string, and its
  version is the one `json.Unmarshal` would extract, given as a parameter.
- The blang/semver library is not part of this model. Parsing and precedence
  follow Semantic Versioning 2.0.0. A numeric component at or above 2^64 is
  rejected, because the library parses it as `uint64`.
- Formatters.FormatServiceType: Go upper-cases the first byte of each word.
  The model works on characters and upper-cases only ASCII letters. A word
  starting with a non-ASCII character is left as it is, whereas Go would
  split its UTF-8 encoding.
- `strings.ToLower` on field names and asset names is modelled as ASCII
  lower-casing. Unicode case mapping is not modelled.
- Reflection over struct fields and `%v` rendering are
  not modelled. The fields arrive as name, json tag, exported flag and
  rendered value. The panic of `Interface()` on an unexported field is a
  failure result; embedded structs and methods are not modelled.
- Router: vue-router's own path matching is not modelled. That covers
  case-insensitivity, trailing slashes, parameters and catch-alls. Lookup is
  exact on the flattened table.
- The auth store is not modelled beyond the three values the guard reads:
  initialised, authenticated and the number of users.
- `localStorage` is a value passed in and returned.
- Component imports, icons and layouts other than the meta's layout tag are
  not modelled.
- AppModules: the catalogue leaves out whole subtrees of each locale, namely
  `finance.overview` and `settings.finance.fields`, `.placeholders`, `.hints`
  and `.messages`. Every left-out entry has a name that differs from its
  modelled siblings, and a lookup takes the first entry with the name asked
  for. So the label keys resolve in the full tree to the same strings as in
  the modelled one. Module enablement, overrides and route gating do not
  appear in the modelled files.
- Downloader.WriteAll: the counter is unbounded. Go's `int64` would overflow
  only after 2^63 bytes, which the model does not track.
- TemplateFuncs.Sub requires both arguments to be 64-bit values, as Go's
  `int` parameters are. The template engine's conversion of other argument
  types is not modelled.
- Pinia stores, `app.go`, `main.ts`, view tests and end-to-end specs: UI and
  asynchronous glue outside the core.

## Findings

| source | as written | input that shows it | evidently intended | confidence | as-written member | corrected member |
|---|---|---|---|---|---|---|
| cmd/release/main.go:50-58 | `newVer.Major++` (and `Minor++`, `Patch++`) on `uint64` fields wraps round to 0 at the maximum | version "18446744073709551615.0.0" with part "major" becomes "0.0.0", which ranks below the current version | a bump always yields a higher version, or the tool stops with an error | not executed | Release.BumpAsWrittenGoesBackwards | Release.Bump |

=== FILE: collections.dfy ===
/** Small sequence and map folds that several source loops share. */
module Collections {

  /** Item `i` is the last item of `items` whose keys include `k`. */
  predicate IsLastWith<T, K>(items: seq<T>, keys: T -> set<K>, k: K, i: int) {
    && 0 <= i < |items|
    && k in keys(items[i])
    && forall j :: i < j < |items| ==> k !in keys(items[j])
  }

  lemma LastWithExtends<T, K>(items: seq<T>, keys: T -> set<K>, k: K, i: int)
    requires |items| > 0 && k !in keys(items[|items| - 1])
    requires IsLastWith(items[..|items| - 1], keys, k, i)
    ensures IsLastWith(items, keys, k, i)
  {
    var init := items[..|items| - 1];
    forall j | i < j < |items| ensures k !in keys(items[j]) {
      if j < |init| {
        assert items[j] == init[j];
      }
    }
  }

  /**
   * The map built by a loop that, for each item in order, stores `value(x)`
   * under every key in `keys(x)`: a later item overwrites an earlier one.
   */
  function LastWins<T, K(!new), V>(items: seq<T>, keys: T -> set<K>, value: T -> V): (m: map<K, V>)
    ensures forall k :: k in m <==> exists i :: 0 <= i < |items| && k in keys(items[i])
    ensures forall k :: k in m ==> exists i :: IsLastWith(items, keys, k, i) && m[k] == value(items[i])
  {
    if |items| == 0 then map[]
    else
      var init := items[..|items| - 1];
      var x := items[|items| - 1];
      var m0 := LastWins(init, keys, value);
      var m := map k | k in m0.Keys + keys(x) :: if k in keys(x) then value(x) else m0[k];
      assert forall i :: 0 <= i < |init| ==> init[i] == items[i];
      assert forall k :: k in m ==> exists i :: IsLastWith(items, keys, k, i) && m[k] == value(items[i]) by {
        forall k | k in m
          ensures exists i :: IsLastWith(items, keys, k, i) && m[k] == value(items[i])
        {
          if k in keys(x) {
            assert IsLastWith(items, keys, k, |items| - 1);
          } else {
            var i :| IsLastWith(init, keys, k, i) && m0[k] == value(init[i]);
            LastWithExtends(items, keys, k, i);
          }
        }
      }
      m
  }

  /** Two item lists that agree item by item on keys and value build the same map. */
  lemma {:induction false} LastWinsPointwise<T, K(!new), V>(a: seq<T>, b: seq<T>, keys: T -> set<K>, value: T -> V)
    requires |a| == |b|
    requires forall i :: 0 <= i < |a| ==> keys(a[i]) == keys(b[i]) && value(a[i]) == value(b[i])
    ensures LastWins(a, keys, value) == LastWins(b, keys, value)
  {
    if |a| > 0 {
      var n := |a| - 1;
      assert forall i :: 0 <= i < n ==> a[..n][i] == a[i] && b[..n][i] == b[i];
      LastWinsPointwise(a[..n], b[..n], keys, value);
    }
  }

  /** The sum of a sequence of naturals, added up from the front. */
  function Sum(xs: seq<nat>): nat
  {
    if |xs| == 0 then 0 else Sum(xs[..|xs| - 1]) + xs[|xs| - 1]
  }

  /** Summing splits over concatenation. */
  lemma {:induction false} SumAppend(a: seq<nat>, b: seq<nat>)
    ensures Sum(a + b) == Sum(a) + Sum(b)
    decreases |b|
  {
    if |b| > 0 {
      var n := |b| - 1;
      assert (a + b)[..|a + b| - 1] == a + b[..n];
      SumAppend(a, b[..n]);
    } else {
      assert a + b == a;
    }
  }

  /** The first non-empty candidate, or "" when every candidate is empty. */
  function FirstNonEmpty(candidates: seq<string>): (r: string)
    ensures r == "" <==> forall i :: 0 <= i < |candidates| ==> candidates[i] == ""
    ensures r != "" ==>
              exists i :: 0 <= i < |candidates| && candidates[i] == r
                          && forall j :: 0 <= j < i ==> candidates[j] == ""
  {
    if |candidates| == 0 then ""
    else if candidates[0] != "" then candidates[0]
    else
      var r := FirstNonEmpty(candidates[1..]);
      assert forall i :: 1 <= i < |candidates| ==> candidates[1..][i - 1] == candidates[i];
      r
  }

  lemma FirstNonEmptyCons(x: string, xs: seq<string>)
    ensures FirstNonEmpty([x] + xs) == if x != "" then x else FirstNonEmpty(xs)
  {
    assert ([x] + xs)[1..] == xs;
  }
}

=== FILE: downloader.dfy ===
/**
 * The download helpers of the update package: the progress counter that
 * sits between the response body and the file, and the digest comparison
 * that accepts a downloaded file. The HTTP transfer, the file system and
 * SHA-256 itself are outside the model; the digest is a parameter.
 */
module Downloader {
  import opened Wrappers
  import opened Collections

  // ---------------------------------------------------------------------------
  // Progress counter
  // ---------------------------------------------------------------------------

  /** The size reported when the response does not say how long it is. */
  const UnknownSize: int := -1

  /** `progressWriter`: the announced size, the bytes seen so far, and whether a callback is set. */
  datatype ProgressWriter = ProgressWriter(total: int, current: nat, hasCallback: bool)

  /** One callback invocation, `onProgress(total, current)`. */
  datatype Report = Report(total: int, current: nat)

  /** The counter a download starts with: nothing seen yet. */
  function NewProgressWriter(contentLength: int, hasCallback: bool): (pw: ProgressWriter)
    ensures pw.total == contentLength && pw.current == 0 && pw.hasCallback == hasCallback
  {
    ProgressWriter(contentLength, 0, hasCallback)
  }

  /** The result of one `Write`: the new counter, the count returned, and the callbacks made. */
  datatype WriteResult = WriteResult(writer: ProgressWriter, written: nat, reports: seq<Report>)

  /**
   * `Write`: the whole chunk is always accepted; the counter grows by its
   * length and, when a callback is set, it is called once with the total and
   * the new count.
   */
  function Write(pw: ProgressWriter, chunkLength: nat): (r: WriteResult)
    ensures r.written == chunkLength
    ensures r.writer.total == pw.total && r.writer.hasCallback == pw.hasCallback
    ensures r.writer.current == pw.current + chunkLength
    ensures |r.reports| == (if pw.hasCallback then 1 else 0)
    ensures forall i :: 0 <= i < |r.reports| ==> r.reports[i] == Report(pw.total, r.writer.current)
  {
    var next := pw.(current := pw.current + chunkLength);
    WriteResult(next, chunkLength, if pw.hasCallback then [Report(next.total, next.current)] else [])
  }

  /** Reported counts never go down. */
  predicate NonDecreasing(reports: seq<Report>) {
    forall i, j :: 0 <= i < j < |reports| ==> reports[i].current <= reports[j].current
  }

  /**
   * A whole copy: one `Write` per chunk. The final count is the sum of the
   * chunk lengths, there is one report per chunk exactly when a callback is
   * set, every report carries the unchanged total, and the reported counts
   * never go down.
   */
  method WriteAll(pw: ProgressWriter, chunks: seq<nat>) returns (final: ProgressWriter, reports: seq<Report>)
    ensures final.total == pw.total && final.hasCallback == pw.hasCallback
    ensures final.current == pw.current + Sum(chunks)
    ensures |reports| == (if pw.hasCallback then |chunks| else 0)
    ensures forall i :: 0 <= i < |reports| ==> reports[i].total == pw.total
    ensures forall i :: 0 <= i < |reports| ==> reports[i].current == pw.current + Sum(chunks[..i + 1])
    ensures NonDecreasing(reports)
    ensures |reports| > 0 ==> reports[|reports| - 1].current == final.current
  {
    final := pw;
    reports := [];
    for k := 0 to |chunks|
      invariant final.total == pw.total && final.hasCallback == pw.hasCallback
      invariant final.current == pw.current + Sum(chunks[..k])
      invariant |reports| == (if pw.hasCallback then k else 0)
      invariant forall i :: 0 <= i < |reports| ==> reports[i] == Report(pw.total, pw.current + Sum(chunks[..i + 1]))
      invariant forall i :: 0 <= i < |reports| ==> reports[i].current <= final.current
      invariant NonDecreasing(reports)
    {
      var r := Write(final, chunks[k]);
      SumStep(chunks, k);
      if pw.hasCallback {
        ReportsStep(pw, chunks, reports, r.reports[0]);
      } else {
        assert r.reports == [];
      }
      final := r.writer;
      reports := reports + r.reports;
    }
    assert chunks[..|chunks|] == chunks;
  }

  lemma SumStep(xs: seq<nat>, k: nat)
    requires k < |xs|
    ensures Sum(xs[..k + 1]) == Sum(xs[..k]) + xs[k]
  {
    assert xs[..k + 1] == xs[..k] + [xs[k]];
    SumAppend(xs[..k], [xs[k]]);
    assert [xs[k]][..0] == [];
  }

  /** Appending the report of chunk `|reports|` keeps the reports in step with the chunks. */
  lemma ReportsStep(pw: ProgressWriter, chunks: seq<nat>, reports: seq<Report>, next: Report)
    requires |reports| < |chunks|
    requires forall i :: 0 <= i < |reports| ==> reports[i] == Report(pw.total, pw.current + Sum(chunks[..i + 1]))
    requires next == Report(pw.total, pw.current + Sum(chunks[..|reports| + 1]))
    ensures forall i :: 0 <= i < |reports| + 1 ==> (reports + [next])[i] == Report(pw.total, pw.current + Sum(chunks[..i + 1]))
  {
  }

  /** A counter without a callback reports nothing, however much is written. */
  method WriteAllSilent(pw: ProgressWriter, chunks: seq<nat>) returns (reports: seq<Report>)
    requires !pw.hasCallback
    ensures reports == []
  {
    var final;
    final, reports := WriteAll(pw, chunks);
  }

  /**
   * A download whose response does not announce its length: every report
   * carries the unknown size and the running count of bytes received.
   */
  method DownloadOfUnknownSize(chunks: seq<nat>) returns (reports: seq<Report>)
    ensures |reports| == |chunks|
    ensures forall i :: 0 <= i < |reports| ==> reports[i] == Report(UnknownSize, Sum(chunks[..i + 1]))
  {
    var final;
    final, reports := WriteAll(NewProgressWriter(UnknownSize, true), chunks);
  }

  // ---------------------------------------------------------------------------
  // Digest comparison
  // ---------------------------------------------------------------------------

  newtype Byte = x: int | 0 <= x < 256

  const HexDigits: string := "0123456789abcdef"

  /** Two lower-case hexadecimal digits, high nibble first. */
  function HexByte(b: Byte): (s: string)
    ensures |s| == 2 && s[0] in HexDigits && s[1] in HexDigits
    ensures s[0] == HexDigits[b as int / 16] && s[1] == HexDigits[b as int % 16]
  {
    [HexDigits[b as int / 16], HexDigits[b as int % 16]]
  }

  /** `hex.EncodeToString`. */
  function HexEncode(digest: seq<Byte>): (s: string)
    ensures |s| == 2 * |digest|
    ensures forall i :: 0 <= i < |s| ==> s[i] in HexDigits
    ensures forall i :: 0 <= i < |digest| ==>
              s[2 * i] == HexDigits[digest[i] as int / 16] && s[2 * i + 1] == HexDigits[digest[i] as int % 16]
  {
    if digest == [] then []
    else
      var rest := HexEncode(digest[1..]);
      HexConsDigits(digest, HexByte(digest[0]), rest);
      HexByte(digest[0]) + rest
  }

  /** The digit pairs of a digest, given the pair of its first byte and those of the rest. */
  lemma HexConsDigits(digest: seq<Byte>, head: string, rest: string)
    requires |digest| > 0 && |head| == 2 && |rest| == 2 * (|digest| - 1)
    requires head[0] == HexDigits[digest[0] as int / 16] && head[1] == HexDigits[digest[0] as int % 16]
    requires forall i :: 0 <= i < |digest| - 1 ==>
               rest[2 * i] == HexDigits[digest[1..][i] as int / 16] && rest[2 * i + 1] == HexDigits[digest[1..][i] as int % 16]
    ensures forall i :: 0 <= i < |digest| ==>
              (head + rest)[2 * i] == HexDigits[digest[i] as int / 16] && (head + rest)[2 * i + 1] == HexDigits[digest[i] as int % 16]
  {
    var s := head + rest;
    forall i | 0 <= i < |digest|
      ensures s[2 * i] == HexDigits[digest[i] as int / 16] && s[2 * i + 1] == HexDigits[digest[i] as int % 16]
    {
      if i > 0 {
        assert s[2 * i] == rest[2 * (i - 1)] && s[2 * i + 1] == rest[2 * (i - 1) + 1];
        assert digest[1..][i - 1] == digest[i];
      }
    }
  }

  /** The value of a lower-case hexadecimal digit. */
  function HexValue(c: char): (r: Option<nat>)
    ensures r.Some? <==> c in HexDigits
    ensures r.Some? ==> r.value < 16 && HexDigits[r.value] == c
  {
    if '0' <= c <= '9' then Some(c as int - '0' as int)
    else if 'a' <= c <= 'f' then Some(c as int - 'a' as int + 10)
    else None
  }

  /** The reading of a lower-case hexadecimal text back into bytes. */
  function HexDecode(s: string): (r: Option<seq<Byte>>)
    ensures r.Some? ==> |s| == 2 * |r.value|
    decreases |s|
  {
    if |s| < 2 then
      if s == [] then Some([]) else None
    else
      match (HexValue(s[0]), HexValue(s[1]), HexDecode(s[2..]))
      case (Some(hi), Some(lo), Some(rest)) => Some([ByteOf(hi, lo)] + rest)
      case _ => None
  }

  /** The byte with the given high and low nibbles. */
  function ByteOf(hi: nat, lo: nat): Byte
    requires hi < 16 && lo < 16
  {
    (hi * 16 + lo) as Byte
  }

  lemma HexDigitValue(k: nat)
    requires k < 16
    ensures HexValue(HexDigits[k]) == Some(k)
  {
  }

  lemma Nibbles(b: Byte)
    ensures ByteOf(b as int / 16, b as int % 16) == b
  {
  }

  /** Reading two digits and then the rest. */
  lemma HexDecodeCons(hi: nat, lo: nat, rest: string)
    requires hi < 16 && lo < 16
    ensures var r := HexDecode(rest);
      HexDecode([HexDigits[hi], HexDigits[lo]] + rest) == if r.Some? then Some([ByteOf(hi, lo)] + r.value) else None
  {
    var s := [HexDigits[hi], HexDigits[lo]] + rest;
    HexDigitValue(hi);
    HexDigitValue(lo);
    assert s[0] == HexDigits[hi] && s[1] == HexDigits[lo] && s[2..] == rest;
  }

  /** Encoding loses nothing: the hexadecimal text reads back to the digest. */
  lemma {:induction false} HexRoundTrip(digest: seq<Byte>)
    ensures HexDecode(HexEncode(digest)) == Some(digest)
  {
    if digest != [] {
      var b := digest[0];
      var tail := HexEncode(digest[1..]);
      assert HexEncode(digest) == [HexDigits[b as int / 16], HexDigits[b as int % 16]] + tail;
      HexRoundTrip(digest[1..]);
      HexDecodeCons(b as int / 16, b as int % 16, tail);
      Nibbles(b);
      assert [b] + digest[1..] == digest;
    }
  }

  /** Different digests never print the same. */
  lemma HexEncodeInjective(a: seq<Byte>, b: seq<Byte>)
    requires HexEncode(a) == HexEncode(b)
    ensures a == b
  {
    HexRoundTrip(a);
    HexRoundTrip(b);
  }

  datatype HashError = Mismatch(expected: string, actual: string)

  /**
   * `VerifyHash` once the file's SHA-256 digest is known: accepted exactly
   * when the expected text is the digest's lower-case hexadecimal text,
   * compared case-sensitively.
   */
  function VerifyHash(digest: seq<Byte>, expectedHash: string): (r: Result<(), HashError>)
    ensures r.Success? <==> expectedHash == HexEncode(digest)
    ensures r.Failure? ==> r.error == Mismatch(expectedHash, HexEncode(digest))
  {
    var actual := HexEncode(digest);
    if actual != expectedHash then Failure(Mismatch(expectedHash, actual)) else Success(())
  }

  /** An expected hash accepts at most one digest. */
  lemma VerifyHashAcceptsOneDigest(a: seq<Byte>, b: seq<Byte>, expectedHash: string)
    requires VerifyHash(a, expectedHash).Success? && VerifyHash(b, expectedHash).Success?
    ensures a == b
  {
    HexEncodeInjective(a, b);
  }

  /** An expected hash written with an upper-case letter is never accepted. */
  lemma VerifyHashIsCaseSensitive(digest: seq<Byte>, expectedHash: string, i: nat)
    requires i < |expectedHash| && 'A' <= expectedHash[i] <= 'F'
    ensures VerifyHash(digest, expectedHash).Failure?
  {
  }
}

=== FILE: formatters.dfy ===
/**
 * The string helpers of internal/utils/formatters.go: the currency-symbol
 * table, snake_case to Title Case conversion, and `{{key}}` placeholder
 * substitution over the key/value map that reflection builds from a struct.
 */
module Formatters {
  import opened Wrappers
  import opened Strings
  import opened Collections

  // ---------------------------------------------------------------------------
  // GetCurrencySymbol
  // ---------------------------------------------------------------------------

  const CurrencySymbols: map<string, string> :=
    map["CAD" := "$", "USD" := "$", "CNY" := "¥", "EUR" := "€", "GBP" := "£", "JPY" := "¥"]

  /** The symbol printed before amounts; codes outside the table fall back to "$". */
  function GetCurrencySymbol(currency: string): (r: string)
    ensures r in {"$", "¥", "€", "£"}
    ensures r == "¥" <==> currency == "CNY" || currency == "JPY"
    ensures r == "€" <==> currency == "EUR"
    ensures r == "£" <==> currency == "GBP"
  {
    if currency in CurrencySymbols then CurrencySymbols[currency] else "$"
  }

  /** The table is exact: lower-case codes are not recognised and default to "$". */
  lemma CurrencySymbolTable()
    ensures GetCurrencySymbol("CAD") == "$" && GetCurrencySymbol("USD") == "$"
    ensures GetCurrencySymbol("CNY") == "¥" && GetCurrencySymbol("JPY") == "¥"
    ensures GetCurrencySymbol("EUR") == "€" && GetCurrencySymbol("GBP") == "£"
    ensures GetCurrencySymbol("cad") == "$" && GetCurrencySymbol("") == "$"
  {
    assert "cad" !in CurrencySymbols;
  }

  // ---------------------------------------------------------------------------
  // FormatServiceType
  // ---------------------------------------------------------------------------

  /** `strings.ReplaceAll(s, "_", " ")`. */
  function UnderscoresToSpaces(s: string): (r: string)
    ensures |r| == |s|
    ensures forall i :: 0 <= i < |s| ==> r[i] == (if s[i] == '_' then ' ' else s[i])
  {
    seq(|s|, i requires 0 <= i < |s| => if s[i] == '_' then ' ' else s[i])
  }

  /** Upper-cases the first character of a word when it is an ASCII letter. */
  function Capitalize(w: string): (r: string)
    ensures |r| == |w|
    ensures |w| > 0 ==> r[0] == UpperChar(w[0]) && r[1..] == w[1..]
  {
    if w == [] then [] else [UpperChar(w[0])] + w[1..]
  }

  function CapitalizeAll(words: seq<string>): (r: seq<string>)
    ensures |r| == |words|
    ensures forall i :: 0 <= i < |words| ==> r[i] == Capitalize(words[i])
  {
    seq(|words|, i requires 0 <= i < |words| => Capitalize(words[i]))
  }

  predicate IsSeparator(c: char) {
    c == '_' || IsSpace(c)
  }

  /**
   * `FormatServiceType`: "software_development" becomes "Software Development".
   * The result is empty exactly when the input holds nothing but underscores
   * and white space, and it never contains an underscore.
   */
  function FormatServiceType(serviceType: string): (r: string)
    ensures r == "" <==> forall i :: 0 <= i < |serviceType| ==> IsSeparator(serviceType[i])
    ensures '_' !in r
    ensures forall i :: 0 <= i < |r| && IsSpace(r[i]) ==> r[i] == ' '
  {
    if serviceType == "" then ""
    else
      var words := Fields(UnderscoresToSpaces(serviceType));
      var r := Join(CapitalizeAll(words), " ");
      CapitalizedWords(words);
      JoinOfWordsIsTidy(CapitalizeAll(words));
      OnlySeparatorSpaces(CapitalizeAll(words));
      FieldsEmptyIffBlank(UnderscoresToSpaces(serviceType));
      NoUnderscoreInFormatted(serviceType);
      r
  }

  lemma CapitalizedWords(words: seq<string>)
    requires forall i :: 0 <= i < |words| ==> IsWord(words[i])
    ensures forall i :: 0 <= i < |words| ==> IsWord(CapitalizeAll(words)[i])
  {
    forall i | 0 <= i < |words| ensures IsWord(CapitalizeAll(words)[i]) {
      var w := words[i];
      var c := Capitalize(w);
      forall j | 0 <= j < |c| ensures !IsSpace(c[j]) {
        if j > 0 {
          assert c[j] == c[1..][j - 1] == w[1..][j - 1] == w[j];
        }
      }
    }
  }

  lemma {:induction false} FieldsEmptyIffBlank(s: string)
    ensures Fields(s) == [] <==> forall i :: 0 <= i < |s| ==> IsSpace(s[i])
  {
    var t := TrimLeft(s);
    if t != [] {
      assert s[|s| - |t|] == t[0];
    }
  }

  /** A character that is not in a text is in none of its fields. */
  lemma {:induction false} FieldsExclude(s: string, c: char)
    requires c !in s
    ensures forall i :: 0 <= i < |Fields(s)| ==> c !in Fields(s)[i]
    decreases |s|
  {
    var t := TrimLeft(s);
    if t != [] {
      var w := TakeWord(t);
      var rest := t[|w|..];
      FieldsStep(s);
      NotInSuffix(s, |s| - |t|, c);
      NotInPrefix(t, |w|, c);
      NotInSuffix(t, |w|, c);
      FieldsExclude(rest, c);
      ConsExcludes(w, Fields(rest), c);
    }
  }

  /** The first field is the word after the leading white space; the rest come from what follows it. */
  lemma FieldsStep(s: string)
    requires TrimLeft(s) != []
    ensures Fields(s) == [TakeWord(TrimLeft(s))] + Fields(TrimLeft(s)[|TakeWord(TrimLeft(s))|..])
  {
  }

  lemma ConsExcludes(w: string, more: seq<string>, c: char)
    requires c !in w && forall i :: 0 <= i < |more| ==> c !in more[i]
    ensures forall i :: 0 <= i < |[w] + more| ==> c !in ([w] + more)[i]
  {
  }

  lemma NotInPrefix(s: string, n: nat, c: char)
    requires n <= |s| && c !in s
    ensures c !in s[..n]
  {
  }

  lemma NotInSuffix(s: string, n: nat, c: char)
    requires n <= |s| && c !in s
    ensures c !in s[n..]
  {
  }

  /** Every character of a join is either a character of the separator or of a part. */
  lemma {:induction false} JoinChars(parts: seq<string>, sep: string, c: char)
    requires c in Join(parts, sep)
    ensures c in sep || exists i :: 0 <= i < |parts| && c in parts[i]
  {
    if |parts| > 1 {
      var rest := Join(parts[1..], sep);
      assert Join(parts, sep) == parts[0] + sep + rest;
      if c in rest {
        JoinChars(parts[1..], sep, c);
        if !(c in sep) {
          var i :| 0 <= i < |parts[1..]| && c in parts[1..][i];
          assert parts[1..][i] == parts[i + 1];
        }
      }
    }
  }

  /** In words joined by single spaces, the only white space is those spaces. */
  lemma OnlySeparatorSpaces(words: seq<string>)
    requires forall i :: 0 <= i < |words| ==> IsWord(words[i])
    ensures var s := Join(words, " "); forall i :: 0 <= i < |s| && IsSpace(s[i]) ==> s[i] == ' '
  {
    var s := Join(words, " ");
    forall i | 0 <= i < |s| && IsSpace(s[i])
      ensures s[i] == ' '
    {
      JoinChars(words, " ", s[i]);
    }
  }

  lemma NoUnderscoreInFormatted(serviceType: string)
    requires serviceType != ""
    ensures '_' !in Join(CapitalizeAll(Fields(UnderscoresToSpaces(serviceType))), " ")
  {
    var u := UnderscoresToSpaces(serviceType);
    var words := Fields(u);
    var caps := CapitalizeAll(words);
    assert '_' !in u;
    if '_' in Join(caps, " ") {
      JoinChars(caps, " ", '_');
      var i :| 0 <= i < |caps| && '_' in caps[i];
      var w := words[i];
      var k :| 0 <= k < |caps[i]| && caps[i][k] == '_';
      if k == 0 {
        assert UpperChar(w[0]) == '_';
        assert w[0] == '_';
      } else {
        assert caps[i][k] == w[k];
      }
      assert '_' in w;
      FieldsExclude(u, '_');
      assert false;
    }
  }

  /** The words of the output are the underscore- or space-separated fields of the input, capitalised, in order. */
  lemma FormatServiceTypeWords(serviceType: string)
    ensures Fields(FormatServiceType(serviceType)) == CapitalizeAll(Fields(UnderscoresToSpaces(serviceType)))
  {
    if serviceType != "" {
      var words := Fields(UnderscoresToSpaces(serviceType));
      CapitalizedWords(words);
      FieldsOfJoin(CapitalizeAll(words));
    }
  }

  /** The output has no white space at either end and never two white-space characters in a row. */
  lemma FormatServiceTypeIsTidy(serviceType: string)
    ensures var r := FormatServiceType(serviceType);
      && (r != "" ==> !IsSpace(r[0]) && !IsSpace(r[|r| - 1]))
      && (forall i :: 0 <= i < |r| - 1 ==> !(IsSpace(r[i]) && IsSpace(r[i + 1])))
  {
    if serviceType != "" {
      var words := Fields(UnderscoresToSpaces(serviceType));
      CapitalizedWords(words);
      JoinOfWordsIsTidy(CapitalizeAll(words));
    }
  }

  lemma UpperCharIdempotent(c: char)
    ensures UpperChar(UpperChar(c)) == UpperChar(c)
  {
  }

  /** Formatting an already formatted service type changes nothing. */
  lemma FormatServiceTypeIdempotent(serviceType: string)
    ensures FormatServiceType(FormatServiceType(serviceType)) == FormatServiceType(serviceType)
  {
    var r := FormatServiceType(serviceType);
    if r != "" {
      var words := Fields(UnderscoresToSpaces(serviceType));
      var caps := CapitalizeAll(words);
      assert r == Join(caps, " ");
      assert UnderscoresToSpaces(r) == r;
      CapitalizedWords(words);
      FieldsOfJoin(caps);
      assert CapitalizeAll(caps) == caps by {
        forall i | 0 <= i < |caps| ensures Capitalize(caps[i]) == caps[i] {
          UpperCharIdempotent(words[i][0]);
        }
      }
    }
  }

  // ---------------------------------------------------------------------------
  // ApplyTemplate
  // ---------------------------------------------------------------------------

  /**
   * One struct field as reflection sees it: its Go name, its `json` tag
   * (empty when absent), whether it is exported, and its value already
   * rendered with `%v`.
   */
  datatype Field = Field(name: string, jsonTag: string, exported: bool, value: string)

  /**
   * `fieldVal.Interface()` panics on a field that is not exported; the panic
   * of the first such field in the loop is what `ApplyTemplate` then raises.
   */
  datatype TemplateError = UnexportedField(name: string)

  /** What `ApplyTemplate` receives: a struct (or a pointer to one), or any other value. */
  datatype TemplateData = NotStruct | Struct(fields: seq<Field>)

  /** The key a field is stored under: its json name when that is usable, else its lower-cased name. */
  function FieldKey(f: Field): (k: string)
    ensures k == Lower(f.name) || k == Split(f.jsonTag, ',')[0]
    ensures k != "-" || Lower(f.name) == "-"
  {
    var key := Lower(f.name);
    if f.jsonTag != "" then
      var jsonName := Split(f.jsonTag, ',')[0];
      if jsonName != "" && jsonName != "-" then jsonName else key
    else key
  }

  /** Every field is stored under its key and also under its lower-cased name. */
  function FieldKeys(f: Field): set<string> {
    {FieldKey(f), Lower(f.name)}
  }

  function FieldValue(f: Field): string {
    f.value
  }

  /**
   * The `dataMap` loop: a key is present exactly when some field provides it,
   * and it holds the value of the last field that does.
   */
  function DataMap(fields: seq<Field>): (m: map<string, string>)
    ensures forall k :: k in m <==> exists i :: 0 <= i < |fields| && k in FieldKeys(fields[i])
    ensures forall k :: k in m ==> exists i :: IsLastWith(fields, FieldKeys, k, i) && m[k] == fields[i].value
  {
    LastWins(fields, FieldKeys, FieldValue)
  }

  /** Go's RE2 `\s`: tab, newline, form feed, carriage return and space. */
  predicate IsRegexSpace(c: char) {
    c == '\t' || c == '\n' || c as int == 12 || c == '\r' || c == ' '
  }

  /** The regex class `[a-zA-Z0-9_]`. */
  predicate IsKeyChar(c: char) {
    IsAsciiLetterOrDigit(c) || c == '_'
  }

  /** Where the run of `\s` characters that starts at `i` ends. */
  function SpaceEnd(s: string, i: nat): (j: nat)
    requires i <= |s|
    ensures i <= j <= |s|
    ensures forall k :: i <= k < j ==> IsRegexSpace(s[k])
    ensures j == |s| || !IsRegexSpace(s[j])
    decreases |s| - i
  {
    if i < |s| && IsRegexSpace(s[i]) then SpaceEnd(s, i + 1) else i
  }

  /** Where the run of key characters that starts at `i` ends. */
  function KeyEnd(s: string, i: nat): (j: nat)
    requires i <= |s|
    ensures i <= j <= |s|
    ensures forall k :: i <= k < j ==> IsKeyChar(s[k])
    ensures j == |s| || !IsKeyChar(s[j])
    decreases |s| - i
  {
    if i < |s| && IsKeyChar(s[i]) then KeyEnd(s, i + 1) else i
  }

  /** A match of `\{\{\s*([a-zA-Z0-9_]+)\s*\}\}`: its length and the captured key. */
  datatype Placeholder = Placeholder(length: nat, key: string)

  /**
   * The match of the placeholder pattern that starts at the first character
   * of `s`, if any. The three classes `\s`, the key characters and `}` are
   * disjoint, so the greedy match is the only one.
   */
  function MatchAt(s: string): (r: Option<Placeholder>)
    ensures r.Some? ==> 4 < r.value.length <= |s| && s[0] == '{' && s[1] == '{'
    ensures r.Some? ==> |r.value.key| > 0 && forall i :: 0 <= i < |r.value.key| ==> IsKeyChar(r.value.key[i])
  {
    if |s| >= 2 && s[0] == '{' && s[1] == '{' then
      var a := SpaceEnd(s, 2);
      var b := KeyEnd(s, a);
      if b == a then None
      else MatchClose(s, SpaceEnd(s, b), s[a..b])
    else None
  }

  /** The closing braces at `c` end the match there. */
  function MatchClose(s: string, c: nat, key: string): (r: Option<Placeholder>)
    ensures r.Some? <==> c + 2 <= |s| && s[c] == '}' && s[c + 1] == '}'
    ensures r.Some? ==> r.value == Placeholder(c + 2, key)
  {
    if c + 2 <= |s| && s[c] == '}' && s[c + 1] == '}' then Some(Placeholder(c + 2, key)) else None
  }

  /**
   * `ReplaceAllStringFunc` with the placeholder pattern: a single left-to-right
   * pass; a matched placeholder becomes the value stored under its lower-cased
   * key, or stays as it is when the key is unknown; scanning resumes after the
   * match, so substituted values are never scanned again.
   */
  function Substitute(s: string, data: map<string, string>): string
    decreases |s|
  {
    if s == [] then []
    else
      match MatchAt(s)
      case Some(p) =>
        var key := Lower(p.key);
        (if key in data then data[key] else s[..p.length]) + Substitute(s[p.length..], data)
      case None =>
        [s[0]] + Substitute(s[1..], data)
  }

  /** The position of the first field that is not exported, if any. */
  function FirstUnexported(fields: seq<Field>): (r: Option<nat>)
    ensures r.None? <==> forall i :: 0 <= i < |fields| ==> fields[i].exported
    ensures r.Some? ==> r.value < |fields| && !fields[r.value].exported
    ensures r.Some? ==> forall j :: 0 <= j < r.value ==> fields[j].exported
  {
    if fields == [] then None
    else if !fields[0].exported then Some(0)
    else
      match FirstUnexported(fields[1..])
      case None => None
      case Some(i) => Some(i + 1)
  }

  /**
   * `ApplyTemplate`: "" stays "" and a non-struct leaves the template
   * untouched, before reflection looks at any field; otherwise a struct with
   * a field that is not exported is the panic of its first such field, and
   * any other struct is the substitution over its data map.
   */
  function ApplyTemplate(template: string, data: TemplateData): (r: Result<string, TemplateError>)
    ensures template == "" ==> r == Success("")
    ensures template != "" && data.NotStruct? ==> r == Success(template)
    ensures r.Failure? <==> template != "" && data.Struct? && exists i :: 0 <= i < |data.fields| && !data.fields[i].exported
    ensures r.Failure? ==> exists i :: && 0 <= i < |data.fields| && !data.fields[i].exported
                                      && (forall j :: 0 <= j < i ==> data.fields[j].exported)
                                      && r.error == UnexportedField(data.fields[i].name)
  {
    if template == "" then Success("")
    else
      match data
      case NotStruct => Success(template)
      case Struct(fields) =>
        match FirstUnexported(fields)
        case Some(i) => Failure(UnexportedField(fields[i].name))
        case None => Success(Substitute(template, DataMap(fields)))
  }

  /** With no data every placeholder is kept verbatim, so the text is unchanged. */
  lemma {:induction false} SubstituteNothing(s: string)
    ensures Substitute(s, map[]) == s
    decreases |s|
  {
    if s != [] {
      var n := SubstituteNothingStep(s);
      SubstituteNothing(s[n..]);
      TakeDrop(s, n);
    }
  }

  /** One step of the scan with no data: the next `n` characters are copied as they are. */
  lemma SubstituteNothingStep(s: string) returns (n: nat)
    requires s != []
    ensures 0 < n <= |s|
    ensures Substitute(s, map[]) == s[..n] + Substitute(s[n..], map[])
  {
    match MatchAt(s)
    case Some(p) =>
      SubstituteKeeps(s, map[], p);
      n := p.length;
    case None =>
      assert [s[0]] == s[..1];
      n := 1;
  }

  lemma TakeDrop(s: string, n: nat)
    requires n <= |s|
    ensures s[..n] + s[n..] == s
  {
  }

  /** A placeholder whose key has no value is kept verbatim, and scanning resumes after it. */
  lemma SubstituteKeeps(s: string, data: map<string, string>, p: Placeholder)
    requires MatchAt(s) == Some(p) && Lower(p.key) !in data
    ensures Substitute(s, data) == s[..p.length] + Substitute(s[p.length..], data)
  {
  }

  // A reference description of templates: text pieces and placeholders.

  /** A template piece: literal text, or a placeholder with its inner white space. */
  datatype Piece = Text(text: string) | Hole(before: string, key: string, after: string)

  /** No two braces `{{` in a row: literal text can hold braces, but cannot open a placeholder. */
  predicate NoDoubleBrace(t: string) {
    forall i :: 0 <= i < |t| - 1 ==> !(t[i] == '{' && t[i + 1] == '{')
  }

  /**
   * What follows a literal `{` cannot complete a placeholder with it: it is
   * empty, or does not start with `{`, or starts with `{{` (then the first
   * `{` is followed by `{{`, which is neither white space nor a key character).
   */
  predicate SafeAfterBrace(rest: string) {
    rest == [] || rest[0] != '{' || (|rest| >= 2 && rest[1] == '{')
  }

  /**
   * A well-formed piece. Any text is a piece of its own; whether it stays
   * literal depends on what follows it, which `ValidTemplate` states.
   */
  predicate ValidPiece(p: Piece) {
    match p
    case Text(_) => true
    case Hole(before, key, after) =>
      && (forall i :: 0 <= i < |before| ==> IsRegexSpace(before[i]))
      && (forall i :: 0 <= i < |after| ==> IsRegexSpace(after[i]))
      && |key| > 0 && (forall i :: 0 <= i < |key| ==> IsKeyChar(key[i]))
  }

  function RenderPiece(p: Piece): string {
    match p
    case Text(t) => t
    case Hole(before, key, after) => "{{" + before + key + after + "}}"
  }

  /** The template text the pieces spell out. */
  function Render(pieces: seq<Piece>): string {
    if pieces == [] then "" else RenderPiece(pieces[0]) + Render(pieces[1..])
  }

  /** What each piece should become: text as is, a placeholder by its value or verbatim. */
  function ExpandPiece(p: Piece, data: map<string, string>): string {
    match p
    case Text(t) => t
    case Hole(_, key, _) => if Lower(key) in data then data[Lower(key)] else RenderPiece(p)
  }

  function Expand(pieces: seq<Piece>, data: map<string, string>): string {
    if pieces == [] then "" else ExpandPiece(pieces[0], data) + Expand(pieces[1..], data)
  }

  lemma SubstituteOneChar(s: string, data: map<string, string>)
    requires s != [] && MatchAt(s).None?
    ensures Substitute(s, data) == [s[0]] + Substitute(s[1..], data)
  {
  }

  /**
   * No placeholder starts inside `t` when `rest` follows it: the text holds
   * no placeholder of its own (a malformed one such as `{{}}` or
   * `{{ a b }}` included) and does not open one that `rest` completes.
   */
  predicate Unmatched(t: string, rest: string) {
    forall i :: 0 <= i < |t| ==> MatchAt((t + rest)[i..]).None?
  }

  /** No placeholder starts at the first character of literal text. */
  lemma NoMatchInText(t: string, rest: string)
    requires t != [] && NoDoubleBrace(t)
    requires t[|t| - 1] == '{' ==> SafeAfterBrace(rest)
    ensures MatchAt(t + rest).None?
  {
    var s := t + rest;
    if |t| >= 2 {
      assert s[0] == t[0] && s[1] == t[1];
    } else if |s| >= 3 && s[0] == '{' && s[1] == '{' {
      assert s[1..] == rest && s[2] == rest[1];
      assert SpaceEnd(s, 2) == 2;
    }
  }

  /**
   * Text without `{{`, whose trailing `{` (if any) is not completed by what
   * follows, starts no placeholder anywhere.
   */
  lemma LiteralUnmatched(t: string, rest: string)
    requires NoDoubleBrace(t)
    requires t != [] && t[|t| - 1] == '{' ==> SafeAfterBrace(rest)
    ensures Unmatched(t, rest)
  {
    forall i | 0 <= i < |t| ensures MatchAt((t + rest)[i..]).None? {
      var u := t[i..];
      assert (t + rest)[i..] == u + rest;
      assert u[|u| - 1] == t[|t| - 1];
      NoMatchInText(u, rest);
    }
  }

  /** Dropping the first character of unmatched text leaves unmatched text. */
  lemma UnmatchedTail(t: string, rest: string)
    requires t != [] && Unmatched(t, rest)
    ensures Unmatched(t[1..], rest)
  {
    forall i | 0 <= i < |t[1..]| ensures MatchAt((t[1..] + rest)[i..]).None? {
      assert (t[1..] + rest)[i..] == (t + rest)[i + 1..];
    }
  }

  /** Text in which no placeholder starts passes through substitution untouched. */
  lemma {:induction false} SubstituteText(t: string, rest: string, data: map<string, string>)
    requires Unmatched(t, rest)
    ensures Substitute(t + rest, data) == t + Substitute(rest, data)
    decreases |t|
  {
    if t == [] {
      assert t + rest == rest;
    } else {
      var s := t + rest;
      assert s[0] == t[0] && s[1..] == t[1..] + rest;
      assert s[0..] == s;
      SubstituteOneChar(s, data);
      UnmatchedTail(t, rest);
      SubstituteText(t[1..], rest, data);
      ConsAppend(t, Substitute(rest, data));
    }
  }

  /**
   * A text in which no placeholder starts, malformed ones such as
   * `Dear {{ client name }}` or `{{}}` included, comes back unchanged.
   */
  lemma SubstituteUnmatched(s: string, data: map<string, string>)
    requires forall i :: 0 <= i < |s| ==> MatchAt(s[i..]).None?
    ensures Substitute(s, data) == s
  {
    assert s + [] == s;
    SubstituteText(s, [], data);
  }

  lemma ConsAppend(t: string, u: string)
    requires t != []
    ensures [t[0]] + (t[1..] + u) == t + u
  {
  }

  /** A run of spaces that stops before a non-space is the run `SpaceEnd` finds. */
  lemma SpaceEndExact(s: string, i: nat, j: nat)
    requires i <= j <= |s|
    requires forall k :: i <= k < j ==> IsRegexSpace(s[k])
    requires j == |s| || !IsRegexSpace(s[j])
    ensures SpaceEnd(s, i) == j
  {
  }

  /** A run of key characters that stops before another character is the run `KeyEnd` finds. */
  lemma KeyEndExact(s: string, i: nat, j: nat)
    requires i <= j <= |s|
    requires forall k :: i <= k < j ==> IsKeyChar(s[k])
    requires j == |s| || !IsKeyChar(s[j])
    ensures KeyEnd(s, i) == j
  {
  }

  /** `s` starts with the placeholder text of `before`, `key` and `after`, character by character. */
  predicate LaidOut(s: string, before: string, key: string, after: string) {
    var a := 2 + |before|;
    var b := a + |key|;
    var c := b + |after|;
    && |s| >= c + 2
    && s[0] == '{' && s[1] == '{'
    && (forall k :: 0 <= k < |before| ==> s[2 + k] == before[k])
    && (forall k :: 0 <= k < |key| ==> s[a + k] == key[k])
    && (forall k :: 0 <= k < |after| ==> s[b + k] == after[k])
    && s[c] == '}' && s[c + 1] == '}'
  }

  lemma HoleChars(before: string, key: string, after: string, rest: string)
    ensures |RenderPiece(Hole(before, key, after))| == |before| + |key| + |after| + 4
    ensures LaidOut(RenderPiece(Hole(before, key, after)) + rest, before, key, after)
  {
  }

  /** A text laid out as a placeholder followed by anything is matched up to the closing braces. */
  lemma MatchLaidOut(s: string, before: string, key: string, after: string)
    requires ValidPiece(Hole(before, key, after))
    requires LaidOut(s, before, key, after)
    ensures MatchAt(s) == Some(Placeholder(|before| + |key| + |after| + 4, key))
  {
    var a := 2 + |before|;
    var b := a + |key|;
    LaidOutRuns(s, before, key, after);
    assert s[a..b] == key;
  }

  /** The three runs `MatchAt` scans end where the parts of the placeholder end. */
  lemma LaidOutRuns(s: string, before: string, key: string, after: string)
    requires ValidPiece(Hole(before, key, after))
    requires LaidOut(s, before, key, after)
    ensures SpaceEnd(s, 2) == 2 + |before|
    ensures KeyEnd(s, 2 + |before|) == 2 + |before| + |key|
    ensures SpaceEnd(s, 2 + |before| + |key|) == 2 + |before| + |key| + |after|
  {
    OpeningSpaceRun(s, before, key, after);
    KeyRunOf(s, before, key, after);
    ClosingSpaceRun(s, before, key, after);
  }

  lemma OpeningSpaceRun(s: string, before: string, key: string, after: string)
    requires ValidPiece(Hole(before, key, after))
    requires LaidOut(s, before, key, after)
    ensures SpaceEnd(s, 2) == 2 + |before|
  {
    var a := 2 + |before|;
    assert forall k :: 2 <= k < a ==> s[k] == before[k - 2];
    assert s[a] == key[0];
    SpaceEndExact(s, 2, a);
  }

  lemma KeyRunOf(s: string, before: string, key: string, after: string)
    requires ValidPiece(Hole(before, key, after))
    requires LaidOut(s, before, key, after)
    ensures KeyEnd(s, 2 + |before|) == 2 + |before| + |key|
  {
    var a := 2 + |before|;
    var b := a + |key|;
    assert forall k :: a <= k < b ==> s[k] == key[k - a];
    assert s[b] == (if after == [] then '}' else after[0]);
    KeyEndExact(s, a, b);
  }

  lemma ClosingSpaceRun(s: string, before: string, key: string, after: string)
    requires ValidPiece(Hole(before, key, after))
    requires LaidOut(s, before, key, after)
    ensures SpaceEnd(s, 2 + |before| + |key|) == 2 + |before| + |key| + |after|
  {
    var b := 2 + |before| + |key|;
    var c := b + |after|;
    assert forall k :: b <= k < c ==> s[k] == after[k - b];
    SpaceEndExact(s, b, c);
  }

  /** A well-formed placeholder at the front is replaced (or kept) and scanning resumes right after it. */
  lemma SubstituteHole(p: Piece, rest: string, data: map<string, string>)
    requires p.Hole? && ValidPiece(p)
    ensures Substitute(RenderPiece(p) + rest, data) == ExpandPiece(p, data) + Substitute(rest, data)
  {
    var h := RenderPiece(p);
    var s := h + rest;
    HoleChars(p.before, p.key, p.after, rest);
    MatchLaidOut(s, p.before, p.key, p.after);
    assert s[..|h|] == h;
    assert s[|h|..] == rest;
  }

  /**
   * A template written as pieces: every placeholder well-formed, and no
   * placeholder starts inside a text piece given what follows it. Text may
   * hold stray braces and malformed placeholders.
   */
  predicate ValidTemplate(pieces: seq<Piece>) {
    && (forall i :: 0 <= i < |pieces| ==> ValidPiece(pieces[i]))
    && (forall i :: 0 <= i < |pieces| && pieces[i].Text? ==> Unmatched(pieces[i].text, Render(pieces[i + 1..])))
  }

  lemma ValidTemplateTail(pieces: seq<Piece>)
    requires pieces != [] && ValidTemplate(pieces)
    ensures ValidTemplate(pieces[1..])
  {
    assert forall i :: 0 <= i < |pieces| - 1 ==> pieces[1..][i] == pieces[i + 1] && pieces[1..][i + 1..] == pieces[i + 2..];
  }

  /**
   * Substituting into a template of literal text and well-formed
   * placeholders gives each placeholder's value (or the placeholder itself,
   * for an unknown key) and leaves the text, braces included, untouched.
   */
  lemma {:induction false} SubstituteRendered(pieces: seq<Piece>, data: map<string, string>)
    requires ValidTemplate(pieces)
    ensures Substitute(Render(pieces), data) == Expand(pieces, data)
  {
    if pieces != [] {
      var p := pieces[0];
      var rest := Render(pieces[1..]);
      assert Render(pieces) == RenderPiece(p) + rest;
      ValidTemplateTail(pieces);
      SubstituteRendered(pieces[1..], data);
      match p
      case Text(t) =>
        assert pieces[0 + 1..] == pieces[1..];
        SubstituteText(t, rest, data);
      case Hole(_, _, _) =>
        SubstituteHole(p, rest, data);
    }
  }

  /** Pieces that render to nothing expand to nothing. */
  lemma {:induction false} ExpandOfEmpty(pieces: seq<Piece>, data: map<string, string>)
    requires Render(pieces) == ""
    ensures Expand(pieces, data) == ""
  {
    if pieces != [] {
      assert RenderPiece(pieces[0]) == "" && Render(pieces[1..]) == "";
      ExpandOfEmpty(pieces[1..], data);
    }
  }

  /**
   * On a struct whose fields are all exported, `ApplyTemplate` expands the
   * template piece by piece over the struct's data map.
   */
  lemma ApplyTemplateRendered(pieces: seq<Piece>, fields: seq<Field>)
    requires ValidTemplate(pieces)
    requires forall i :: 0 <= i < |fields| ==> fields[i].exported
    ensures ApplyTemplate(Render(pieces), Struct(fields)) == Success(Expand(pieces, DataMap(fields)))
  {
    if Render(pieces) == "" {
      ExpandOfEmpty(pieces, DataMap(fields));
    } else {
      SubstituteRendered(pieces, DataMap(fields));
    }
  }

  /**
   * A placeholder wrapped in one more pair of braces, such as `{{{id}}}`: the
   * inner placeholder is replaced (or kept) and the outer braces stay.
   */
  lemma WrappedPlaceholder(key: string, data: map<string, string>)
    requires ValidPiece(Hole("", key, ""))
    ensures Substitute("{" + RenderPiece(Hole("", key, "")) + "}", data) == "{" + ExpandPiece(Hole("", key, ""), data) + "}"
  {
    var h := Hole("", key, "");
    var pieces := [Text("{"), h, Text("}")];
    WrappedTemplate(h);
    SubstituteRendered(pieces, data);
    RenderThree(Text("{"), h, Text("}"));
    ExpandThree(Text("{"), h, Text("}"), data);
  }

  /**
   * A placeholder whose key is broken by white space, such as
   * `{{ client name }}`, is not matched: it is kept as it is, whatever follows.
   */
  lemma SplitKeyKept(before: string, key1: string, gap: string, key2: string, after: string,
                     rest: string, data: map<string, string>)
    requires ValidPiece(Hole(before, key1, gap)) && ValidPiece(Hole("", key2, after)) && gap != []
    ensures Substitute("{{" + before + key1 + gap + key2 + after + "}}" + rest, data)
            == "{{" + before + key1 + gap + key2 + after + "}}" + Substitute(rest, data)
  {
    var t := "{{" + before + key1 + gap + key2 + after + "}}";
    SplitKeyUnmatched(before, key1, gap, key2, after, rest);
    SubstituteText(t, rest, data);
  }

  lemma SplitKeyUnmatched(before: string, key1: string, gap: string, key2: string, after: string, rest: string)
    requires ValidPiece(Hole(before, key1, gap)) && ValidPiece(Hole("", key2, after)) && gap != []
    ensures Unmatched("{{" + before + key1 + gap + key2 + after + "}}", rest)
  {
    var t := "{{" + before + key1 + gap + key2 + after + "}}";
    var s := t + rest;
    SplitKeyFront(before, key1, gap, key2, after + "}}" + rest);
    assert s == "{{" + before + key1 + gap + key2 + (after + "}}" + rest);
    forall i | 0 <= i < |t| ensures MatchAt(s[i..]).None? {
      if i > 0 {
        assert s[i..][0] == s[i] && (|s[i..]| > 1 ==> s[i..][1] == s[i + 1]);
        assert s[2] != '{';
        assert i >= 2 ==> s[i] != '{';
      }
    }
  }

  /** At the front, the key run stops at the gap, and what follows the gap is not `}}`. */
  lemma SplitKeyFront(before: string, key1: string, gap: string, key2: string, tail: string)
    requires ValidPiece(Hole(before, key1, gap)) && |key2| > 0 && IsKeyChar(key2[0]) && gap != []
    ensures MatchAt("{{" + before + key1 + gap + key2 + tail).None?
  {
    var s := "{{" + before + key1 + gap + key2 + tail;
    var a := 2 + |before|;
    var b := a + |key1|;
    var c := b + |gap|;
    assert forall k :: 2 <= k < a ==> s[k] == before[k - 2];
    assert forall k :: a <= k < b ==> s[k] == key1[k - a];
    assert forall k :: b <= k < c ==> s[k] == gap[k - b];
    assert s[a] == key1[0] && s[b] == gap[0] && s[c] == key2[0];
    SpaceEndExact(s, 2, a);
    KeyEndExact(s, a, b);
    SpaceEndExact(s, b, c);
  }

  /** `{`, a placeholder, `}` is a valid template: the single braces start no placeholder. */
  lemma WrappedTemplate(h: Piece)
    requires h.Hole? && ValidPiece(h)
    ensures ValidTemplate([Text("{"), h, Text("}")])
  {
    var ps := [Text("{"), h, Text("}")];
    assert ps[1..] == [h, Text("}")] && ps[2..] == [Text("}")] && ps[3..] == [];
    assert [h, Text("}")][1..] == [Text("}")] && [Text("}")][1..] == [];
    var r := Render([h, Text("}")]);
    assert r == RenderPiece(h) + Render([Text("}")]);
    assert r[0] == '{' && r[1] == '{';
    LiteralUnmatched("{", r);
    assert Render(ps[3..]) == "";
    LiteralUnmatched("}", "");
  }

  lemma RenderThree(a: Piece, b: Piece, c: Piece)
    ensures Render([a, b, c]) == RenderPiece(a) + RenderPiece(b) + RenderPiece(c)
  {
    var ps := [a, b, c];
    assert ps[1..] == [b, c] && ps[1..][1..] == [c] && ps[1..][1..][1..] == [];
    assert Render([c]) == RenderPiece(c) + "";
    assert Render([b, c]) == RenderPiece(b) + Render([c]);
  }

  lemma ExpandThree(a: Piece, b: Piece, c: Piece, data: map<string, string>)
    ensures Expand([a, b, c], data) == ExpandPiece(a, data) + ExpandPiece(b, data) + ExpandPiece(c, data)
  {
    ExpandCons(c, [], data);
    ExpandCons(b, [c], data);
    ExpandCons(a, [b, c], data);
    assert [c] + [] == [c] && [b] + [c] == [b, c] && [a] + [b, c] == [a, b, c];
  }

  lemma ExpandCons(p: Piece, ps: seq<Piece>, data: map<string, string>)
    ensures Expand([p] + ps, data) == ExpandPiece(p, data) + Expand(ps, data)
  {
    assert ([p] + ps)[1..] == ps;
  }


  /** Placeholder lookup ignores the case of the key. */
  lemma PlaceholderCaseInsensitive(before: string, key: string, after: string, data: map<string, string>)
    requires ValidPiece(Hole(before, key, after))
    ensures Substitute(RenderPiece(Hole(before, Upper(key), after)), data)
            == if Lower(key) in data then data[Lower(key)] else RenderPiece(Hole(before, Upper(key), after))
  {
    var up := Upper(key);
    assert ValidPiece(Hole(before, up, after)) by {
      forall i | 0 <= i < |up| ensures IsKeyChar(up[i]) {
        assert up[i] == UpperChar(key[i]);
      }
    }
    LowerOfUpper(key);
    SubstituteHole(Hole(before, up, after), "", data);
    assert RenderPiece(Hole(before, up, after)) + "" == RenderPiece(Hole(before, up, after));
    assert Substitute("", data) == "";
  }
}

=== FILE: github.dfy ===
/**
 * The pure part of fetching the latest GitHub release: use the
 * `update.json` asset when the release has one, otherwise build the update
 * information from the release itself, guessing each platform's download
 * from the asset names.
 */
module GitHubRelease {
  import opened Wrappers
  import opened Strings
  import opened Collections
  import opened SemVer
  import UpdateVersion
  import Tagging = Release

  /** A release asset as the GitHub API describes it (`Size` is an `int64`). */
  datatype Asset = Asset(name: string, size: int, downloadUrl: string)

  /** The release fields the update check reads; the publication time is kept as an opaque stamp. */
  datatype Release = Release(tagName: string, publishedAt: int, body: string, htmlUrl: string, assets: seq<Asset>)

  datatype Platform = Platform(url: string, signature: string, size: int)

  datatype UpdateInfo = UpdateInfo(
    version: string,
    releaseDate: int,
    releaseNotes: string,
    releaseNotesUrl: string,
    mandatory: bool,
    platforms: map<string, Platform>)

  /**
   * Where the update information comes from: the `update.json` asset, which
   * is then downloaded and decoded as it is, or the fallback built here.
   */
  datatype Source = FromUpdateJson(url: string) | Fallback(info: UpdateInfo)

  const UpdateJsonName: string := "update.json"

  /** The first asset named exactly `update.json`. */
  function FindUpdateJson(assets: seq<Asset>): (r: Option<nat>)
    ensures r.Some? ==> r.value < |assets| && assets[r.value].name == UpdateJsonName
    ensures r.Some? ==> forall j :: 0 <= j < r.value ==> assets[j].name != UpdateJsonName
    ensures r.None? <==> forall j :: 0 <= j < |assets| ==> assets[j].name != UpdateJsonName
  {
    if assets == [] then None
    else if assets[0].name == UpdateJsonName then Some(0)
    else
      match FindUpdateJson(assets[1..])
      case None => None
      case Some(i) => Some(i + 1)
  }

  // ---------------------------------------------------------------------------
  // Platform guessing
  // ---------------------------------------------------------------------------

  /** A platform key and the two words an asset name must contain to be taken for it. */
  datatype Rule = Rule(os: string, arch: string, key: string)

  /** The checks, in the order the loop makes them. */
  const Rules: seq<Rule> := [
    Rule("darwin", "amd64", "darwin-amd64"),
    Rule("darwin", "arm64", "darwin-arm64"),
    Rule("windows", "amd64", "windows-amd64")
  ]

  const PlatformKeys: set<string> := {"darwin-amd64", "darwin-arm64", "windows-amd64"}

  predicate RuleMatches(rule: Rule, lower: string) {
    Contains(lower, rule.os) && Contains(lower, rule.arch)
  }

  /**
   * The platform key an asset name suggests: the name is lower-cased, then
   * the checks run in order and the first that matches wins.
   */
  function Classify(name: string): (r: Option<string>)
    ensures r.Some? ==> r.value in PlatformKeys
    ensures r.Some? <==> exists i :: 0 <= i < |Rules| && RuleMatches(Rules[i], Lower(name))
    ensures r.Some? ==> exists i :: && 0 <= i < |Rules| && Rules[i].key == r.value
                                    && RuleMatches(Rules[i], Lower(name))
                                    && forall j :: 0 <= j < i ==> !RuleMatches(Rules[j], Lower(name))
  {
    var lower := Lower(name);
    if Contains(lower, "darwin") && Contains(lower, "amd64") then
      assert RuleMatches(Rules[0], lower);
      Some("darwin-amd64")
    else if Contains(lower, "darwin") && Contains(lower, "arm64") then
      assert RuleMatches(Rules[1], lower);
      Some("darwin-arm64")
    else if Contains(lower, "windows") && Contains(lower, "amd64") then
      assert RuleMatches(Rules[2], lower);
      Some("windows-amd64")
    else
      assert !RuleMatches(Rules[0], lower) && !RuleMatches(Rules[1], lower) && !RuleMatches(Rules[2], lower);
      None
  }

  /** Matching ignores ASCII case. */
  lemma ClassifyIgnoresCase(name: string)
    ensures Classify(Upper(name)) == Classify(name)
  {
    LowerOfUpper(name);
  }

  function AssetKeys(a: Asset): set<string> {
    match Classify(a.name)
    case Some(k) => {k}
    case None => {}
  }

  /** The entry an asset contributes: its URL and size, and no signature. */
  function AssetPlatform(a: Asset): Platform {
    Platform(a.downloadUrl, "", a.size)
  }

  /**
   * The platform map of the fallback: a key is present exactly when some
   * asset is classified under it, and it holds the entry of the last such
   * asset.
   */
  function Platforms(assets: seq<Asset>): (m: map<string, Platform>)
    ensures m.Keys <= PlatformKeys
    ensures forall k :: k in m <==> exists i :: 0 <= i < |assets| && k in AssetKeys(assets[i])
    ensures forall k :: k in m ==> exists i :: IsLastWith(assets, AssetKeys, k, i) && m[k] == AssetPlatform(assets[i])
    ensures forall k :: k in m ==> m[k].signature == ""
  {
    LastWins(assets, AssetKeys, AssetPlatform)
  }

  /** The update information built from the release when there is no `update.json`. */
  function FallbackInfo(release: Release): (info: UpdateInfo)
    ensures "v" <= release.tagName ==> "v" + info.version == release.tagName
    ensures !("v" <= release.tagName) ==> info.version == release.tagName
    ensures info.releaseNotes == release.body && info.releaseNotesUrl == release.htmlUrl
    ensures info.releaseDate == release.publishedAt && !info.mandatory
    ensures info.platforms.Keys <= PlatformKeys
    ensures info.platforms == Platforms(release.assets)
    ensures forall k :: k in info.platforms <==> exists i :: 0 <= i < |release.assets| && k in AssetKeys(release.assets[i])
  {
    UpdateInfo(TrimPrefix(release.tagName, "v"), release.publishedAt, release.body, release.htmlUrl, false, Platforms(release.assets))
  }

  /** `FetchLatestRelease` after the release has been fetched and decoded. */
  function SelectSource(release: Release): (r: Source)
    ensures r.FromUpdateJson? <==> exists i :: 0 <= i < |release.assets| && release.assets[i].name == UpdateJsonName
    ensures r.FromUpdateJson? ==> exists i :: && 0 <= i < |release.assets|
                                               && release.assets[i].name == UpdateJsonName
                                               && r.url == release.assets[i].downloadUrl
                                               && forall j :: 0 <= j < i ==> release.assets[j].name != UpdateJsonName
    ensures r.Fallback? ==> r.info == FallbackInfo(release)
  {
    match FindUpdateJson(release.assets)
    case Some(i) => FromUpdateJson(release.assets[i].downloadUrl)
    case None => Fallback(FallbackInfo(release))
  }

  /** Assets that differ only in the case of their names give the same fallback platforms. */
  lemma {:induction false} PlatformsIgnoreCase(assets: seq<Asset>)
    ensures var upper := seq(|assets|, i requires 0 <= i < |assets| => assets[i].(name := Upper(assets[i].name)));
      Platforms(upper) == Platforms(assets)
  {
    var upper := seq(|assets|, i requires 0 <= i < |assets| => assets[i].(name := Upper(assets[i].name)));
    forall i | 0 <= i < |assets|
      ensures AssetKeys(upper[i]) == AssetKeys(assets[i]) && AssetPlatform(upper[i]) == AssetPlatform(assets[i])
    {
      ClassifyIgnoresCase(assets[i].name);
    }
    LastWinsPointwise(upper, assets, AssetKeys, AssetPlatform);
  }

  /** The release of the update package's fetch test: its `update.json` asset is used. */
  lemma FetchTestCase()
    ensures var release := Release("v1.0.1", 0, "Release notes content", "https://github.com/owner/repo/releases/tag/v1.0.1", [
        Asset("FreelanceFlow-1.0.1-darwin-amd64.dmg", 1024, "https://download.url/dmg"),
        Asset("update.json", 512, "https://download.url/update.json")
      ]);
      SelectSource(release) == FromUpdateJson("https://download.url/update.json")
  {
    var a0 := Asset("FreelanceFlow-1.0.1-darwin-amd64.dmg", 1024, "https://download.url/dmg");
    assert a0.name != UpdateJsonName by {
      assert |a0.name| != |UpdateJsonName|;
    }
  }

  /**
   * A release tagged by the release tool: the fallback's version is the
   * printed version, which the version parser reads back.
   */
  lemma FallbackVersionOfTag(v: Version, release: Release)
    requires WellFormed(v) && release.tagName == Tagging.TagName(v)
    ensures FallbackInfo(release).version == Format(v)
    ensures UpdateVersion.ParseVersion(FallbackInfo(release).version) == Success(v)
  {
    assert release.tagName == "v" + Format(v);
    UpdateVersion.ParseVersionAcceptsPrinted(v);
  }
}

=== FILE: invoice.dfy ===
/**
 * The text fallbacks of the invoice generator: the billing city line, the
 * billing company, the legacy header's sender name, due date and summary
 * description, and the copy of the invoice items into the template data.
 * Amounts are floating point in the source; here they are a type parameter
 * that is only ever copied.
 */
module Invoice {
  import opened Strings
  import opened Collections

  /** The client fields the generator reads. */
  datatype Client = Client(
    name: string,
    billingCompany: string,
    billingAddress: string,
    billingCity: string,
    billingProvince: string,
    billingPostalCode: string)

  /** The settings fields the legacy header reads. */
  datatype Sender = Sender(senderName: string, senderCompany: string)

  datatype InvoiceItem<F> = InvoiceItem(description: string, quantity: F, unitPrice: F, amount: F)

  /** An item row of the template data. */
  datatype ItemData<F> = ItemData(description: string, quantity: F, unitPrice: F, amount: F)

  // ---------------------------------------------------------------------------
  // Billing city line
  // ---------------------------------------------------------------------------

  const DefaultCityLine: string := "City, Province, Postal code"

  const Separator: string := ", "

  /** The non-empty strings of `xs`, in order. */
  function NonEmpty(xs: seq<string>): (r: seq<string>)
    ensures forall i :: 0 <= i < |r| ==> r[i] != ""
    ensures r == [] <==> forall i :: 0 <= i < |xs| ==> xs[i] == ""
    ensures |r| <= |xs|
  {
    if xs == [] then []
    else
      var rest := NonEmpty(xs[1..]);
      assert forall i :: 1 <= i < |xs| ==> xs[1..][i - 1] == xs[i];
      if xs[0] == "" then rest else [xs[0]] + rest
  }

  lemma NonEmptyCons(x: string, xs: seq<string>)
    ensures NonEmpty([x] + xs) == (if x != "" then [x] else []) + NonEmpty(xs)
  {
    assert ([x] + xs)[1..] == xs;
    if x == "" {
      assert [] + NonEmpty(xs) == NonEmpty(xs);
    }
  }

  /** The kept strings of three: each in turn, when not empty. */
  lemma NonEmptyOfThree(a: string, b: string, c: string)
    ensures NonEmpty([a, b, c]) == (if a != "" then [a] else []) + (if b != "" then [b] else []) + (if c != "" then [c] else [])
  {
    assert [a, b, c] == [a] + ([b] + ([c] + []));
    NonEmptyCons(c, []);
    NonEmptyCons(b, [c]);
    NonEmptyCons(a, [b, c]);
  }

  /**
   * `buildBillingCityLine`: city, province and postal code, each only when
   * given, joined by ", "; the placeholder text when none is given.
   */
  function BillingCityLine(c: Client): (line: string)
    ensures c.billingCity == "" && c.billingProvince == "" && c.billingPostalCode == "" ==> line == DefaultCityLine
    ensures c.billingCity != "" || c.billingProvince != "" || c.billingPostalCode != "" ==>
              line == Join(NonEmpty([c.billingCity, c.billingProvince, c.billingPostalCode]), Separator)
  {
    var p1 := if c.billingCity != "" then [c.billingCity] else [];
    var p2 := if c.billingProvince != "" then p1 + [c.billingProvince] else p1;
    var parts := if c.billingPostalCode != "" then p2 + [c.billingPostalCode] else p2;
    NonEmptyOfThree(c.billingCity, c.billingProvince, c.billingPostalCode);
    assert p1 + [] == p1 && p2 + [] == p2;
    assert parts == NonEmpty([c.billingCity, c.billingProvince, c.billingPostalCode]);
    if |parts| == 0 then DefaultCityLine else Join(parts, Separator)
  }

  /** A join with ", " is a join with "," of the pieces, all but the first led by a space. */
  function Spaced(parts: seq<string>): (r: seq<string>)
    requires |parts| > 0
    ensures |r| == |parts| && r[0] == parts[0]
    ensures forall i :: 1 <= i < |r| ==> r[i] == " " + parts[i]
  {
    [parts[0]] + seq(|parts| - 1, i requires 0 <= i < |parts| - 1 => " " + parts[i + 1])
  }

  lemma {:induction false} JoinSpaced(parts: seq<string>)
    requires |parts| > 0
    ensures Join(parts, Separator) == Join(Spaced(parts), ",")
  {
    if |parts| > 1 {
      var tail := parts[1..];
      JoinSpaced(tail);
      var st := Spaced(tail);
      var sp := Spaced(parts);
      assert sp[1..] == [" " + tail[0]] + st[1..];
      if |tail| == 1 {
        assert Join(sp, ",") == parts[0] + "," + (" " + tail[0]);
      } else {
        assert Join(sp[1..], ",") == " " + tail[0] + "," + Join(st[1..], ",");
        assert Join(st, ",") == tail[0] + "," + Join(st[1..], ",");
      }
    }
  }

  /**
   * Cut at its commas, the city line gives back the given parts in order,
   * each after the first led by one space: no part is dropped or doubled,
   * and no segment is empty, so there is no leading, trailing or doubled
   * separator. This holds when the parts themselves hold no comma.
   */
  lemma CityLineSegments(c: Client)
    requires c.billingCity != "" || c.billingProvince != "" || c.billingPostalCode != ""
    requires ',' !in c.billingCity && ',' !in c.billingProvince && ',' !in c.billingPostalCode
    ensures var parts := NonEmpty([c.billingCity, c.billingProvince, c.billingPostalCode]);
      && |parts| > 0
      && Split(BillingCityLine(c), ',') == Spaced(parts)
      && forall i :: 0 <= i < |parts| ==> Split(BillingCityLine(c), ',')[i] != ""
  {
    var xs := [c.billingCity, c.billingProvince, c.billingPostalCode];
    var parts := NonEmpty(xs);
    NonEmptyKeeps(xs, ',');
    JoinSpaced(parts);
    var sp := Spaced(parts);
    assert forall i :: 0 <= i < |sp| ==> ',' !in sp[i] by {
      forall i | 0 <= i < |sp| ensures ',' !in sp[i] {
        if i > 0 {
          assert sp[i] == " " + parts[i];
        }
      }
    }
    SplitJoin(sp, ',');
  }

  /** A character in none of the strings is in none of the kept strings. */
  lemma {:induction false} NonEmptyKeeps(xs: seq<string>, c: char)
    requires forall i :: 0 <= i < |xs| ==> c !in xs[i]
    ensures forall i :: 0 <= i < |NonEmpty(xs)| ==> c !in NonEmpty(xs)[i]
  {
    if xs != [] {
      NonEmptyKeeps(xs[1..], c);
    }
  }

  lemma CityLineOfAllParts(c: Client)
    requires c.billingCity != "" && c.billingProvince != "" && c.billingPostalCode != ""
    ensures BillingCityLine(c) == c.billingCity + ", " + c.billingProvince + ", " + c.billingPostalCode
  {
    NonEmptyOfThree(c.billingCity, c.billingProvince, c.billingPostalCode);
    var xs := [c.billingCity, c.billingProvince, c.billingPostalCode];
    assert Join(xs, Separator) == c.billingCity + Separator + Join(xs[1..], Separator);
    assert xs[1..][1..] == [c.billingPostalCode];
    assert Join(xs[1..], Separator) == c.billingProvince + Separator + c.billingPostalCode;
    assert NonEmpty(xs) == xs;
    assert BillingCityLine(c) == Join(xs, Separator);
  }

  // ---------------------------------------------------------------------------
  // Fallback texts
  // ---------------------------------------------------------------------------

  /** The billing company, or the client's name when it is empty. */
  function BillingCompany(c: Client): (r: string)
    ensures r == FirstNonEmpty([c.billingCompany, c.name])
  {
    if c.billingCompany == "" then c.name else c.billingCompany
  }

  const DefaultSender: string := "Sender"

  /** The legacy header's sender: the name, else the company, else "Sender"; never empty. */
  function SenderName(s: Sender): (r: string)
    ensures r == FirstNonEmpty([s.senderName, s.senderCompany, DefaultSender])
    ensures r != ""
  {
    FirstNonEmptyCons(DefaultSender, []);
    FirstNonEmptyCons(s.senderCompany, [DefaultSender]);
    FirstNonEmptyCons(s.senderName, [s.senderCompany, DefaultSender]);
    assert [s.senderName] + [s.senderCompany, DefaultSender] == [s.senderName, s.senderCompany, DefaultSender];
    var name := if s.senderName == "" then s.senderCompany else s.senderName;
    if name == "" then DefaultSender else name
  }

  const DueDatePlaceholder: string := "DUE DATE"

  /** The legacy header's due date: the placeholder when none is set. */
  function DueDate(due: string): (r: string)
    ensures r == FirstNonEmpty([due, DueDatePlaceholder])
    ensures r != ""
  {
    if due == "" then DueDatePlaceholder else due
  }

  const DefaultSummary: string := "Invoice Summary"

  /** The legacy table's summary line: the first item's description when there is one. */
  function SummaryDescription<F>(items: seq<InvoiceItem<F>>): (r: string)
    ensures r == FirstNonEmpty((if |items| > 0 then [items[0].description] else []) + [DefaultSummary])
    ensures r != ""
  {
    if |items| > 0 && items[0].description != "" then items[0].description else DefaultSummary
  }

  // ---------------------------------------------------------------------------
  // Template items
  // ---------------------------------------------------------------------------

  /** The item conversion loop: one template row per invoice item, in order, fields copied. */
  method TemplateItems<F>(items: seq<InvoiceItem<F>>) returns (rows: seq<ItemData<F>>)
    ensures |rows| == |items|
    ensures forall i :: 0 <= i < |items| ==>
              && rows[i].description == items[i].description
              && rows[i].quantity == items[i].quantity
              && rows[i].unitPrice == items[i].unitPrice
              && rows[i].amount == items[i].amount
  {
    rows := [];
    for k := 0 to |items|
      invariant |rows| == k
      invariant forall i :: 0 <= i < k ==>
                  rows[i] == ItemData(items[i].description, items[i].quantity, items[i].unitPrice, items[i].amount)
    {
      var item := items[k];
      rows := rows + [ItemData(item.description, item.quantity, item.unitPrice, item.amount)];
    }
  }
}

=== FILE: modules.dfy ===
/**
 * Front-end feature modules: the descriptor types and the finance module's
 * descriptor as data, with the well-formedness it is written to satisfy.
 */
module AppModules {
  import opened Wrappers
  import opened Strings
  import Router

  datatype ModuleId =
    | DashboardModule | ClientsModule | ProjectsModule | TimesheetModule
    | InvoicesModule | ReportsModule | FinanceModule | SettingsModule

  /** The identifier as it is written in the descriptors. */
  function ModuleName(id: ModuleId): string {
    match id
    case DashboardModule => "dashboard"
    case ClientsModule => "clients"
    case ProjectsModule => "projects"
    case TimesheetModule => "timesheet"
    case InvoicesModule => "invoices"
    case ReportsModule => "reports"
    case FinanceModule => "finance"
    case SettingsModule => "settings"
  }

  /** A navigation entry; the icon is left out. */
  datatype NavItem = NavItem(key: string, labelKey: string, moduleId: Option<ModuleId>, children: seq<NavItem>)

  /** A settings page; the component is left out. */
  datatype SettingsPage = SettingsPage(key: string, labelKey: string, order: int, moduleId: ModuleId)

  datatype RouteMeta = RouteMeta(requiresAuth: bool, layout: Router.Layout, moduleId: Option<ModuleId>)

  /** A top-level route a module contributes, with its nested routes. */
  datatype ModuleRoute = ModuleRoute(path: string, meta: RouteMeta, children: seq<Router.ChildRoute>)

  /** A message catalogue: a string, or named sub-catalogues. */
  datatype Messages = Text(text: string) | Tree(entries: seq<(string, Messages)>)

  datatype Locale = EnUS | ZhCN

  datatype AppModule = AppModule(
    id: ModuleId,
    enabledByDefault: bool,
    toggleable: bool,
    nav: Option<NavItem>,
    routes: seq<ModuleRoute>,
    settingsPages: seq<SettingsPage>,
    messages: map<Locale, Messages>)

  // ---------------------------------------------------------------------------
  // Message keys
  // ---------------------------------------------------------------------------

  /** A message key is a dotted path through the catalogue. */
  function DottedKey(parts: seq<string>): string {
    Join(parts, ".")
  }

  /** The sub-catalogue stored under `name`: the first entry with that name. */
  function Child(entries: seq<(string, Messages)>, name: string): (r: Option<Messages>)
    ensures r.None? <==> forall i :: 0 <= i < |entries| ==> entries[i].0 != name
    ensures r.Some? ==> exists i :: 0 <= i < |entries| && entries[i] == (name, r.value)
  {
    if entries == [] then None
    else if entries[0].0 == name then Some(entries[0].1)
    else Child(entries[1..], name)
  }

  /** The string at the end of `path`, when the path leads to a string. */
  function ResolvePath(m: Messages, path: seq<string>): (r: Option<string>)
    ensures path == [] ==> (r.Some? <==> m.Text?)
    ensures r.Some? && path != [] ==> m.Tree? && Child(m.entries, path[0]).Some?
    decreases |path|
  {
    if path == [] then
      if m.Text? then Some(m.text) else None
    else if m.Text? then None
    else
      match Child(m.entries, path[0])
      case None => None
      case Some(sub) => ResolvePath(sub, path[1..])
  }

  /** A key resolves when its dot-separated path leads to a string. */
  predicate Resolves(m: Messages, key: string) {
    ResolvePath(m, Split(key, '.')).Some?
  }

  /** A key written as a dotted path of dot-free names is split back into those names. */
  lemma KeyPath(parts: seq<string>)
    requires |parts| > 0 && forall i :: 0 <= i < |parts| ==> '.' !in parts[i]
    ensures Split(DottedKey(parts), '.') == parts
  {
    SplitJoin(parts, '.');
  }

  // ---------------------------------------------------------------------------
  // Well-formedness
  // ---------------------------------------------------------------------------

  /** Every label key of the navigation tree. */
  function NavLabels(item: NavItem): seq<string>
    decreases item
  {
    [item.labelKey] + ChildLabels(item.children)
  }

  function ChildLabels(items: seq<NavItem>): seq<string>
    decreases items
  {
    if items == [] then [] else NavLabels(items[0]) + ChildLabels(items[1..])
  }

  /** Every label key of a module: its navigation tree and its settings pages. */
  function LabelKeys(m: AppModule): seq<string> {
    (if m.nav.Some? then NavLabels(m.nav.value) else [])
    + seq(|m.settingsPages|, i requires 0 <= i < |m.settingsPages| => m.settingsPages[i].labelKey)
  }

  /** The non-empty child paths of a route, in order. */
  function PagePaths(children: seq<Router.ChildRoute>): seq<string> {
    if children == [] then []
    else (if children[0].path == "" then [] else [children[0].path]) + PagePaths(children[1..])
  }

  /** The empty child path, when it redirects. */
  function IndexRedirect(children: seq<Router.ChildRoute>): Option<string> {
    if children == [] then None
    else if children[0].path == "" && children[0].redirect.Some? then children[0].redirect
    else IndexRedirect(children[1..])
  }

  function NavKeys(items: seq<NavItem>): seq<string> {
    seq(|items|, i requires 0 <= i < |items| => items[i].key)
  }

  /** The key a navigation entry for `page` of module `name` carries. */
  function PageKey(name: string, page: string): string {
    name + "/" + page
  }

  /** One protected main-layout route `/<id>`, tagged with the module. */
  predicate RouteShape(m: AppModule) {
    && |m.routes| == 1
    && m.routes[0].path == "/" + ModuleName(m.id)
    && m.routes[0].meta == RouteMeta(true, Router.MainLayout, Some(m.id))
  }

  /** One navigation group keyed by the module, whose entries are leaves tagged with the module. */
  predicate NavTagged(m: AppModule) {
    && m.nav.Some?
    && m.nav.value.key == ModuleName(m.id)
    && forall i :: 0 <= i < |m.nav.value.children| ==>
         m.nav.value.children[i].moduleId == Some(m.id) && m.nav.value.children[i].children == []
  }

  /** The navigation entries are the route's pages, keyed `<id>/<page>`, in the same order. */
  predicate NavMatchesRoutes(m: AppModule)
    requires RouteShape(m) && NavTagged(m)
  {
    var pages := PagePaths(m.routes[0].children);
    NavKeys(m.nav.value.children) == seq(|pages|, i requires 0 <= i < |pages| => PageKey(ModuleName(m.id), pages[i]))
  }

  /** The route's empty path redirects to the page of a navigation entry. */
  predicate IndexRedirectsToNav(m: AppModule)
    requires RouteShape(m) && NavTagged(m)
  {
    var target := IndexRedirect(m.routes[0].children);
    && target.Some?
    && exists i :: 0 <= i < |m.nav.value.children| && target.value == "/" + m.nav.value.children[i].key
  }

  predicate SettingsTagged(m: AppModule) {
    forall i :: 0 <= i < |m.settingsPages| ==> m.settingsPages[i].moduleId == m.id
  }

  /** Both locales are present and every label key resolves to a string in each. */
  predicate LabelsResolve(m: AppModule) {
    && m.messages.Keys == {EnUS, ZhCN}
    && forall l, i :: l in m.messages && 0 <= i < |LabelKeys(m)| ==> Resolves(m.messages[l], LabelKeys(m)[i])
  }

  /** A module descriptor written to the conventions the router and the navigation rely on. */
  predicate WellFormed(m: AppModule) {
    && RouteShape(m)
    && NavTagged(m)
    && NavMatchesRoutes(m)
    && IndexRedirectsToNav(m)
    && SettingsTagged(m)
    && LabelsResolve(m)
  }

  // ---------------------------------------------------------------------------
  // The finance module
  // ---------------------------------------------------------------------------

  function FinanceNav(page: string): NavItem {
    NavItem(PageKey("finance", page), DottedKey(["finance", "nav", page]), Some(FinanceModule), [])
  }

  const FinancePages: seq<string> := ["overview", "accounts", "transactions", "import", "categories", "reports"]

  const FinanceRoute: ModuleRoute := ModuleRoute("/finance", RouteMeta(true, Router.MainLayout, Some(FinanceModule)), [
    Router.ChildRoute("", Some("/finance/overview")),
    Router.ChildPage("overview"),
    Router.ChildPage("accounts"),
    Router.ChildPage("transactions"),
    Router.ChildPage("import"),
    Router.ChildPage("categories"),
    Router.ChildPage("reports")
  ])

  /** The label strings of the finance catalogue, one locale at a time, in the shape of the message tree. */
  datatype Labels = Labels(
    navFinance: string,
    title: string,
    subtitle: string,
    pages: seq<string>,
    settingsTitle: string,
    settingsDescription: string)

  /**
   * A locale's finance catalogue. The `finance.overview` subtree and the
   * `fields`, `placeholders`, `hints` and `messages` subtrees of
   * `settings.finance` are left out; each has a name its modelled siblings
   * do not, so they do not change what a label key resolves to.
   */
  function Catalogue(l: Labels): Messages
    requires |l.pages| == |FinancePages|
  {
    Tree([
      ("nav", Tree([("finance", Text(l.navFinance))])),
      ("finance", FinanceTree(l)),
      ("settings", Tree([("finance", SettingsTree(l))]))
    ])
  }

  /** The texts under `settings.finance`. */
  function SettingsTree(l: Labels): Messages {
    Tree([
      ("title", Text(l.settingsTitle)),
      ("description", Text(l.settingsDescription))
    ])
  }

  function FinanceTree(l: Labels): Messages
    requires |l.pages| == |FinancePages|
  {
    Tree([
      ("title", Text(l.title)),
      ("subtitle", Text(l.subtitle)),
      ("nav", PagesTree(l))
    ])
  }

  /** The page names under `finance.nav`. */
  function PagesTree(l: Labels): Messages
    requires |l.pages| == |FinancePages|
  {
    Tree(seq(|FinancePages|, i requires 0 <= i < |FinancePages| => (FinancePages[i], Text(l.pages[i]))))
  }

  const EnglishLabels: Labels := Labels(
    "Finance", "Finance", "Manage your accounts and track cash flow",
    ["Overview", "Accounts", "Transactions", "Import", "Categories", "Reports"],
    "Finance", "Finance accounts and transaction settings")

  const ChineseLabels: Labels := Labels(
    "财务", "财务", "管理账户与现金流",
    ["概览", "账户", "交易", "导入", "分类", "报表"],
    "财务", "财务账户与交易相关设置")

  /** The "finance" navigation group: one entry per page, in order. */
  const FinanceNavGroup: NavItem := NavItem("finance", DottedKey(["nav", "finance"]), None,
    seq(|FinancePages|, i requires 0 <= i < |FinancePages| => FinanceNav(FinancePages[i])))

  const FinanceDescriptor: AppModule := AppModule(
    FinanceModule,
    false,
    true,
    Some(FinanceNavGroup),
    [FinanceRoute],
    [SettingsPage("finance", DottedKey(["settings", "finance", "title"]), 50, FinanceModule)],
    map[EnUS := Catalogue(EnglishLabels), ZhCN := Catalogue(ChineseLabels)])

  // ---------------------------------------------------------------------------
  // The finance descriptor is well formed
  // ---------------------------------------------------------------------------

  /** The labels of a navigation group whose entries are leaves: the group's own, then each entry's. */
  lemma {:induction false} LeafLabels(items: seq<NavItem>)
    requires forall i :: 0 <= i < |items| ==> items[i].children == []
    ensures ChildLabels(items) == seq(|items|, i requires 0 <= i < |items| => items[i].labelKey)
  {
    if items != [] {
      LeafLabels(items[1..]);
      assert NavLabels(items[0]) == [items[0].labelKey];
    }
  }

  lemma PagesHaveNoDot()
    ensures forall i :: 0 <= i < |FinancePages| ==> '.' !in FinancePages[i]
  {
    assert '.' !in FinancePages[0] && '.' !in FinancePages[1] && '.' !in FinancePages[2];
    assert '.' !in FinancePages[3] && '.' !in FinancePages[4] && '.' !in FinancePages[5];
  }

  function PageLabel(page: string): string {
    DottedKey(["finance", "nav", page])
  }

  /** The finance label keys: the group, each page in order, and the settings page. */
  lemma FinanceLabelKeys()
    ensures LabelKeys(FinanceDescriptor) ==
      [DottedKey(["nav", "finance"])]
      + seq(|FinancePages|, i requires 0 <= i < |FinancePages| => PageLabel(FinancePages[i]))
      + [DottedKey(["settings", "finance", "title"])]
  {
    var items := FinanceDescriptor.nav.value.children;
    LeafLabels(items);
  }

  lemma NavFinanceResolves(lab: Labels)
    requires |lab.pages| == |FinancePages|
    ensures Resolves(Catalogue(lab), DottedKey(["nav", "finance"]))
  {
    KeyPath(["nav", "finance"]);
  }

  lemma SettingsTitleResolves(lab: Labels)
    requires |lab.pages| == |FinancePages|
    ensures Resolves(Catalogue(lab), DottedKey(["settings", "finance", "title"]))
  {
    KeyPath(["settings", "finance", "title"]);
    SettingsTitlePath(lab);
  }

  lemma SettingsTitlePath(lab: Labels)
    requires |lab.pages| == |FinancePages|
    ensures ResolvePath(Catalogue(lab), ["settings", "finance", "title"]).Some?
  {
    var top := Catalogue(lab).entries;
    var settings := Tree([("finance", SettingsTree(lab))]);
    assert top[0].0 == "nav" && top[1].0 == "finance" && top[2] == ("settings", settings);
    assert Child(top, "settings") == Some(settings);
    assert Child(settings.entries, "finance") == Some(SettingsTree(lab));
    assert Child(SettingsTree(lab).entries, "title") == Some(Text(lab.settingsTitle));
    assert ["settings", "finance", "title"][1..][1..][1..] == [];
  }

  lemma PageInTree(lab: Labels, i: nat)
    requires |lab.pages| == |FinancePages| && i < |FinancePages|
    ensures ResolvePath(PagesTree(lab), [FinancePages[i]]).Some?
  {
    var entries := PagesTree(lab).entries;
    assert entries[i].0 == FinancePages[i];
    var hit := Child(entries, FinancePages[i]);
    assert hit.Some? && hit.value.Text?;
  }

  lemma PageLabelPath(lab: Labels, page: string)
    requires |lab.pages| == |FinancePages|
    ensures ResolvePath(Catalogue(lab), ["finance", "nav", page]) == ResolvePath(PagesTree(lab), [page])
  {
    var top := Catalogue(lab).entries;
    var fin := FinanceTree(lab);
    assert top[0].0 == "nav" && top[1] == ("finance", fin);
    assert Child(top, "finance") == Some(fin);
    assert fin.entries[0].0 == "title" && fin.entries[1].0 == "subtitle" && fin.entries[2] == ("nav", PagesTree(lab));
    assert Child(fin.entries, "nav") == Some(PagesTree(lab));
    assert ["finance", "nav", page][1..][1..] == [page];
  }

  lemma PageLabelResolves(lab: Labels, i: nat)
    requires |lab.pages| == |FinancePages| && i < |FinancePages|
    ensures Resolves(Catalogue(lab), PageLabel(FinancePages[i]))
  {
    PagesHaveNoDot();
    KeyPath(["finance", "nav", FinancePages[i]]);
    PageLabelPath(lab, FinancePages[i]);
    PageInTree(lab, i);
  }

  /** Every label key of the finance module resolves in a catalogue of the finance shape. */
  lemma CatalogueResolves(lab: Labels, i: nat)
    requires |lab.pages| == |FinancePages| && i < |LabelKeys(FinanceDescriptor)|
    ensures Resolves(Catalogue(lab), LabelKeys(FinanceDescriptor)[i])
  {
    FinanceLabelKeys();
    if i == 0 {
      NavFinanceResolves(lab);
    } else if i <= |FinancePages| {
      PageLabelResolves(lab, i - 1);
    } else {
      SettingsTitleResolves(lab);
    }
  }

  lemma FinanceLabelsResolve()
    ensures LabelsResolve(FinanceDescriptor)
  {
    forall l, i | l in FinanceDescriptor.messages && 0 <= i < |LabelKeys(FinanceDescriptor)|
      ensures Resolves(FinanceDescriptor.messages[l], LabelKeys(FinanceDescriptor)[i])
    {
      CatalogueResolves(if l == EnUS then EnglishLabels else ChineseLabels, i);
    }
  }

  lemma FinancePagePaths()
    ensures PagePaths(FinanceRoute.children) == FinancePages
  {
    var cs := FinanceRoute.children;
    assert cs[1..][1..][1..][1..][1..][1..][1..] == [];
  }

  lemma FinanceRouteShape()
    ensures RouteShape(FinanceDescriptor)
  {
    assert "/" + ModuleName(FinanceModule) == "/finance";
  }

  lemma FinanceIndexRedirect()
    ensures IndexRedirect(FinanceRoute.children) == Some("/finance/overview")
  {
  }

  lemma OverviewIsFirstNavEntry()
    ensures "/finance/overview" == "/" + FinanceDescriptor.nav.value.children[0].key
  {
    assert FinanceNavGroup.children[0] == FinanceNav("overview");
    assert PageKey("finance", "overview") == "finance/overview";
  }

  /**
   * The finance descriptor: identifier "finance", off by default, user
   * toggleable, one settings page "finance" at order 50, and well formed.
   */
  lemma FinanceWellFormed()
    ensures FinanceDescriptor.id == FinanceModule && ModuleName(FinanceDescriptor.id) == "finance"
    ensures !FinanceDescriptor.enabledByDefault && FinanceDescriptor.toggleable
    ensures FinanceDescriptor.settingsPages == [SettingsPage("finance", DottedKey(["settings", "finance", "title"]), 50, FinanceModule)]
    ensures WellFormed(FinanceDescriptor)
  {
    FinanceRouteShape();
    FinancePagePaths();
    FinanceIndexRedirect();
    OverviewIsFirstNavEntry();
    FinanceLabelsResolve();
  }

  /** The finance route is the one the router's table holds under "/finance". */
  lemma FinanceRouteInRouter()
    ensures Router.FinanceRecord in Router.Routes
    ensures Router.FinanceRecord == Router.RouteRecord(FinanceRoute.path, None, Router.MainMeta, FinanceRoute.children)
    ensures Router.MainMeta == Some(Router.Meta(FinanceRoute.meta.requiresAuth, FinanceRoute.meta.layout))
  {
    assert Router.Routes[|Router.TopRoutes|] == Router.FinanceRecord;
  }

  lemma NavEntryPath(i: nat)
    requires i < |FinancePages|
    ensures "/" + FinanceDescriptor.nav.value.children[i].key == Router.ChildPath("/finance", Router.FinanceRecord.children[i + 1].path)
  {
    assert Router.FinanceRecord.children[i + 1].path == FinancePages[i];
  }

  /** Every finance navigation entry opens a page of the router's table that requires a session. */
  lemma FinanceNavIsProtected(i: nat)
    requires i < |FinancePages|
    ensures Router.Lookup("/" + FinanceDescriptor.nav.value.children[i].key).Some?
    ensures Router.PageAt("/" + FinanceDescriptor.nav.value.children[i].key).requiresAuth
  {
    NavEntryPath(i);
    Router.FinanceChildIsProtected(i + 1);
  }
}

=== FILE: release.dfy ===
/**
 * The release tool's pure steps: choosing the bump from the `-part` flag,
 * bumping the version, rewriting the first `"version": "<old>"` of the
 * configuration text, and naming the tag.
 */
module Release {
  import opened Wrappers
  import opened Strings
  import opened SemVer
  import opened UpdateVersion

  datatype Part = MajorPart | MinorPart | PatchPart

  /** The `-part` flag when it is not given. */
  const DefaultPart: string := "patch"

  datatype ReleaseError =
    | BadVersion(error: ParseError)
    | InvalidPart(part: string)
    | Overflow

  /** The bump switch: three accepted words; anything else is the panicking default case. */
  function ParsePart(flag: string): (r: Result<Part, ReleaseError>)
    ensures r == Success(MajorPart) <==> flag == "major"
    ensures r == Success(MinorPart) <==> flag == "minor"
    ensures r == Success(PatchPart) <==> flag == "patch"
    ensures r.Failure? ==> r.error == InvalidPart(flag)
  {
    if flag == "major" then Success(MajorPart)
    else if flag == "minor" then Success(MinorPart)
    else if flag == "patch" then Success(PatchPart)
    else Failure(InvalidPart(flag))
  }

  lemma DefaultPartIsPatch()
    ensures ParsePart(DefaultPart) == Success(PatchPart)
  {
  }

  /** Go's `x++` on a `uint64`: past the largest value it wraps round to 0. */
  function Inc64(x: nat): (y: nat)
    requires x < Uint64Limit
    ensures y < Uint64Limit
    ensures x + 1 < Uint64Limit ==> y == x + 1
    ensures x + 1 == Uint64Limit ==> y == 0
  {
    (x + 1) % Uint64Limit
  }

  /**
   * The bump as the tool writes it: the new version starts as a copy of the
   * current one (so pre-release and build are kept), the chosen component is
   * incremented with `uint64` wrap-around and the lower ones are reset.
   */
  function BumpAsWritten(v: Version, part: Part): (w: Version)
    requires WellFormed(v)
    ensures WellFormed(w)
    ensures w.pre == v.pre && w.build == v.build
    ensures part == MajorPart ==> w.major == Inc64(v.major) && w.minor == 0 && w.patch == 0
    ensures part == MinorPart ==> w.major == v.major && w.minor == Inc64(v.minor) && w.patch == 0
    ensures part == PatchPart ==> w.major == v.major && w.minor == v.minor && w.patch == Inc64(v.patch)
  {
    match part
    case MajorPart => v.(major := Inc64(v.major), minor := 0, patch := 0)
    case MinorPart => v.(minor := Inc64(v.minor), patch := 0)
    case PatchPart => v.(patch := Inc64(v.patch))
  }

  /** The largest major version: bumping it as written gives a LOWER version, 0.0.0. */
  lemma BumpAsWrittenGoesBackwards()
    ensures var v := Version(Uint64Limit - 1, 0, 0, [], []);
      && WellFormed(v)
      && BumpAsWritten(v, MajorPart) == Version(0, 0, 0, [], [])
      && Compare(BumpAsWritten(v, MajorPart), v) == -1
  {
  }

  /** The component the bump increments. */
  function Bumped(v: Version, part: Part): nat {
    match part
    case MajorPart => v.major
    case MinorPart => v.minor
    case PatchPart => v.patch
  }

  /**
   * The bump with the evident intent: the same as written, except that a
   * component already at the largest `uint64` is an overflow error instead
   * of wrapping. Every version it returns ranks strictly above the current.
   */
  function Bump(v: Version, part: Part): (r: Result<Version, ReleaseError>)
    requires WellFormed(v)
    ensures r.Failure? <==> Bumped(v, part) == Uint64Limit - 1
    ensures r.Failure? ==> r.error == Overflow
    ensures r.Success? ==> r.value == BumpAsWritten(v, part)
    ensures r.Success? ==> WellFormed(r.value) && Compare(r.value, v) == 1
    ensures r.Success? ==> Bumped(r.value, part) == Bumped(v, part) + 1
  {
    if Bumped(v, part) == Uint64Limit - 1 then Failure(Overflow)
    else Success(BumpAsWritten(v, part))
  }

  /** Each bump increments exactly one component and resets only the ones below it. */
  lemma BumpShapes(v: Version)
    requires WellFormed(v)
    requires v.major + 1 < Uint64Limit && v.minor + 1 < Uint64Limit && v.patch + 1 < Uint64Limit
    ensures Bump(v, MajorPart) == Success(v.(major := v.major + 1, minor := 0, patch := 0))
    ensures Bump(v, MinorPart) == Success(v.(minor := v.minor + 1, patch := 0))
    ensures Bump(v, PatchPart) == Success(v.(patch := v.patch + 1))
  {
  }

  // ---------------------------------------------------------------------------
  // Rewriting the configuration and naming the tag
  // ---------------------------------------------------------------------------

  /**
   * Go's `strings.Replace(s, pattern, replacement, 1)`: the first occurrence
   * of `pattern` is replaced and the rest of the text is kept; an empty
   * `pattern` matches at the start.
   */
  function ReplaceFirst(s: string, pattern: string, replacement: string): (r: string)
    ensures !Contains(s, pattern) ==> r == s
    ensures Contains(s, pattern) ==> |r| == |s| - |pattern| + |replacement|
    ensures Contains(s, pattern) ==> var i := Find(s, pattern).value;
      && r[..i] == s[..i]
      && r[i..i + |replacement|] == replacement
      && r[i + |replacement|..] == s[i + |pattern|..]
  {
    match Find(s, pattern)
    case None => s
    case Some(i) =>
      var r := s[..i] + replacement + s[i + |pattern|..];
      assert r[..i] == s[..i];
      assert r[i..i + |replacement|] == replacement;
      assert r[i + |replacement|..] == s[i + |pattern|..];
      r
  }

  /** Where the first occurrence is known, exactly that one is replaced. */
  lemma ReplaceFirstAt(a: string, pattern: string, b: string, replacement: string)
    requires forall j :: 0 <= j < |a| ==> !OccursAt(a + pattern + b, pattern, j)
    ensures ReplaceFirst(a + pattern + b, pattern, replacement) == a + replacement + b
  {
    var s := a + pattern + b;
    assert OccursAt(s, pattern, |a|) by {
      assert s[|a|..|a| + |pattern|] == pattern;
    }
    assert Find(s, pattern) == Some(|a|);
    var r := ReplaceFirst(s, pattern, replacement);
    assert r == s[..|a|] + replacement + s[|a| + |pattern|..];
    assert s[..|a|] == a && s[|a| + |pattern|..] == b;
  }

  /** The configuration entry `"version": "<text>"`. */
  function VersionEntry(text: string): string {
    "\"version\": \"" + text + "\""
  }

  /** The tag `v<version>`. */
  function TagName(v: Version): (tag: string)
    requires WellFormed(v)
    ensures tag == "v" + Format(v)
    ensures ParseVersion(tag) == Success(v)
  {
    ParseVersionAcceptsTagged(v);
    "v" + Format(v)
  }

  datatype Outcome = Outcome(version: Version, config: string, tag: string)

  /** The configured version, parsed strictly (no "v", no white space) as `semver.Parse` does. */
  function ParseConfigured(configured: string): (r: Result<Version, ReleaseError>)
    ensures r.Success? <==> Parse(configured).Success?
    ensures r.Success? ==> r.value == Parse(configured).value && Format(r.value) == configured
    ensures r.Failure? ==> r.error == BadVersion(Parse(configured).error)
  {
    match Parse(configured)
    case Success(v) => Success(v)
    case Failure(e) => Failure(BadVersion(e))
  }

  /**
   * One release step as the tool performs it: parse the configured version,
   * bump it with `uint64` wrap-around, rewrite the first version entry of
   * the configuration text, and name the tag. Only a version that does not
   * parse and an unknown part stop it.
   */
  function ReleaseStepAsWritten(configured: string, flag: string, config: string): (r: Result<Outcome, ReleaseError>)
    ensures r.Success? <==> Parse(configured).Success? && ParsePart(flag).Success?
    ensures Parse(configured).Failure? ==> r == Failure(BadVersion(Parse(configured).error))
    ensures Parse(configured).Success? && ParsePart(flag).Failure? ==> r == Failure(InvalidPart(flag))
    ensures r.Success? ==> r.value.version == BumpAsWritten(Parse(configured).value, ParsePart(flag).value)
    ensures r.Success? ==> r.value.config == ReplaceFirst(config, VersionEntry(configured), VersionEntry(Format(r.value.version)))
    ensures r.Success? ==> r.value.tag == "v" + Format(r.value.version)
  {
    var current :- ParseConfigured(configured);
    var part :- ParsePart(flag);
    var next := BumpAsWritten(current, part);
    Success(Outcome(next, ReplaceFirst(config, VersionEntry(Format(current)), VersionEntry(Format(next))), TagName(next)))
  }

  /**
   * The tool as written, given the largest major version and "major",
   * writes and tags a version that ranks below the configured one.
   */
  lemma ReleaseStepAsWrittenGoesBackwards(v: Version, config: string)
    requires WellFormed(v) && v.major == Uint64Limit - 1
    ensures var r := ReleaseStepAsWritten(Format(v), "major", config);
      && r.Success?
      && r.value.version == v.(major := 0, minor := 0, patch := 0)
      && Compare(r.value.version, v) == -1
      && r.value.tag == "v" + Format(r.value.version)
  {
    FormatParse(v);
  }

  /**
   * One release step with the corrected bump: the same as the tool, except
   * that a component at the largest `uint64` is an overflow error, so every
   * release it makes ranks above the configured version.
   */
  function ReleaseStep(configured: string, flag: string, config: string): (r: Result<Outcome, ReleaseError>)
    ensures r.Success? <==> && Parse(configured).Success? && ParsePart(flag).Success?
                            && Bump(Parse(configured).value, ParsePart(flag).value).Success?
    ensures r.Success? ==> r == ReleaseStepAsWritten(configured, flag, config)
    ensures ReleaseStepAsWritten(configured, flag, config).Success? && r.Failure? ==> r.error == Overflow
    ensures r.Success? ==> Compare(r.value.version, Parse(configured).value) == 1
    ensures r.Success? ==> r.value.config == ReplaceFirst(config, VersionEntry(configured), VersionEntry(Format(r.value.version)))
    ensures r.Success? ==> r.value.tag == "v" + Format(r.value.version)
    ensures r.Success? ==> ParseVersion(r.value.tag) == Success(r.value.version)
  {
    var current :- ParseConfigured(configured);
    var part :- ParsePart(flag);
    var next :- Bump(current, part);
    Success(Outcome(next, ReplaceFirst(config, VersionEntry(Format(current)), VersionEntry(Format(next))), TagName(next)))
  }
}

=== FILE: router.dfy ===
/**
 * The front end's route table and its two global hooks: the `beforeEach`
 * guard that sends visitors between the auth pages and the main app, and
 * the `afterEach` hook that remembers the last protected page visited.
 */
module Router {
  import opened Wrappers

  datatype Layout = AuthLayout | MainLayout

  datatype Meta = Meta(requiresAuth: bool, layout: Layout)

  /** A nested route: a path relative to its parent, and possibly a redirect. */
  datatype ChildRoute = ChildRoute(path: string, redirect: Option<string>)

  datatype RouteRecord = RouteRecord(path: string, redirect: Option<string>, meta: Option<Meta>, children: seq<ChildRoute>)

  const AuthMeta: Option<Meta> := Some(Meta(false, AuthLayout))
  const MainMeta: Option<Meta> := Some(Meta(true, MainLayout))

  function Page(path: string, meta: Option<Meta>): RouteRecord {
    RouteRecord(path, None, meta, [])
  }

  function ChildPage(path: string): ChildRoute {
    ChildRoute(path, None)
  }

  /** The top-level records: the root redirect, the auth pages and the main pages. */
  const TopRoutes: seq<RouteRecord> := [
    RouteRecord("/", Some("/splash"), None, []),
    Page("/splash", AuthMeta),
    Page("/login", AuthMeta),
    Page("/register", AuthMeta),
    Page("/dashboard", MainMeta),
    Page("/clients", MainMeta),
    Page("/projects", MainMeta),
    Page("/timesheet", MainMeta),
    Page("/invoices", MainMeta),
    Page("/reports", MainMeta)
  ]

  /** The paths of the top-level records. */
  const TopPaths: set<string> := {
    "/", "/splash", "/login", "/register", "/dashboard",
    "/clients", "/projects", "/timesheet", "/invoices", "/reports"
  }

  const FinanceRecord: RouteRecord := RouteRecord("/finance", None, MainMeta, [
    ChildRoute("", Some("/finance/overview")),
    ChildPage("overview"),
    ChildPage("accounts"),
    ChildPage("transactions"),
    ChildPage("import"),
    ChildPage("categories"),
    ChildPage("reports")
  ])

  const SettingsRecord: RouteRecord := RouteRecord("/settings", None, MainMeta, [
    ChildRoute("", Some("/settings/general")),
    ChildPage("general"),
    ChildPage("profile"),
    ChildPage("invoice"),
    ChildPage("email"),
    ChildPage("finance")
  ])

  /** The route table, in declaration order. */
  const Routes: seq<RouteRecord> := TopRoutes + [FinanceRecord, SettingsRecord]

  // ---------------------------------------------------------------------------
  // Matching
  // ---------------------------------------------------------------------------

  /**
   * A matchable location: its full path, where it redirects, and the meta it
   * carries (a child route has no meta of its own and shows its parent's).
   */
  datatype Entry = Entry(path: string, redirect: Option<string>, meta: Option<Meta>)

  /** An empty child path matches the parent's own path. */
  function ChildPath(parent: string, child: string): string {
    if child == "" then parent else parent + "/" + child
  }

  function RecordEntries(r: RouteRecord): (es: seq<Entry>)
    ensures r.children == [] ==> es == [Entry(r.path, r.redirect, r.meta)]
    ensures r.children != [] ==> |es| == |r.children| && forall i :: 0 <= i < |es| ==>
      es[i] == Entry(ChildPath(r.path, r.children[i].path), r.children[i].redirect, r.meta)
  {
    if r.children == [] then
      [Entry(r.path, r.redirect, r.meta)]
    else
      seq(|r.children|, i requires 0 <= i < |r.children| =>
            Entry(ChildPath(r.path, r.children[i].path), r.children[i].redirect, r.meta))
  }

  function Flatten(routes: seq<RouteRecord>): seq<Entry> {
    if routes == [] then [] else RecordEntries(routes[0]) + Flatten(routes[1..])
  }

  /** The first entry for `path`, as the router tries records in order. */
  function LookupIn(entries: seq<Entry>, path: string): (r: Option<Entry>)
    ensures r.Some? ==> r.value in entries && r.value.path == path
    ensures r.None? <==> forall i :: 0 <= i < |entries| ==> entries[i].path != path
  {
    if entries == [] then None
    else if entries[0].path == path then Some(entries[0])
    else LookupIn(entries[1..], path)
  }

  function Lookup(path: string): Option<Entry> {
    LookupIn(Flatten(Routes), path)
  }

  /** Whether a location's meta asks for authentication; a location without meta does not. */
  function RequiresAuth(meta: Option<Meta>): bool {
    meta.Some? && meta.value.requiresAuth
  }

  /** The location a guard sees: its path, its full path and its meta's `requiresAuth`. */
  datatype Target = Target(path: string, fullPath: string, requiresAuth: bool)

  /** The page a path lands on: a location without a match has empty meta. */
  function PageAt(path: string): (t: Target)
    ensures t.path == path && t.fullPath == path
  {
    match Lookup(path)
    case None => Target(path, path, false)
    case Some(e) => Target(path, path, RequiresAuth(e.meta))
  }

  /**
   * Where the router sends a path before any guard runs: a static redirect
   * is followed, otherwise the path is kept. The table has no redirect that
   * leads to another redirect, so following one is following them all.
   */
  function Resolve(path: string): (t: Target)
    ensures Lookup(path).Some? && Lookup(path).value.redirect.Some? ==> t == PageAt(Lookup(path).value.redirect.value)
    ensures (Lookup(path).None? || Lookup(path).value.redirect.None?) ==> t == PageAt(path)
  {
    match Lookup(path)
    case Some(Entry(_, Some(to), _)) => PageAt(to)
    case _ => PageAt(path)
  }

  // ---------------------------------------------------------------------------
  // The guard
  // ---------------------------------------------------------------------------

  /** What the guard reads from the auth store. */
  datatype AuthState = AuthState(initialized: bool, authenticated: bool, userCount: nat)

  datatype Decision = Proceed | RedirectTo(path: string)

  const Splash: string := "/splash"
  const Login: string := "/login"
  const Register: string := "/register"
  const Dashboard: string := "/dashboard"

  /**
   * The `beforeEach` guard. A protected page without a session goes to the
   * splash page while the store is loading, then to login when some user
   * exists and to registration otherwise; a signed-in user is sent from the
   * auth pages, except the splash page, to the dashboard.
   */
  function BeforeEach(to: Target, auth: AuthState): (d: Decision)
    ensures d.RedirectTo? ==> d.path in {Splash, Login, Register, Dashboard}
    ensures d == Proceed <==> (to.requiresAuth <==> auth.authenticated) || (!to.requiresAuth && to.path == Splash)
    ensures d.RedirectTo? && to.requiresAuth ==> !auth.authenticated
    ensures d.RedirectTo? && !to.requiresAuth ==> auth.authenticated && d.path == Dashboard
    ensures to.requiresAuth && !auth.authenticated && !auth.initialized ==> d == RedirectTo(Splash)
    ensures to.requiresAuth && !auth.authenticated && auth.initialized && auth.userCount > 0 ==> d == RedirectTo(Login)
    ensures to.requiresAuth && !auth.authenticated && auth.initialized && auth.userCount == 0 ==> d == RedirectTo(Register)
  {
    if to.requiresAuth && !auth.authenticated then
      if !auth.initialized then RedirectTo(Splash)
      else if auth.userCount > 0 then RedirectTo(Login)
      else RedirectTo(Register)
    else if !to.requiresAuth && auth.authenticated && to.path != Splash then
      RedirectTo(Dashboard)
    else
      Proceed
  }

  lemma {:induction false} LookupAppend(a: seq<Entry>, b: seq<Entry>, path: string)
    ensures LookupIn(a + b, path) == if LookupIn(a, path).Some? then LookupIn(a, path) else LookupIn(b, path)
  {
    if a == [] {
      assert a + b == b;
    } else {
      assert (a + b)[1..] == a[1..] + b;
      LookupAppend(a[1..], b, path);
    }
  }

  lemma {:induction false} FlattenAppend(a: seq<RouteRecord>, b: seq<RouteRecord>)
    ensures Flatten(a + b) == Flatten(a) + Flatten(b)
  {
    if a == [] {
      assert a + b == b;
    } else {
      assert (a + b)[0] == a[0] && (a + b)[1..] == a[1..] + b;
      FlattenAppend(a[1..], b);
    }
  }

  /** Records without children flatten to one entry each, in order. */
  lemma {:induction false} FlattenPages(rs: seq<RouteRecord>)
    requires forall i :: 0 <= i < |rs| ==> rs[i].children == []
    ensures |Flatten(rs)| == |rs|
    ensures forall i :: 0 <= i < |rs| ==> Flatten(rs)[i] == Entry(rs[i].path, rs[i].redirect, rs[i].meta)
  {
    if rs != [] {
      FlattenPages(rs[1..]);
    }
  }

  lemma TopRoutesArePages()
    ensures forall i :: 0 <= i < |TopRoutes| ==> TopRoutes[i].children == [] && TopRoutes[i].path in TopPaths
  {
  }

  /** The entry at `i` is what a lookup finds when no earlier entry has its path. */
  lemma {:induction false} LookupAt(entries: seq<Entry>, i: nat, path: string)
    requires i < |entries| && entries[i].path == path
    requires forall j :: 0 <= j < i ==> entries[j].path != path
    ensures LookupIn(entries, path) == Some(entries[i])
  {
    if i > 0 {
      assert forall j :: 0 <= j < i - 1 ==> entries[1..][j] == entries[j + 1];
      LookupAt(entries[1..], i - 1, path);
    }
  }

  /** A top-level record is found by its path when no earlier record has that path. */
  lemma LookupTopLevel(i: nat)
    requires i < |TopRoutes|
    requires forall j :: 0 <= j < i ==> TopRoutes[j].path != TopRoutes[i].path
    ensures Lookup(TopRoutes[i].path) == Some(Entry(TopRoutes[i].path, TopRoutes[i].redirect, TopRoutes[i].meta))
  {
    TopRoutesArePages();
    FlattenPages(TopRoutes);
    FlattenAppend(TopRoutes, [FinanceRecord, SettingsRecord]);
    LookupAt(Flatten(Routes), i, TopRoutes[i].path);
  }

  /** No top-level entry has a path outside the top-level paths. */
  lemma TopEntriesMiss(path: string)
    requires path !in TopPaths
    ensures LookupIn(Flatten(TopRoutes), path).None?
  {
    TopRoutesArePages();
    FlattenPages(TopRoutes);
  }

  lemma FlattenNested()
    ensures Flatten([FinanceRecord, SettingsRecord]) == RecordEntries(FinanceRecord) + RecordEntries(SettingsRecord)
  {
    assert [FinanceRecord, SettingsRecord][1..] == [SettingsRecord];
    assert Flatten([SettingsRecord]) == RecordEntries(SettingsRecord) + [];
  }

  /** A path no top-level record has is looked up among the two nested records. */
  lemma LookupNested(path: string)
    requires path !in TopPaths
    ensures Lookup(path) == LookupIn(RecordEntries(FinanceRecord) + RecordEntries(SettingsRecord), path)
  {
    FlattenAppend(TopRoutes, [FinanceRecord, SettingsRecord]);
    FlattenNested();
    TopEntriesMiss(path);
    LookupAppend(Flatten(TopRoutes), RecordEntries(FinanceRecord) + RecordEntries(SettingsRecord), path);
  }

  /** Every entry of a record has the record's path as a prefix. */
  lemma EntryPathPrefix(r: RouteRecord, i: nat)
    requires i < |RecordEntries(r)|
    ensures var p := RecordEntries(r)[i].path; |r.path| <= |p| && p[..|r.path|] == r.path
  {
    if r.children != [] {
      var c := r.children[i].path;
      if c != "" {
        assert (r.path + "/" + c)[..|r.path|] == r.path;
      }
    }
  }

  // The four redirect targets, as the table resolves them.

  lemma SplashIsOpen()
    ensures Resolve(Splash) == Target(Splash, Splash, false)
  {
    LookupTopLevel(1);
  }

  lemma LoginIsOpen()
    ensures Resolve(Login) == Target(Login, Login, false)
  {
    LookupTopLevel(2);
  }

  lemma RegisterIsOpen()
    ensures Resolve(Register) == Target(Register, Register, false)
  {
    LookupTopLevel(3);
  }

  lemma DashboardIsProtected()
    ensures Resolve(Dashboard) == Target(Dashboard, Dashboard, true)
  {
    LookupTopLevel(4);
  }

  /** The splash page is reachable in every auth state. */
  lemma SplashAlwaysProceeds(auth: AuthState)
    ensures BeforeEach(Resolve(Splash), auth) == Proceed
  {
    SplashIsOpen();
  }

  /** No redirect loop: the guard lets through every page it redirects to, in the same auth state. */
  lemma NoRedirectLoop(to: Target, auth: AuthState)
    ensures BeforeEach(to, auth).RedirectTo? ==> BeforeEach(Resolve(BeforeEach(to, auth).path), auth) == Proceed
  {
    SplashIsOpen();
    LoginIsOpen();
    RegisterIsOpen();
    DashboardIsProtected();
  }

  /**
   * A whole navigation: resolve the path, run the guard, and when it
   * redirects, resolve and guard the new path. The page shown is one the
   * guard accepts, so a protected page is shown only with a session.
   */
  function Navigate(path: string, auth: AuthState): (shown: Target)
    ensures BeforeEach(shown, auth) == Proceed
    ensures shown.requiresAuth ==> auth.authenticated
    ensures BeforeEach(Resolve(path), auth) == Proceed ==> shown == Resolve(path)
  {
    var t := Resolve(path);
    match BeforeEach(t, auth)
    case Proceed => t
    case RedirectTo(p) =>
      NoRedirectLoop(t, auth);
      Resolve(p)
  }

  /**
   * The `afterEach` hook: the full path of a protected page becomes the
   * remembered route; any other page leaves it as it was.
   */
  function AfterEach(to: Target, lastAuthed: Option<string>): (r: Option<string>)
    ensures to.requiresAuth ==> r == Some(to.fullPath)
    ensures !to.requiresAuth ==> r == lastAuthed
  {
    if to.requiresAuth then Some(to.fullPath) else lastAuthed
  }

  /** After a navigation, the remembered route is never an auth page. */
  lemma RememberedRouteIsProtected(path: string, auth: AuthState, lastAuthed: Option<string>)
    requires lastAuthed.Some? ==> PageAt(lastAuthed.value).requiresAuth
    ensures var r := AfterEach(Navigate(path, auth), lastAuthed);
      r.Some? ==> PageAt(r.value).requiresAuth
  {
  }

  // The static redirects of the table.

  lemma RootRedirect()
    ensures Resolve("/") == Target(Splash, Splash, false)
  {
    LookupTopLevel(0);
    SplashIsOpen();
  }

  /** The finance pages are the first entries of the nested records. */
  lemma LookupFinance(path: string)
    requires path !in TopPaths
    requires LookupIn(RecordEntries(FinanceRecord), path).Some?
    ensures Lookup(path) == LookupIn(RecordEntries(FinanceRecord), path)
  {
    LookupNested(path);
    LookupAppend(RecordEntries(FinanceRecord), RecordEntries(SettingsRecord), path);
  }

  /** A path the finance record does not have is looked up in the settings record. */
  lemma LookupSettings(path: string)
    requires path !in TopPaths
    requires |path| < |FinanceRecord.path| || path[..|FinanceRecord.path|] != FinanceRecord.path
    ensures Lookup(path) == LookupIn(RecordEntries(SettingsRecord), path)
  {
    forall i | 0 <= i < |RecordEntries(FinanceRecord)|
      ensures RecordEntries(FinanceRecord)[i].path != path
    {
      EntryPathPrefix(FinanceRecord, i);
    }
    LookupNested(path);
    LookupAppend(RecordEntries(FinanceRecord), RecordEntries(SettingsRecord), path);
  }

  lemma FinanceOverviewIsProtected()
    ensures PageAt("/finance/overview") == Target("/finance/overview", "/finance/overview", true)
  {
    var es := RecordEntries(FinanceRecord);
    assert es[1].path == "/finance/overview";
    LookupFinance("/finance/overview");
  }

  lemma FinanceRedirect()
    ensures Resolve("/finance") == Target("/finance/overview", "/finance/overview", true)
  {
    var es := RecordEntries(FinanceRecord);
    LookupAt(es, 0, "/finance");
    LookupFinance("/finance");
    FinanceOverviewIsProtected();
  }

  lemma SettingsGeneralIsProtected()
    ensures PageAt("/settings/general") == Target("/settings/general", "/settings/general", true)
  {
    var es := RecordEntries(SettingsRecord);
    assert es[1].path == "/settings/general";
    assert "/settings/general"[..8][1] != FinanceRecord.path[1];
    LookupSettings("/settings/general");
  }

  lemma SettingsRedirect()
    ensures Resolve("/settings") == Target("/settings/general", "/settings/general", true)
  {
    var es := RecordEntries(SettingsRecord);
    LookupAt(es, 0, "/settings");
    assert "/settings"[..8][1] != FinanceRecord.path[1];
    LookupSettings("/settings");
    SettingsGeneralIsProtected();
  }

  /** Each page nested under "/finance" is found in the table and requires a session. */
  lemma FinanceChildIsProtected(c: nat)
    requires 0 < c < |FinanceRecord.children|
    ensures Lookup(ChildPath("/finance", FinanceRecord.children[c].path)).Some?
    ensures PageAt(ChildPath("/finance", FinanceRecord.children[c].path)).requiresAuth
  {
    var path := ChildPath("/finance", FinanceRecord.children[c].path);
    var es := RecordEntries(FinanceRecord);
    assert es[c].path == path;
    assert |FinanceRecord.children[c].path| >= 6;
    LookupFinance(path);
  }
}

=== FILE: semver.dfy ===
/**
 * Semantic Versioning 2.0.0 as the `blang/semver` library implements it:
 * parsing (sections 2, 9 and 10), printing, and precedence (section 11).
 *
 * The library keeps every numeric component in an unsigned 64-bit integer,
 * so a component of 2^64 or more is a parse error.
 */
module SemVer {
  import opened Wrappers
  import opened Strings

  /** One more than the largest unsigned 64-bit integer. */
  const Uint64Limit: nat := 0x1_0000_0000_0000_0000

  /** A pre-release identifier: a number, or an alphanumeric word with a non-digit. */
  datatype Ident = Num(n: nat) | Alpha(s: string)

  datatype Version = Version(major: nat, minor: nat, patch: nat, pre: seq<Ident>, build: seq<string>)

  datatype ParseError =
    | EmptyVersion
    | MissingComponents
    | InvalidNumber(text: string)
    | InvalidPrerelease(text: string)
    | InvalidBuild(text: string)

  // ---------------------------------------------------------------------------
  // Character classes
  // ---------------------------------------------------------------------------

  predicate AllDigits(s: string) {
    forall i :: 0 <= i < |s| ==> IsDigit(s[i])
  }

  /** The identifier alphabet `[0-9A-Za-z-]`. */
  predicate IsIdentChar(c: char) {
    IsAsciiLetterOrDigit(c) || c == '-'
  }

  predicate AllIdentChars(s: string) {
    forall i :: 0 <= i < |s| ==> IsIdentChar(s[i])
  }

  predicate HasLeadingZero(s: string) {
    |s| > 1 && s[0] == '0'
  }

  // ---------------------------------------------------------------------------
  // Decimal numbers
  // ---------------------------------------------------------------------------

  function DigitValue(c: char): nat
    requires IsDigit(c)
  {
    c as int - '0' as int
  }

  function DigitChar(d: nat): (c: char)
    requires d < 10
    ensures IsDigit(c) && DigitValue(c) == d
  {
    ('0' as int + d) as char
  }

  /** The value of a string of decimal digits ("" counts as 0). */
  function DecimalValue(s: string): nat
    requires AllDigits(s)
  {
    if s == [] then 0 else DecimalValue(s[..|s| - 1]) * 10 + DigitValue(s[|s| - 1])
  }

  /** `strconv.FormatUint` in base 10: the canonical digits of `n`, which read back as `n`. */
  function NatToString(n: nat): (s: string)
    ensures s != [] && AllDigits(s) && !HasLeadingZero(s)
    ensures DecimalValue(s) == n
  {
    if n < 10 then [DigitChar(n)]
    else
      var p := NatToString(n / 10);
      var s := p + [DigitChar(n % 10)];
      assert s[..|s| - 1] == p;
      s
  }

  lemma {:induction false} DecimalValuePositive(s: string)
    requires s != [] && AllDigits(s) && s[0] != '0'
    ensures DecimalValue(s) > 0
  {
    if |s| > 1 {
      DecimalValuePositive(s[..|s| - 1]);
    }
  }

  /** Canonical digit strings are exactly the ones `NatToString` prints. */
  lemma {:induction false} NatToStringOfDecimal(s: string)
    requires s != [] && AllDigits(s) && !HasLeadingZero(s)
    ensures NatToString(DecimalValue(s)) == s
  {
    if |s| > 1 {
      var p := s[..|s| - 1];
      DecimalValuePositive(p);
      NatToStringOfDecimal(p);
      var n := DecimalValue(s);
      assert n / 10 == DecimalValue(p) && n % 10 == DigitValue(s[|s| - 1]);
      assert s == p + [s[|s| - 1]];
    }
  }

  /** `strconv.ParseUint(t, 10, 64)` behind the library's digit and leading-zero checks. */
  function ParseNumber(t: string): (r: Result<nat, ParseError>)
    ensures r.Success? <==> t != [] && AllDigits(t) && !HasLeadingZero(t) && DecimalValue(t) < Uint64Limit
    ensures r.Success? ==> r.value < Uint64Limit && NatToString(r.value) == t
  {
    if !AllDigits(t) || HasLeadingZero(t) || t == [] then Failure(InvalidNumber(t))
    else
      var n := DecimalValue(t);
      if n < Uint64Limit then
        NatToStringOfDecimal(t);
        Success(n)
      else Failure(InvalidNumber(t))
  }

  // ---------------------------------------------------------------------------
  // Identifiers
  // ---------------------------------------------------------------------------

  predicate ValidIdent(id: Ident) {
    match id
    case Num(n) => n < Uint64Limit
    case Alpha(s) => s != [] && AllIdentChars(s) && !AllDigits(s)
  }

  predicate ValidBuild(b: string) {
    b != [] && AllIdentChars(b)
  }

  function IdentString(id: Ident): string {
    match id
    case Num(n) => NatToString(n)
    case Alpha(s) => s
  }

  function IdentStrings(ids: seq<Ident>): (texts: seq<string>)
    ensures |texts| == |ids|
  {
    seq(|ids|, i requires 0 <= i < |ids| => IdentString(ids[i]))
  }

  /** The library's `NewPRVersion`: a numeric identifier without leading zeros, or an alphanumeric one. */
  function ParseIdent(t: string): (r: Result<Ident, ParseError>)
    ensures r.Success? ==> ValidIdent(r.value) && IdentString(r.value) == t
    ensures r.Failure? <==> t == [] || !AllIdentChars(t) || (AllDigits(t) && (HasLeadingZero(t) || DecimalValue(t) >= Uint64Limit))
  {
    if t == [] then Failure(InvalidPrerelease(t))
    else if AllDigits(t) then
      if HasLeadingZero(t) then Failure(InvalidPrerelease(t))
      else
        var n := DecimalValue(t);
        if n < Uint64Limit then
          NatToStringOfDecimal(t);
          Success(Num(n))
        else Failure(InvalidPrerelease(t))
    else if AllIdentChars(t) then Success(Alpha(t))
    else Failure(InvalidPrerelease(t))
  }

  lemma ParseIdentString(id: Ident)
    requires ValidIdent(id)
    ensures ParseIdent(IdentString(id)) == Success(id)
  {
    match id
    case Num(n) =>
    case Alpha(s) =>
  }

  /** The dot-separated pre-release identifiers, stopping at the first invalid one. */
  function ParseIdents(parts: seq<string>): (r: Result<seq<Ident>, ParseError>)
    ensures r.Success? ==> IdentStrings(r.value) == parts
    ensures r.Success? ==> forall i :: 0 <= i < |r.value| ==> ValidIdent(r.value[i])
    ensures r.Failure? <==> exists i :: 0 <= i < |parts| && ParseIdent(parts[i]).Failure?
  {
    if parts == [] then Success([])
    else
      var id :- ParseIdent(parts[0]);
      var ids :- ParseIdents(parts[1..]);
      var r := [id] + ids;
      assert forall i :: 1 <= i < |parts| ==> parts[1..][i - 1] == parts[i];
      IdentStringsCons(r);
      assert r[1..] == ids;
      assert parts == [parts[0]] + parts[1..];
      assert forall i :: 1 <= i < |r| ==> r[i] == ids[i - 1];
      Success(r)
  }

  lemma IdentStringsCons(ids: seq<Ident>)
    requires ids != []
    ensures IdentStrings(ids) == [IdentString(ids[0])] + IdentStrings(ids[1..])
  {
  }

  lemma {:induction false} ParseIdentsOfStrings(ids: seq<Ident>)
    requires forall i :: 0 <= i < |ids| ==> ValidIdent(ids[i])
    ensures ParseIdents(IdentStrings(ids)) == Success(ids)
  {
    if ids != [] {
      var texts := IdentStrings(ids);
      IdentStringsCons(ids);
      assert texts[0] == IdentString(ids[0]) && texts[1..] == IdentStrings(ids[1..]);
      ParseIdentString(ids[0]);
      ParseIdentsOfStrings(ids[1..]);
      ParseIdentsStep(texts, ids);
    }
  }

  lemma ParseIdentsStep(texts: seq<string>, ids: seq<Ident>)
    requires texts != [] && ids != []
    requires ParseIdent(texts[0]) == Success(ids[0]) && ParseIdents(texts[1..]) == Success(ids[1..])
    ensures ParseIdents(texts) == Success(ids)
  {
    assert ids == [ids[0]] + ids[1..];
  }

  /** The dot-separated build identifiers, stopping at the first invalid one. */
  function ParseBuild(parts: seq<string>): (r: Result<seq<string>, ParseError>)
    ensures r.Success? <==> forall i :: 0 <= i < |parts| ==> ValidBuild(parts[i])
    ensures r.Success? ==> r.value == parts
  {
    if parts == [] then Success([])
    else if !ValidBuild(parts[0]) then Failure(InvalidBuild(parts[0]))
    else
      var rest :- ParseBuild(parts[1..]);
      assert forall i :: 1 <= i < |parts| ==> parts[1..][i - 1] == parts[i];
      assert parts == [parts[0]] + rest;
      Success(parts)
  }

  // ---------------------------------------------------------------------------
  // The text after MAJOR.MINOR.
  // ---------------------------------------------------------------------------

  /** The patch digits, the pre-release text after the first `-`, the build text after the first `+`. */
  datatype Tail = Tail(patch: string, pre: Option<string>, build: Option<string>)

  function JoinTail(x: Tail): string {
    x.patch
    + (if x.pre.Some? then "-" + x.pre.value else "")
    + (if x.build.Some? then "+" + x.build.value else "")
  }

  /** Cut the build at the first `+`, then the pre-release at the first `-`: the parts spell the text again. */
  function SplitTail(t: string): (r: Tail)
    ensures '+' !in r.patch && '-' !in r.patch
    ensures r.pre.Some? ==> '+' !in r.pre.value
    ensures JoinTail(r) == t
  {
    var b := IndexOf(t, '+');
    var head := t[..b];
    var build := if b < |t| then Some(t[b + 1..]) else None;
    var p := IndexOf(head, '-');
    var pre := if p < |head| then Some(head[p + 1..]) else None;
    assert '+' !in head;
    assert head[..p] + (if pre.Some? then "-" + pre.value else "") == head;
    assert head + (if build.Some? then "+" + build.value else "") == t;
    Tail(head[..p], pre, build)
  }

  /** The first `c` of `a + [c] + b` splits the text back into `a` and `b`. */
  lemma CutAtFirst(a: string, c: char, b: string)
    requires c !in a
    ensures var t := a + [c] + b; IndexOf(t, c) == |a| && t[..|a|] == a && t[|a| + 1..] == b
  {
    IndexOfFirst(a, c, b);
    var t := a + [c] + b;
    assert t[..|a|] == a;
    assert t[|a| + 1..] == b;
  }

  /** The text before the build, which holds no `+`. */
  function TailHead(x: Tail): string {
    x.patch + (if x.pre.Some? then "-" + x.pre.value else "")
  }

  lemma BuildCut(x: Tail)
    requires '+' !in TailHead(x)
    ensures var t := JoinTail(x); var h := TailHead(x);
      && IndexOf(t, '+') == (if x.build.Some? then |h| else |t|)
      && t[..IndexOf(t, '+')] == h
      && (x.build.Some? ==> t[|h| + 1..] == x.build.value)
  {
    var h := TailHead(x);
    var t := JoinTail(x);
    if x.build.Some? {
      assert t == h + ['+'] + x.build.value;
      CutAtFirst(h, '+', x.build.value);
    } else {
      assert t == h;
      IndexOfAbsent(h, '+');
    }
  }

  lemma PreCut(x: Tail)
    requires '-' !in x.patch
    ensures var h := TailHead(x);
      && IndexOf(h, '-') == (if x.pre.Some? then |x.patch| else |h|)
      && h[..IndexOf(h, '-')] == x.patch
      && (x.pre.Some? ==> h[|x.patch| + 1..] == x.pre.value)
  {
    var h := TailHead(x);
    if x.pre.Some? {
      assert h == x.patch + ['-'] + x.pre.value;
      CutAtFirst(x.patch, '-', x.pre.value);
    } else {
      assert h == x.patch;
      IndexOfAbsent(x.patch, '-');
    }
  }

  lemma SplitJoinTail(x: Tail)
    requires '+' !in x.patch && '-' !in x.patch
    requires x.pre.Some? ==> '+' !in x.pre.value
    ensures SplitTail(JoinTail(x)) == x
  {
    assert '+' !in TailHead(x);
    BuildCut(x);
    PreCut(x);
    SplitAtCuts(JoinTail(x), x);
  }

  /** `SplitTail` read off where the first `+` and the first `-` before it are. */
  lemma SplitAtCuts(t: string, x: Tail)
    requires IndexOf(t, '+') == (if x.build.Some? then |TailHead(x)| else |t|)
    requires t[..IndexOf(t, '+')] == TailHead(x)
    requires x.build.Some? ==> |TailHead(x)| < |t| && t[|TailHead(x)| + 1..] == x.build.value
    requires IndexOf(TailHead(x), '-') == (if x.pre.Some? then |x.patch| else |TailHead(x)|)
    requires TailHead(x)[..IndexOf(TailHead(x), '-')] == x.patch
    requires x.pre.Some? ==> |x.patch| < |TailHead(x)| && TailHead(x)[|x.patch| + 1..] == x.pre.value
    ensures SplitTail(t) == x
  {
  }


  // ---------------------------------------------------------------------------
  // Parsing and printing
  // ---------------------------------------------------------------------------

  predicate WellFormed(v: Version) {
    && v.major < Uint64Limit && v.minor < Uint64Limit && v.patch < Uint64Limit
    && (forall i :: 0 <= i < |v.pre| ==> ValidIdent(v.pre[i]))
    && (forall i :: 0 <= i < |v.build| ==> ValidBuild(v.build[i]))
  }

  function PreText(pre: seq<Ident>): Option<string> {
    if pre == [] then None else Some(Join(IdentStrings(pre), "."))
  }

  function BuildText(build: seq<string>): Option<string> {
    if build == [] then None else Some(Join(build, "."))
  }

  /** The library's `Version.String`. */
  function Format(v: Version): string {
    NatToString(v.major) + "." + NatToString(v.minor) + "."
    + JoinTail(Tail(NatToString(v.patch), PreText(v.pre), BuildText(v.build)))
  }

  /**
   * The library's strict `Parse`: MAJOR.MINOR.PATCH, each without leading
   * zeros and below 2^64, then an optional `-` pre-release and an optional
   * `+` build, each a non-empty list of dot-separated identifiers.
   * Whatever it accepts is well formed and is printed back unchanged.
   */
  function Parse(s: string): (r: Result<Version, ParseError>)
    ensures s == [] ==> r == Failure(EmptyVersion)
    ensures r.Success? ==> WellFormed(r.value) && Format(r.value) == s
  {
    if s == [] then Failure(EmptyVersion)
    else
      var i := IndexOf(s, '.');
      if i == |s| then Failure(MissingComponents)
      else
        var rest := s[i + 1..];
        var j := IndexOf(rest, '.');
        if j == |rest| then Failure(MissingComponents)
        else
          CutTwice(s, i, j);
          ParseComponents(s[..i], rest[..j], rest[j + 1..])
  }

  /** The numbers and identifiers once the text is cut at its first two dots. */
  function ParseComponents(ma: string, mi: string, t: string): (r: Result<Version, ParseError>)
    ensures r.Success? ==> WellFormed(r.value) && Format(r.value) == ma + "." + mi + "." + t
  {
    var major :- ParseNumber(ma);
    var minor :- ParseNumber(mi);
    var tail := SplitTail(t);
    var patch :- ParseNumber(tail.patch);
    var pre :- if tail.pre.Some? then ParseIdents(Split(tail.pre.value, '.')) else Success([]);
    var build :- if tail.build.Some? then ParseBuild(Split(tail.build.value, '.')) else Success([]);
    var v := Version(major, minor, patch, pre, build);
    FormatOfParsed(ma, mi, t, tail, v);
    Success(v)
  }

  lemma PreTextOfSplit(pre: seq<Ident>, text: string)
    requires IdentStrings(pre) == Split(text, '.')
    ensures PreText(pre) == Some(text)
  {
    JoinSplit(text, '.');
  }

  lemma BuildTextOfSplit(build: seq<string>, text: string)
    requires build == Split(text, '.')
    ensures BuildText(build) == Some(text)
  {
    JoinSplit(text, '.');
  }

  /** A text cut at two dots is the three pieces joined by dots. */
  lemma CutTwice(s: string, i: nat, j: nat)
    requires i < |s| && s[i] == '.' && j < |s[i + 1..]| && s[i + 1..][j] == '.'
    ensures s == s[..i] + "." + s[i + 1..][..j] + "." + s[i + 1..][j + 1..]
  {
    var rest := s[i + 1..];
    assert rest == rest[..j] + "." + rest[j + 1..];
    assert s == s[..i] + "." + rest;
  }

  lemma FormatOfParsed(ma: string, mi: string, t: string, tail: Tail, v: Version)
    requires NatToString(v.major) == ma && NatToString(v.minor) == mi
    requires JoinTail(tail) == t && NatToString(v.patch) == tail.patch
    requires tail.pre.None? ==> v.pre == []
    requires tail.pre.Some? ==> IdentStrings(v.pre) == Split(tail.pre.value, '.')
    requires tail.build.None? ==> v.build == []
    requires tail.build.Some? ==> v.build == Split(tail.build.value, '.')
    ensures Format(v) == ma + "." + mi + "." + t
  {
    if tail.pre.Some? {
      PreTextOfSplit(v.pre, tail.pre.value);
    }
    if tail.build.Some? {
      BuildTextOfSplit(v.build, tail.build.value);
    }
    assert Tail(NatToString(v.patch), PreText(v.pre), BuildText(v.build)) == tail;
  }

  lemma PreTextParses(pre: seq<Ident>)
    requires pre != [] && forall k :: 0 <= k < |pre| ==> ValidIdent(pre[k])
    ensures PreText(pre).Some? && '+' !in PreText(pre).value
    ensures ParseIdents(Split(PreText(pre).value, '.')) == Success(pre)
  {
    var texts := IdentStrings(pre);
    forall k | 0 <= k < |texts| ensures '.' !in texts[k] && '+' !in texts[k] {
      assert ValidIdent(pre[k]);
      assert AllIdentChars(texts[k]);
    }
    JoinExcludes(texts, '.', '+');
    SplitJoin(texts, '.');
    ParseIdentsOfStrings(pre);
  }

  lemma BuildTextParses(build: seq<string>)
    requires build != [] && forall k :: 0 <= k < |build| ==> ValidBuild(build[k])
    ensures BuildText(build).Some?
    ensures ParseBuild(Split(BuildText(build).value, '.')) == Success(build)
  {
    forall k | 0 <= k < |build| ensures '.' !in build[k] {
      assert ValidBuild(build[k]);
    }
    SplitJoin(build, '.');
  }

  /** `Parse` of a text whose first two dots follow `ma` and `mi`. */
  lemma ParseAtDots(s: string, ma: string, mi: string, t: string)
    requires s != [] && IndexOf(s, '.') == |ma| < |s| && s[..|ma|] == ma
    requires IndexOf(s[|ma| + 1..], '.') == |mi| < |s[|ma| + 1..]|
    requires s[|ma| + 1..][..|mi|] == mi && s[|ma| + 1..][|mi| + 1..] == t
    ensures Parse(s) == ParseComponents(ma, mi, t)
  {
  }

  /** `ParseComponents` read off the facts about each piece. */
  lemma ComponentsOfPieces(ma: string, mi: string, t: string, v: Version)
    requires ParseNumber(ma) == Success(v.major) && ParseNumber(mi) == Success(v.minor)
    requires ParseNumber(SplitTail(t).patch) == Success(v.patch)
    requires SplitTail(t).pre.None? ==> v.pre == []
    requires SplitTail(t).pre.Some? ==> ParseIdents(Split(SplitTail(t).pre.value, '.')) == Success(v.pre)
    requires SplitTail(t).build.None? ==> v.build == []
    requires SplitTail(t).build.Some? ==> ParseBuild(Split(SplitTail(t).build.value, '.')) == Success(v.build)
    ensures ParseComponents(ma, mi, t) == Success(v)
  {
  }

  /** The printed patch, pre-release and build read back as the version's own. */
  lemma TailParses(v: Version)
    requires WellFormed(v)
    ensures var x := SplitTail(JoinTail(Tail(NatToString(v.patch), PreText(v.pre), BuildText(v.build))));
      && ParseNumber(x.patch) == Success(v.patch)
      && (x.pre.None? ==> v.pre == [])
      && (x.pre.Some? ==> ParseIdents(Split(x.pre.value, '.')) == Success(v.pre))
      && (x.build.None? ==> v.build == [])
      && (x.build.Some? ==> ParseBuild(Split(x.build.value, '.')) == Success(v.build))
  {
    var tail := Tail(NatToString(v.patch), PreText(v.pre), BuildText(v.build));
    if v.pre != [] {
      PreTextParses(v.pre);
    }
    if v.build != [] {
      BuildTextParses(v.build);
    }
    SplitJoinTail(tail);
    assert ParseNumber(tail.patch) == Success(v.patch);
  }

  /** The printed major and minor are found at the first two dots and read back as the version's own. */
  lemma CoreParses(v: Version, ma: string, mi: string, t: string)
    requires WellFormed(v) && ma == NatToString(v.major) && mi == NatToString(v.minor)
    ensures var s := ma + "." + mi + "." + t;
      && IndexOf(s, '.') == |ma| && s[..|ma|] == ma
      && IndexOf(s[|ma| + 1..], '.') == |mi| < |s[|ma| + 1..]|
      && s[|ma| + 1..][..|mi|] == mi && s[|ma| + 1..][|mi| + 1..] == t
      && ParseNumber(ma) == Success(v.major) && ParseNumber(mi) == Success(v.minor)
  {
    var rest := mi + ['.'] + t;
    assert ma + "." + mi + "." + t == ma + ['.'] + rest;
    CutAtFirst(ma, '.', rest);
    CutAtFirst(mi, '.', t);
  }

  /** A printed well-formed version parses back to itself. */
  lemma FormatParse(v: Version)
    requires WellFormed(v)
    ensures Parse(Format(v)) == Success(v)
  {
    var ma := NatToString(v.major);
    var mi := NatToString(v.minor);
    var t := JoinTail(Tail(NatToString(v.patch), PreText(v.pre), BuildText(v.build)));
    CoreParses(v, ma, mi, t);
    TailParses(v);
    ParseAtDots(Format(v), ma, mi, t);
    ComponentsOfPieces(ma, mi, t, v);
  }

  /** The printed text of a release version: the three numbers and the dots. */
  lemma FormatRelease(v: Version)
    requires v.pre == [] && v.build == []
    ensures Format(v) == NatToString(v.major) + "." + NatToString(v.minor) + "." + NatToString(v.patch)
  {
  }

  /** The printed text of a pre-release version without build metadata. */
  lemma FormatPrerelease(v: Version)
    requires v.pre != [] && v.build == []
    ensures Format(v) == NatToString(v.major) + "." + NatToString(v.minor) + "." + NatToString(v.patch)
                         + "-" + Join(IdentStrings(v.pre), ".")
  {
  }

  /** The printed text of a release version with build metadata. */
  lemma FormatBuild(v: Version)
    requires v.pre == [] && v.build != []
    ensures Format(v) == NatToString(v.major) + "." + NatToString(v.minor) + "." + NatToString(v.patch)
                         + "+" + Join(v.build, ".")
  {
  }

  lemma IdentStringEnds(id: Ident)
    requires ValidIdent(id)
    ensures var t := IdentString(id); t != [] && IsIdentChar(t[|t| - 1])
  {
  }

  predicate EndsWithIdentChar(t: string) {
    t != [] && IsIdentChar(t[|t| - 1])
  }

  lemma JoinTailEnds(x: Tail)
    requires EndsWithIdentChar(x.patch)
    requires x.pre.Some? ==> EndsWithIdentChar(x.pre.value)
    requires x.build.Some? ==> EndsWithIdentChar(x.build.value)
    ensures EndsWithIdentChar(JoinTail(x))
  {
    var pre := if x.pre.Some? then "-" + x.pre.value else "";
    var build := if x.build.Some? then "+" + x.build.value else "";
    assert JoinTail(x) == x.patch + pre + build;
  }

  lemma PreTextEnds(pre: seq<Ident>)
    requires pre != [] && forall i :: 0 <= i < |pre| ==> ValidIdent(pre[i])
    ensures EndsWithIdentChar(PreText(pre).value)
  {
    IdentStringEnds(pre[|pre| - 1]);
    JoinLast(IdentStrings(pre), ".");
  }

  lemma BuildTextEnds(build: seq<string>)
    requires build != [] && forall i :: 0 <= i < |build| ==> ValidBuild(build[i])
    ensures EndsWithIdentChar(BuildText(build).value)
  {
    assert ValidBuild(build[|build| - 1]);
    JoinLast(build, ".");
  }

  /** A printed version starts with a digit and ends with an identifier character. */
  lemma FormatEnds(v: Version)
    requires WellFormed(v)
    ensures var s := Format(v); s != [] && IsDigit(s[0]) && EndsWithIdentChar(s)
  {
    if v.pre != [] {
      PreTextEnds(v.pre);
    }
    if v.build != [] {
      BuildTextEnds(v.build);
    }
    var tail := Tail(NatToString(v.patch), PreText(v.pre), BuildText(v.build));
    JoinTailEnds(tail);
    DottedEnds(NatToString(v.major), NatToString(v.minor), JoinTail(tail));
  }

  lemma DottedEnds(ma: string, mi: string, t: string)
    requires ma != [] && IsDigit(ma[0]) && EndsWithIdentChar(t)
    ensures var s := ma + "." + mi + "." + t; s != [] && IsDigit(s[0]) && EndsWithIdentChar(s)
  {
    var s := ma + "." + mi + "." + t;
    assert s[0] == ma[0];
    assert s[|s| - 1] == t[|t| - 1];
  }

  // ---------------------------------------------------------------------------
  // Precedence
  // ---------------------------------------------------------------------------

  predicate IsSign(c: int) {
    c == -1 || c == 0 || c == 1
  }

  function CompareNat(a: nat, b: nat): (c: int)
    ensures c == 0 <==> a == b
    ensures c == -1 <==> a < b
    ensures c == 1 <==> a > b
  {
    if a > b then 1 else if a < b then -1 else 0
  }

  /** Go's `<`/`>` on strings: lexicographic by character code. */
  function CompareString(a: string, b: string): (c: int)
    ensures IsSign(c)
    ensures c == 0 <==> a == b
  {
    if a == [] && b == [] then 0
    else if a == [] then -1
    else if b == [] then 1
    else if a[0] < b[0] then -1
    else if a[0] > b[0] then 1
    else
      var c := CompareString(a[1..], b[1..]);
      assert c == 0 ==> a == [a[0]] + a[1..] && b == [b[0]] + b[1..];
      c
  }

  /** Section 11.4.1-3: numbers compare numerically and rank below words; words compare lexically. */
  function CompareIdent(a: Ident, b: Ident): (c: int)
    ensures IsSign(c)
    ensures c == 0 <==> a == b
  {
    match (a, b)
    case (Num(x), Num(y)) => CompareNat(x, y)
    case (Num(_), Alpha(_)) => -1
    case (Alpha(_), Num(_)) => 1
    case (Alpha(x), Alpha(y)) => CompareString(x, y)
  }

  /** Section 11.4: identifier by identifier; when one list runs out first it ranks lower. */
  function ComparePre(a: seq<Ident>, b: seq<Ident>): (c: int)
    ensures IsSign(c)
    ensures c == 0 <==> a == b
  {
    if a == [] && b == [] then 0
    else if a == [] then -1
    else if b == [] then 1
    else
      var c := CompareIdent(a[0], b[0]);
      if c != 0 then c
      else
        var d := ComparePre(a[1..], b[1..]);
        assert d == 0 ==> a == [a[0]] + a[1..] && b == [b[0]] + b[1..];
        d
  }

  /** Two versions of equal precedence: build metadata does not count (section 10). */
  predicate SamePrecedence(v: Version, w: Version) {
    v.major == w.major && v.minor == w.minor && v.patch == w.patch && v.pre == w.pre
  }

  /**
   * The library's `Version.Compare` (section 11): major, minor and patch
   * numerically, then a version without pre-release ranks above one with,
   * then the pre-release lists.
   */
  function Compare(v: Version, w: Version): (c: int)
    ensures IsSign(c)
    ensures c == 0 <==> SamePrecedence(v, w)
    ensures v.major < w.major ==> c == -1
    ensures v.major == w.major && v.minor < w.minor ==> c == -1
    ensures v.major == w.major && v.minor == w.minor && v.patch < w.patch ==> c == -1
    ensures v.major == w.major && v.minor == w.minor && v.patch == w.patch && v.pre != [] && w.pre == [] ==> c == -1
  {
    if v.major != w.major then CompareNat(v.major, w.major)
    else if v.minor != w.minor then CompareNat(v.minor, w.minor)
    else if v.patch != w.patch then CompareNat(v.patch, w.patch)
    else if v.pre == [] && w.pre == [] then 0
    else if v.pre == [] then 1
    else if w.pre == [] then -1
    else ComparePre(v.pre, w.pre)
  }

  lemma {:induction false} CompareStringAntisymmetric(a: string, b: string)
    ensures CompareString(b, a) == -CompareString(a, b)
    decreases |a|
  {
    if a != [] && b != [] && a[0] == b[0] {
      CompareStringAntisymmetric(a[1..], b[1..]);
    }
  }

  lemma {:induction false} ComparePreAntisymmetric(a: seq<Ident>, b: seq<Ident>)
    ensures ComparePre(b, a) == -ComparePre(a, b)
    decreases |a|
  {
    if a != [] && b != [] {
      if a[0].Alpha? && b[0].Alpha? {
        CompareStringAntisymmetric(a[0].s, b[0].s);
      }
      if a[0] == b[0] {
        ComparePreAntisymmetric(a[1..], b[1..]);
      }
    }
  }

  /** Swapping the arguments negates the result. */
  lemma CompareAntisymmetric(v: Version, w: Version)
    ensures Compare(w, v) == -Compare(v, w)
  {
    ComparePreAntisymmetric(v.pre, w.pre);
  }

  lemma {:induction false} CompareStringTransitive(a: string, b: string, c: string)
    requires CompareString(a, b) == -1 && CompareString(b, c) == -1
    ensures CompareString(a, c) == -1
    decreases |a|
  {
    if a != [] && b != [] && c != [] && a[0] == b[0] && b[0] == c[0] {
      CompareStringTransitive(a[1..], b[1..], c[1..]);
    }
  }

  lemma CompareIdentTransitive(a: Ident, b: Ident, c: Ident)
    requires CompareIdent(a, b) == -1 && CompareIdent(b, c) == -1
    ensures CompareIdent(a, c) == -1
  {
    if a.Alpha? && b.Alpha? && c.Alpha? {
      CompareStringTransitive(a.s, b.s, c.s);
    }
  }

  lemma {:induction false} ComparePreTransitive(a: seq<Ident>, b: seq<Ident>, c: seq<Ident>)
    requires ComparePre(a, b) == -1 && ComparePre(b, c) == -1
    ensures ComparePre(a, c) == -1
    decreases |a|
  {
    if a != [] && b != [] && c != [] {
      if a[0] == b[0] && b[0] == c[0] {
        ComparePreTransitive(a[1..], b[1..], c[1..]);
      } else if a[0] != b[0] && b[0] != c[0] {
        CompareIdentTransitive(a[0], b[0], c[0]);
      }
    }
  }

  /** Precedence is transitive. */
  lemma CompareTransitive(u: Version, v: Version, w: Version)
    requires Compare(u, v) == -1 && Compare(v, w) == -1
    ensures Compare(u, w) == -1
  {
    if u.major == v.major == w.major && u.minor == v.minor == w.minor && u.patch == v.patch == w.patch
       && u.pre != [] && v.pre != [] && w.pre != [] {
      ComparePreTransitive(u.pre, v.pre, w.pre);
    }
  }

  /** Section 11.3: a pre-release ranks below the release it precedes. */
  lemma PrereleaseBelowRelease(v: Version)
    requires v.pre != []
    ensures Compare(v, v.(pre := [], build := [])) == -1
  {
  }

  /** Section 11.4.4: a longer list of identifiers ranks above its own prefix. */
  lemma {:induction false} LongerPrereleaseRanksHigher(a: seq<Ident>, more: seq<Ident>)
    requires more != []
    ensures ComparePre(a, a + more) == -1
  {
    if a != [] {
      assert (a + more)[1..] == a[1..] + more;
      LongerPrereleaseRanksHigher(a[1..], more);
    }
  }

  // ---------------------------------------------------------------------------
  // Precedence, stated directly (section 11)
  // ---------------------------------------------------------------------------

  /**
   * `a` comes before `b` in character order: either `a` is a proper prefix of
   * `b`, or at the first position where they differ `a` has the smaller character.
   */
  predicate LexBelow(a: string, b: string) {
    || (|a| < |b| && a == b[..|a|])
    || exists k :: 0 <= k < |a| && k < |b| && a[..k] == b[..k] && a[k] < b[k]
  }

  /** Section 11.4.1-3 for one pair of identifiers. */
  predicate IdentBelow(a: Ident, b: Ident) {
    || (a.Num? && b.Num? && a.n < b.n)
    || (a.Num? && b.Alpha?)
    || (a.Alpha? && b.Alpha? && LexBelow(a.s, b.s))
  }

  /**
   * Section 11.4: the first identifier that differs decides; a list that is a
   * proper prefix of the other ranks lower (section 11.4.4).
   */
  predicate PreBelow(a: seq<Ident>, b: seq<Ident>) {
    || (|a| < |b| && a == b[..|a|])
    || exists k :: 0 <= k < |a| && k < |b| && a[..k] == b[..k] && IdentBelow(a[k], b[k])
  }

  /** Section 11.2-11.4: `v` has lower precedence than `w`. */
  predicate Precedes(v: Version, w: Version) {
    || v.major < w.major
    || (v.major == w.major && v.minor < w.minor)
    || (v.major == w.major && v.minor == w.minor && v.patch < w.patch)
    || (&& v.major == w.major && v.minor == w.minor && v.patch == w.patch
        && v.pre != [] && (w.pre == [] || PreBelow(v.pre, w.pre)))
  }

  /** With equal first characters, the order is decided by the rest. */
  lemma LexBelowTail(a: string, b: string)
    requires a != [] && b != [] && a[0] == b[0]
    ensures LexBelow(a, b) <==> LexBelow(a[1..], b[1..])
  {
    if LexBelow(a, b) {
      LexBelowDrop(a, b);
    }
    if LexBelow(a[1..], b[1..]) {
      LexBelowCons(a, b);
    }
  }

  lemma LexBelowDrop(a: string, b: string)
    requires a != [] && b != [] && a[0] == b[0] && LexBelow(a, b)
    ensures LexBelow(a[1..], b[1..])
  {
    if !(|a| < |b| && a == b[..|a|]) {
      var k :| 0 <= k < |a| && k < |b| && a[..k] == b[..k] && a[k] < b[k];
      assert a[1..][..k - 1] == a[..k][1..] && b[1..][..k - 1] == b[..k][1..];
      assert a[1..][k - 1] == a[k] && b[1..][k - 1] == b[k];
    } else {
      assert a[1..] == b[1..][..|a[1..]|];
    }
  }

  lemma LexBelowCons(a: string, b: string)
    requires a != [] && b != [] && a[0] == b[0] && LexBelow(a[1..], b[1..])
    ensures LexBelow(a, b)
  {
    if |a[1..]| < |b[1..]| && a[1..] == b[1..][..|a[1..]|] {
      assert a == [a[0]] + a[1..] && b[..|a|] == [b[0]] + b[1..][..|a[1..]|];
    } else {
      var k :| 0 <= k < |a[1..]| && k < |b[1..]| && a[1..][..k] == b[1..][..k] && a[1..][k] < b[1..][k];
      assert a[..k + 1] == [a[0]] + a[1..][..k] && b[..k + 1] == [b[0]] + b[1..][..k];
      assert a[k + 1] < b[k + 1];
    }
  }


  /** With different first characters, the smaller one decides. */
  lemma LexBelowHead(a: string, b: string)
    requires a != [] && b != [] && a[0] != b[0]
    ensures LexBelow(a, b) <==> a[0] < b[0]
  {
    if a[0] < b[0] {
      assert a[..0] == b[..0];
    }
    assert |a| < |b| ==> b[..|a|][0] == b[0];
    forall k | 0 < k < |a| && k < |b|
      ensures a[..k] != b[..k]
    {
      assert a[..k][0] == a[0] && b[..k][0] == b[0];
    }
  }

  /** Character-by-character comparison ranks lower exactly in character order. */
  lemma {:induction false} CompareStringBelow(a: string, b: string)
    ensures CompareString(a, b) == -1 <==> LexBelow(a, b)
    decreases |a|
  {
    if a == [] && b != [] {
      assert a == b[..0];
    } else if a != [] && b != [] {
      if a[0] == b[0] {
        CompareStringBelow(a[1..], b[1..]);
        LexBelowTail(a, b);
      } else {
        LexBelowHead(a, b);
      }
    }
  }

  /** Identifier comparison ranks lower exactly as section 11.4 orders identifiers. */
  lemma CompareIdentBelow(a: Ident, b: Ident)
    ensures CompareIdent(a, b) == -1 <==> IdentBelow(a, b)
  {
    if a.Alpha? && b.Alpha? {
      CompareStringBelow(a.s, b.s);
    }
  }

  /** With equal first identifiers, the order is decided by the rest. */
  lemma PreBelowTail(a: seq<Ident>, b: seq<Ident>)
    requires a != [] && b != [] && a[0] == b[0]
    ensures PreBelow(a, b) <==> PreBelow(a[1..], b[1..])
  {
    if PreBelow(a, b) {
      PreBelowDrop(a, b);
    }
    if PreBelow(a[1..], b[1..]) {
      PreBelowCons(a, b);
    }
  }

  lemma PreBelowDrop(a: seq<Ident>, b: seq<Ident>)
    requires a != [] && b != [] && a[0] == b[0] && PreBelow(a, b)
    ensures PreBelow(a[1..], b[1..])
  {
    if !(|a| < |b| && a == b[..|a|]) {
      var k :| 0 <= k < |a| && k < |b| && a[..k] == b[..k] && IdentBelow(a[k], b[k]);
      CompareIdentBelow(a[0], b[0]);
      assert k != 0;
      assert a[1..][..k - 1] == a[..k][1..] && b[1..][..k - 1] == b[..k][1..];
      assert a[1..][k - 1] == a[k] && b[1..][k - 1] == b[k];
    } else {
      assert a[1..] == b[1..][..|a[1..]|];
    }
  }

  lemma PreBelowCons(a: seq<Ident>, b: seq<Ident>)
    requires a != [] && b != [] && a[0] == b[0] && PreBelow(a[1..], b[1..])
    ensures PreBelow(a, b)
  {
    if |a[1..]| < |b[1..]| && a[1..] == b[1..][..|a[1..]|] {
      assert a == [a[0]] + a[1..] && b[..|a|] == [b[0]] + b[1..][..|a[1..]|];
    } else {
      var k :| 0 <= k < |a[1..]| && k < |b[1..]| && a[1..][..k] == b[1..][..k] && IdentBelow(a[1..][k], b[1..][k]);
      assert a[..k + 1] == [a[0]] + a[1..][..k] && b[..k + 1] == [b[0]] + b[1..][..k];
      assert IdentBelow(a[k + 1], b[k + 1]);
    }
  }


  /** With different first identifiers, their order decides. */
  lemma PreBelowHead(a: seq<Ident>, b: seq<Ident>)
    requires a != [] && b != [] && a[0] != b[0]
    ensures PreBelow(a, b) <==> IdentBelow(a[0], b[0])
  {
    if IdentBelow(a[0], b[0]) {
      assert a[..0] == b[..0];
    }
    assert |a| < |b| ==> b[..|a|][0] == b[0];
    forall k | 0 < k < |a| && k < |b|
      ensures a[..k] != b[..k]
    {
      assert a[..k][0] == a[0] && b[..k][0] == b[0];
    }
  }

  /** Identifier-by-identifier comparison ranks lower exactly as section 11.4 orders the lists. */
  lemma {:induction false} ComparePreBelow(a: seq<Ident>, b: seq<Ident>)
    ensures ComparePre(a, b) == -1 <==> PreBelow(a, b)
    decreases |a|
  {
    if a == [] && b != [] {
      assert a == b[..0];
    } else if a != [] && b != [] {
      if a[0] == b[0] {
        ComparePreBelow(a[1..], b[1..]);
        PreBelowTail(a, b);
      } else {
        CompareIdentBelow(a[0], b[0]);
        PreBelowHead(a, b);
      }
    }
  }

  /** `Compare` says "lower" exactly when section 11 ranks `v` below `w`, and "higher" exactly when it ranks `w` below `v`. */
  lemma CompareMatchesPrecedence(v: Version, w: Version)
    ensures Compare(v, w) == -1 <==> Precedes(v, w)
    ensures Compare(v, w) == 1 <==> Precedes(w, v)
  {
    ComparePreBelow(v.pre, w.pre);
    ComparePreBelow(w.pre, v.pre);
    CompareAntisymmetric(v, w);
  }
}

=== FILE: strings.dfy ===
/**
 * The parts of Go's `strings` and `unicode` packages the model relies on, on
 * strings seen as sequences of characters: white space, ASCII case mapping,
 * trimming, searching, splitting, joining and `strings.Fields`.
 */
module Strings {
  import opened Wrappers

  // ---------------------------------------------------------------------------
  // Characters
  // ---------------------------------------------------------------------------

  /** The Unicode White_Space property, which is what Go's `unicode.IsSpace` tests. */
  predicate IsSpace(c: char) {
    var n := c as int;
    (9 <= n <= 13) || n == 32 || n == 0x85 || n == 0xA0 || n == 0x1680
    || (0x2000 <= n <= 0x200A) || n == 0x2028 || n == 0x2029 || n == 0x202F
    || n == 0x205F || n == 0x3000
  }

  predicate IsAsciiUpper(c: char) { 'A' <= c <= 'Z' }

  predicate IsAsciiLower(c: char) { 'a' <= c <= 'z' }

  predicate IsDigit(c: char) { '0' <= c <= '9' }

  predicate IsAsciiLetterOrDigit(c: char) {
    IsAsciiUpper(c) || IsAsciiLower(c) || IsDigit(c)
  }

  function LowerChar(c: char): (r: char)
    ensures IsAsciiUpper(c) ==> IsAsciiLower(r) && r as int == c as int + 32
    ensures !IsAsciiUpper(c) ==> r == c
  {
    if IsAsciiUpper(c) then (c as int + 32) as char else c
  }

  function UpperChar(c: char): (r: char)
    ensures IsAsciiLower(c) ==> IsAsciiUpper(r) && r as int == c as int - 32
    ensures !IsAsciiLower(c) ==> r == c
  {
    if IsAsciiLower(c) then (c as int - 32) as char else c
  }

  /** ASCII lower-casing, character by character. */
  function Lower(s: string): (r: string)
    ensures |r| == |s|
    ensures forall i :: 0 <= i < |s| ==> r[i] == LowerChar(s[i])
  {
    seq(|s|, i requires 0 <= i < |s| => LowerChar(s[i]))
  }

  /** ASCII upper-casing, character by character. */
  function Upper(s: string): (r: string)
    ensures |r| == |s|
    ensures forall i :: 0 <= i < |s| ==> r[i] == UpperChar(s[i])
  {
    seq(|s|, i requires 0 <= i < |s| => UpperChar(s[i]))
  }

  /** Lower-casing forgets any earlier ASCII case change. */
  lemma LowerOfUpper(s: string)
    ensures Lower(Upper(s)) == Lower(s)
  {
    assert forall i :: 0 <= i < |s| ==> Lower(Upper(s))[i] == Lower(s)[i];
  }

  // ---------------------------------------------------------------------------
  // Trimming
  // ---------------------------------------------------------------------------

  /** `s` with its leading white space removed. */
  function TrimLeft(s: string): (r: string)
    ensures |r| <= |s| && r == s[|s| - |r|..]
    ensures r == [] || !IsSpace(r[0])
    ensures forall i :: 0 <= i < |s| - |r| ==> IsSpace(s[i])
  {
    if s != [] && IsSpace(s[0]) then TrimLeft(s[1..]) else s
  }

  /** `s` with its trailing white space removed. */
  function TrimRight(s: string): (r: string)
    ensures |r| <= |s| && r == s[..|r|]
    ensures r == [] || !IsSpace(r[|r| - 1])
    ensures forall i :: |r| <= i < |s| ==> IsSpace(s[i])
  {
    if s != [] && IsSpace(s[|s| - 1]) then TrimRight(s[..|s| - 1]) else s
  }

  /** Go's `strings.TrimSpace`. */
  function TrimSpace(s: string): (r: string)
    ensures r == [] || (!IsSpace(r[0]) && !IsSpace(r[|r| - 1]))
  {
    TrimRight(TrimLeft(s))
  }

  predicate AllSpace(s: string) {
    forall i :: 0 <= i < |s| ==> IsSpace(s[i])
  }

  lemma {:induction false} TrimLeftAround(lead: string, x: string)
    requires AllSpace(lead)
    requires x == [] || !IsSpace(x[0])
    ensures TrimLeft(lead + x) == x
  {
    if lead != [] {
      assert (lead + x)[1..] == lead[1..] + x;
      TrimLeftAround(lead[1..], x);
    } else {
      assert lead + x == x;
    }
  }

  lemma {:induction false} TrimRightAround(x: string, trail: string)
    requires AllSpace(trail)
    requires x == [] || !IsSpace(x[|x| - 1])
    ensures TrimRight(x + trail) == x
  {
    if trail != [] {
      var t := trail[..|trail| - 1];
      assert (x + trail)[..|x + trail| - 1] == x + t;
      TrimRightAround(x, t);
    } else {
      assert x + trail == x;
    }
  }

  /** White space around a text that neither starts nor ends with white space is exactly what is trimmed. */
  lemma TrimSpaceAround(lead: string, x: string, trail: string)
    requires AllSpace(lead) && AllSpace(trail)
    requires x != [] && !IsSpace(x[0]) && !IsSpace(x[|x| - 1])
    ensures TrimSpace(lead + x + trail) == x
  {
    assert lead + x + trail == lead + (x + trail);
    TrimLeftAround(lead, x + trail);
    TrimRightAround(x, trail);
  }

  lemma TrimSpaceOfTrimmed(x: string)
    requires x != [] && !IsSpace(x[0]) && !IsSpace(x[|x| - 1])
    ensures TrimSpace(x) == x
  {
    TrimSpaceAround("", x, "");
    assert "" + x + "" == x;
  }

  /** Go's `strings.TrimPrefix`: removes `prefix` once, when `s` starts with it. */
  function TrimPrefix(s: string, prefix: string): (r: string)
    ensures prefix <= s ==> prefix + r == s
    ensures !(prefix <= s) ==> r == s
  {
    if prefix <= s then s[|prefix|..] else s
  }

  // ---------------------------------------------------------------------------
  // Searching
  // ---------------------------------------------------------------------------

  /** The index of the first `c` in `s`, or `|s|` when there is none. */
  function IndexOf(s: string, c: char): (i: nat)
    ensures i <= |s|
    ensures i < |s| ==> s[i] == c
    ensures c !in s[..i]
  {
    if s == [] then 0
    else if s[0] == c then 0
    else 1 + IndexOf(s[1..], c)
  }

  predicate OccursAt(s: string, pattern: string, i: nat) {
    i + |pattern| <= |s| && s[i..i + |pattern|] == pattern
  }

  /** The first position at or after `from` where `pattern` occurs in `s`. */
  function FindFrom(s: string, pattern: string, from: nat): (r: Option<nat>)
    requires from <= |s|
    ensures r.Some? ==> from <= r.value && OccursAt(s, pattern, r.value)
    ensures r.Some? ==> forall j :: from <= j < r.value ==> !OccursAt(s, pattern, j)
    ensures r.None? ==> forall j :: from <= j ==> !OccursAt(s, pattern, j)
    decreases |s| - from
  {
    if OccursAt(s, pattern, from) then Some(from)
    else if from == |s| then None
    else FindFrom(s, pattern, from + 1)
  }

  /** Go's `strings.Index`, with `None` for -1. */
  function Find(s: string, pattern: string): (r: Option<nat>)
    ensures r.Some? ==> OccursAt(s, pattern, r.value)
    ensures r.Some? ==> forall j :: 0 <= j < r.value ==> !OccursAt(s, pattern, j)
    ensures r.None? ==> forall j :: 0 <= j ==> !OccursAt(s, pattern, j)
  {
    FindFrom(s, pattern, 0)
  }

  /** Go's `strings.Contains`. */
  predicate Contains(s: string, pattern: string) {
    Find(s, pattern).Some?
  }

  // ---------------------------------------------------------------------------
  // Joining and splitting
  // ---------------------------------------------------------------------------

  /** Go's `strings.Join`. */
  function Join(parts: seq<string>, sep: string): string
  {
    if |parts| == 0 then ""
    else if |parts| == 1 then parts[0]
    else parts[0] + sep + Join(parts[1..], sep)
  }

  /** Go's `strings.Split` around a one-character separator. */
  function Split(s: string, c: char): (parts: seq<string>)
    ensures |parts| > 0
    ensures forall i :: 0 <= i < |parts| ==> c !in parts[i]
    decreases |s|
  {
    var i := IndexOf(s, c);
    if i == |s| then [s] else [s[..i]] + Split(s[i + 1..], c)
  }

  /** Joining the pieces of a split gives back the original text. */
  lemma {:induction false} JoinSplit(s: string, c: char)
    ensures Join(Split(s, c), [c]) == s
    decreases |s|
  {
    var i := IndexOf(s, c);
    if i < |s| {
      var rest := Split(s[i + 1..], c);
      JoinSplit(s[i + 1..], c);
      assert Split(s, c) == [s[..i]] + rest;
      assert Join(Split(s, c), [c]) == s[..i] + [c] + Join(rest, [c]);
      assert s == s[..i] + [c] + s[i + 1..];
    }
  }

  /** Splitting a join gives back the pieces, when no piece holds the separator. */
  lemma {:induction false} SplitJoin(parts: seq<string>, c: char)
    requires |parts| > 0
    requires forall i :: 0 <= i < |parts| ==> c !in parts[i]
    ensures Split(Join(parts, [c]), c) == parts
  {
    if |parts| == 1 {
      IndexOfAbsent(parts[0], c);
    } else {
      var tail := Join(parts[1..], [c]);
      assert Join(parts, [c]) == parts[0] + [c] + tail;
      IndexOfFirst(parts[0], c, tail);
      assert (parts[0] + [c] + tail)[..|parts[0]|] == parts[0];
      assert (parts[0] + [c] + tail)[|parts[0]| + 1..] == tail;
      SplitJoin(parts[1..], c);
    }
  }

  /** A character that is neither in any piece nor the separator is not in the join. */
  lemma {:induction false} JoinExcludes(parts: seq<string>, sep: char, c: char)
    requires c != sep
    requires forall i :: 0 <= i < |parts| ==> c !in parts[i]
    ensures c !in Join(parts, [sep])
  {
    if |parts| > 1 {
      JoinExcludes(parts[1..], sep, c);
      assert Join(parts, [sep]) == parts[0] + [sep] + Join(parts[1..], [sep]);
    }
  }

  /** The join ends with the last character of the last piece, when that piece is not empty. */
  lemma {:induction false} JoinLast(parts: seq<string>, sep: string)
    requires |parts| > 0 && parts[|parts| - 1] != []
    ensures var j := Join(parts, sep); var w := parts[|parts| - 1]; j != [] && j[|j| - 1] == w[|w| - 1]
  {
    if |parts| > 1 {
      JoinLast(parts[1..], sep);
      assert parts[1..][|parts[1..]| - 1] == parts[|parts| - 1];
    }
  }

  lemma IndexOfAbsent(s: string, c: char)
    requires c !in s
    ensures IndexOf(s, c) == |s|
  {
  }

  /** The first `c` of `a + [c] + b` is the one right after `a`, when `a` has none. */
  lemma IndexOfFirst(a: string, c: char, b: string)
    requires c !in a
    ensures IndexOf(a + [c] + b, c) == |a|
  {
    var s := a + [c] + b;
    assert s[|a|] == c;
    assert s[..|a|] == a;
  }

  // ---------------------------------------------------------------------------
  // Fields
  // ---------------------------------------------------------------------------

  /** A non-empty run of non-space characters: what `strings.Fields` returns. */
  predicate IsWord(w: string) {
    |w| > 0 && forall i :: 0 <= i < |w| ==> !IsSpace(w[i])
  }

  function TakeWord(s: string): (w: string)
    ensures |w| <= |s| && w == s[..|w|]
    ensures forall i :: 0 <= i < |w| ==> !IsSpace(w[i])
    ensures |w| == |s| || IsSpace(s[|w|])
  {
    if s != [] && !IsSpace(s[0]) then [s[0]] + TakeWord(s[1..]) else []
  }

  /** Go's `strings.Fields`: the maximal runs of non-space characters, in order. */
  function Fields(s: string): (words: seq<string>)
    ensures forall i :: 0 <= i < |words| ==> IsWord(words[i])
    decreases |s|
  {
    var t := TrimLeft(s);
    if t == [] then []
    else
      var w := TakeWord(t);
      assert w[0] == t[0];
      var rest := Fields(t[|w|..]);
      PrependWord(w, rest);
      [w] + rest
  }

  lemma PrependWord(w: string, words: seq<string>)
    requires IsWord(w)
    requires forall i :: 0 <= i < |words| ==> IsWord(words[i])
    ensures forall i :: 0 <= i < |[w] + words| ==> IsWord(([w] + words)[i])
  {
  }

  lemma TakeWordOfWord(w: string, rest: string)
    requires IsWord(w)
    requires rest == [] || IsSpace(rest[0])
    ensures TakeWord(w + rest) == w
  {
    if |w| > 1 {
      assert (w + rest)[1..] == w[1..] + rest;
      TakeWordOfWord(w[1..], rest);
    } else {
      assert (w + rest)[1..] == rest;
    }
  }

  lemma FieldsSkipsSpace(c: char, s: string)
    requires IsSpace(c)
    ensures Fields([c] + s) == Fields(s)
  {
    TrimLeftSkipsSpace(c, s);
    FieldsOfSameTrim([c] + s, s);
  }

  lemma TrimLeftSkipsSpace(c: char, s: string)
    requires IsSpace(c)
    ensures TrimLeft([c] + s) == TrimLeft(s)
  {
    assert ([c] + s)[1..] == s;
  }

  /** The fields of a text depend only on what is left after its leading white space. */
  lemma FieldsOfSameTrim(x: string, y: string)
    requires TrimLeft(x) == TrimLeft(y)
    ensures Fields(x) == Fields(y)
  {
  }

  /** A word followed by nothing or by white space is the first field. */
  lemma FieldsOfWordThen(w: string, rest: string)
    requires IsWord(w)
    requires rest == [] || IsSpace(rest[0])
    ensures Fields(w + rest) == [w] + Fields(rest)
  {
    var s := w + rest;
    assert s[0] == w[0];
    assert TrimLeft(s) == s;
    TakeWordOfWord(w, rest);
    assert s[|w|..] == rest;
  }

  /** A word, a space and any text: the word is the first field and the text gives the rest. */
  lemma FieldsOfWordSpace(w: string, t: string)
    requires IsWord(w)
    ensures Fields(w + " " + t) == [w] + Fields(t)
  {
    assert w + " " + t == w + (" " + t);
    FieldsOfWordThen(w, " " + t);
    assert " " + t == [' '] + t;
    FieldsSkipsSpace(' ', t);
  }

  /** A single word is its own only field. */
  lemma FieldsOfWord(w: string)
    requires IsWord(w)
    ensures Fields(w) == [w]
  {
    assert w + "" == w;
    FieldsOfWordThen(w, "");
  }

  /** Words joined by single spaces split back into the same words. */
  lemma {:induction false} FieldsOfJoin(words: seq<string>)
    requires forall i :: 0 <= i < |words| ==> IsWord(words[i])
    ensures Fields(Join(words, " ")) == words
  {
    if |words| == 1 {
      FieldsOfWord(words[0]);
    } else if |words| > 1 {
      var tail := words[1..];
      FieldsOfJoin(tail);
      FieldsOfWordSpace(words[0], Join(tail, " "));
      assert words == [words[0]] + tail;
    }
  }

  /** A join of words by single spaces has no space at either end and no two spaces in a row. */
  lemma {:induction false} JoinOfWordsIsTidy(words: seq<string>)
    requires forall i :: 0 <= i < |words| ==> IsWord(words[i])
    ensures var s := Join(words, " ");
      && (s == [] <==> words == [])
      && (s != [] ==> !IsSpace(s[0]) && !IsSpace(s[|s| - 1]))
      && (forall i :: 0 <= i < |s| - 1 ==> !(IsSpace(s[i]) && IsSpace(s[i + 1])))
  {
    if |words| > 1 {
      var w := words[0];
      var t := Join(words[1..], " ");
      JoinOfWordsIsTidy(words[1..]);
      var s := w + " " + t;
      assert Join(words, " ") == s;
      forall i | 0 <= i < |s| - 1
        ensures !(IsSpace(s[i]) && IsSpace(s[i + 1]))
      {
        if i + 1 < |w| {
          assert s[i] == w[i];
        } else if i + 1 == |w| {
          assert s[i] == w[i];
        } else if i == |w| {
          assert s[i + 1] == t[0];
        } else {
          assert s[i] == t[i - |w| - 1] && s[i + 1] == t[i - |w|];
        }
      }
    }
  }
}

=== FILE: template_funcs.dfy ===
/**
 * The two helper functions the invoice templates can call: `sub`, a
 * subtraction on Go's 64-bit `int`, and `iterate`, which lists 0 .. n-1.
 */
module TemplateFuncs {
  import opened Wrappers

  const Int64Min: int := -0x8000_0000_0000_0000
  const Int64Max: int := 0x7FFF_FFFF_FFFF_FFFF
  const Int64Modulus: int := 0x1_0000_0000_0000_0000

  predicate IsInt64(x: int) {
    Int64Min <= x <= Int64Max
  }

  /** The 64-bit two's-complement value congruent to `x`. */
  function Wrap64(x: int): (r: int)
    ensures IsInt64(r)
    ensures (r - x) % Int64Modulus == 0
    ensures IsInt64(x) ==> r == x
  {
    var m := (x - Int64Min) % Int64Modulus;
    m + Int64Min
  }

  /** `sub`: the difference, wrapping round like Go's `int` when it leaves the 64-bit range. */
  function Sub(a: int, b: int): (r: int)
    requires IsInt64(a) && IsInt64(b)
    ensures IsInt64(r)
    ensures IsInt64(a - b) ==> r == a - b
    ensures (r - (a - b)) % Int64Modulus == 0
  {
    Wrap64(a - b)
  }

  /** Adding back what `sub` took away, with the same wrap-around, gives the first argument. */
  lemma SubThenAdd(a: int, b: int)
    requires IsInt64(a) && IsInt64(b)
    ensures Wrap64(Sub(a, b) + b) == a
  {
    var d := Sub(a, b);
    var k := (d - (a - b)) / Int64Modulus;
    assert d - (a - b) == k * Int64Modulus;
    WrapShift(a, k);
    assert d + b == a + k * Int64Modulus;
  }

  lemma WrapShift(x: int, k: int)
    requires IsInt64(x)
    ensures Wrap64(x + k * Int64Modulus) == x
  {
    var y := x + k * Int64Modulus;
    assert (y - Int64Min) == (x - Int64Min) + k * Int64Modulus;
    ModShift(x - Int64Min, k);
  }

  lemma ModShift(v: int, k: int)
    requires 0 <= v < Int64Modulus
    ensures (v + k * Int64Modulus) % Int64Modulus == v
  {
  }

  /** `make([]int, n)` panics on a negative length, which the template engine reports as an error. */
  datatype IterateError = NegativeLength(n: int)

  /** 0, 1, …, n-1, defined by counting up. */
  function Range(n: nat): (r: seq<int>)
    ensures |r| == n
  {
    if n == 0 then [] else Range(n - 1) + [n - 1]
  }

  /**
   * `iterate`: a zeroed list of length n, then element i set to i. A
   * negative n is the panic of `make`.
   */
  method Iterate(n: int) returns (r: Result<seq<int>, IterateError>)
    ensures r.Failure? <==> n < 0
    ensures r.Failure? ==> r.error == NegativeLength(n)
    ensures r.Success? ==> |r.value| == n && forall i :: 0 <= i < n ==> r.value[i] == i
  {
    if n < 0 {
      return Failure(NegativeLength(n));
    }
    var result := seq(n, _ => 0);
    for i := 0 to n
      invariant |result| == n
      invariant forall j :: 0 <= j < i ==> result[j] == j
    {
      result := result[i := i];
    }
    return Success(result);
  }

  /** What `iterate` lists is the counting-up sequence. */
  lemma {:induction false} RangeElements(n: nat)
    ensures forall i :: 0 <= i < n ==> Range(n)[i] == i
  {
    if n > 0 {
      RangeElements(n - 1);
      assert forall i :: 0 <= i < n - 1 ==> Range(n)[i] == Range(n - 1)[i];
    }
  }

  method IterateIsRange(n: nat) returns (r: Result<seq<int>, IterateError>)
    ensures r == Success(Range(n))
  {
    r := Iterate(n);
    RangeElements(n);
    assert r.value == Range(n);
  }
}

=== FILE: version.dfy ===
/**
 * The version helpers of the update package: `ParseVersion` tolerates
 * surrounding white space and one leading "v"; `CompareVersions` and
 * `IsUpdateAvailable` report a parse failure of either argument as an error.
 */
module UpdateVersion {
  import opened Wrappers
  import opened Strings
  import opened SemVer

  /** `ParseVersion`: what it accepts is a printed version, possibly after a "v", up to white space. */
  function ParseVersion(text: string): (r: Result<Version, ParseError>)
    ensures r.Success? ==> WellFormed(r.value)
    ensures r.Success? ==> var t := TrimSpace(text); t == Format(r.value) || t == "v" + Format(r.value)
  {
    Parse(TrimPrefix(TrimSpace(text), "v"))
  }

  /** White space around the text does not matter. */
  lemma ParseVersionIgnoresSpace(lead: string, x: string, trail: string)
    requires AllSpace(lead) && AllSpace(trail)
    requires x != [] && !IsSpace(x[0]) && !IsSpace(x[|x| - 1])
    ensures ParseVersion(lead + x + trail) == Parse(TrimPrefix(x, "v"))
  {
    TrimSpaceAround(lead, x, trail);
  }

  /** A printed version is accepted. */
  lemma ParseVersionAcceptsPrinted(v: Version)
    requires WellFormed(v)
    ensures ParseVersion(Format(v)) == Success(v)
  {
    var f := Format(v);
    FormatEnds(v);
    assert !("v" <= f) by { assert f[0] != 'v'; }
    TrimSpaceOfTrimmed(f);
    FormatParse(v);
  }

  /** A printed version after one "v", as in a release tag, is accepted. */
  lemma ParseVersionAcceptsTagged(v: Version)
    requires WellFormed(v)
    ensures ParseVersion("v" + Format(v)) == Success(v)
  {
    var f := Format(v);
    var x := "v" + f;
    FormatEnds(v);
    assert x[|x| - 1] == f[|f| - 1];
    TrimSpaceOfTrimmed(x);
    assert TrimPrefix(x, "v") == f;
    FormatParse(v);
  }

  /**
   * `CompareVersions`, with Go's `(int, error)` as a pair: the precedence of
   * the two versions, or 0 and the error of the first argument that fails
   * to parse.
   */
  function CompareVersions(v1: string, v2: string): (r: (int, Option<ParseError>))
    ensures IsSign(r.0)
    ensures r.1.Some? ==> r.0 == 0
    ensures r.1.None? <==> ParseVersion(v1).Success? && ParseVersion(v2).Success?
    ensures ParseVersion(v1).Failure? ==> r.1 == Some(ParseVersion(v1).error)
    ensures ParseVersion(v1).Success? && ParseVersion(v2).Failure? ==> r.1 == Some(ParseVersion(v2).error)
    ensures r.1.None? ==> r.0 == Compare(ParseVersion(v1).value, ParseVersion(v2).value)
    ensures r.1.None? ==> (r.0 == 0 <==> SamePrecedence(ParseVersion(v1).value, ParseVersion(v2).value))
    ensures r.1.None? ==> (r.0 == -1 <==> Precedes(ParseVersion(v1).value, ParseVersion(v2).value))
    ensures r.1.None? ==> (r.0 == 1 <==> Precedes(ParseVersion(v2).value, ParseVersion(v1).value))
  {
    match ParseVersion(v1)
    case Failure(e) => (0, Some(e))
    case Success(ver1) =>
      match ParseVersion(v2)
      case Failure(e) => (0, Some(e))
      case Success(ver2) =>
        CompareMatchesPrecedence(ver1, ver2);
        (Compare(ver1, ver2), None)
  }

  /** Swapping the arguments negates the result, whether or not they parse. */
  lemma CompareVersionsAntisymmetric(v1: string, v2: string)
    ensures CompareVersions(v2, v1).0 == -CompareVersions(v1, v2).0
  {
    if ParseVersion(v1).Success? && ParseVersion(v2).Success? {
      CompareAntisymmetric(ParseVersion(v1).value, ParseVersion(v2).value);
    }
  }

  /** A version that parses compares equal to itself. */
  lemma CompareVersionsReflexive(v: string)
    requires ParseVersion(v).Success?
    ensures CompareVersions(v, v) == (0, None)
  {
  }

  /** `IsUpdateAvailable`: true exactly when both parse and `latest` has higher precedence. */
  function IsUpdateAvailable(current: string, latest: string): (r: (bool, Option<ParseError>))
    ensures r.1.Some? ==> !r.0
    ensures r.1.None? <==> ParseVersion(current).Success? && ParseVersion(latest).Success?
    ensures r.0 <==> && ParseVersion(current).Success? && ParseVersion(latest).Success?
                     && Compare(ParseVersion(latest).value, ParseVersion(current).value) == 1
    ensures r.0 <==> && ParseVersion(current).Success? && ParseVersion(latest).Success?
                     && Precedes(ParseVersion(current).value, ParseVersion(latest).value)
  {
    var (c, err) := CompareVersions(latest, current);
    if err.Some? then (false, err) else (c > 0, None)
  }

  /** Equal versions never offer an update, and an update is never offered in both directions. */
  lemma UpdateIsOneWay(a: string, b: string)
    ensures !IsUpdateAvailable(a, a).0
    ensures !(IsUpdateAvailable(a, b).0 && IsUpdateAvailable(b, a).0)
  {
    CompareVersionsAntisymmetric(a, b);
  }

  /** A text with no white space at either end and no leading "v" is parsed as it is. */
  lemma ParseVersionPlain(x: string)
    requires x != [] && !IsSpace(x[0]) && !IsSpace(x[|x| - 1]) && x[0] != 'v'
    ensures ParseVersion(x) == Parse(x)
  {
    TrimSpaceOfTrimmed(x);
  }

  lemma AlphaWords()
    ensures ValidIdent(Alpha("beta")) && ValidIdent(Alpha("alpha"))
  {
    assert !IsDigit("beta"[0]) && !IsDigit("alpha"[0]);
  }

  /** The pre-release text of a word followed by a one-digit number. */
  lemma AlphaNum(w: string, n: nat)
    requires n < 10
    ensures Join(IdentStrings([Alpha(w), Num(n)]), ".") == w + "." + [DigitChar(n)]
  {
    assert IdentStrings([Alpha(w), Num(n)]) == [w, [DigitChar(n)]];
  }

  // The version texts of the update package's tests.

  const Text100: string := "1.0.0"
  const Tagged100: string := "v1.0.0"
  const Text101: string := "1.0.1"
  const Text200: string := "2.0.0"
  const Text010: string := "0.1.0"
  const TextBeta: string := "1.0.0-beta"
  const TextAlpha1: string := "1.0.0-alpha.1"
  const TextAlpha2: string := "1.0.0-alpha.2"
  const TextBuild: string := "1.0.0+build123"
  const TextInvalid: string := "invalid"
  const TextPartial: string := "1.0"

  lemma Accepts100()
    ensures ParseVersion(Text100) == Success(Version(1, 0, 0, [], []))
  {
    var v := Version(1, 0, 0, [], []);
    assert Format(v) == Text100 by { FormatRelease(v); }
    ParseVersionAcceptsPrinted(v);
  }

  lemma AcceptsTagged100()
    ensures ParseVersion(Tagged100) == Success(Version(1, 0, 0, [], []))
  {
    var v := Version(1, 0, 0, [], []);
    assert "v" + Format(v) == Tagged100 by { FormatRelease(v); }
    ParseVersionAcceptsTagged(v);
  }

  lemma Accepts101()
    ensures ParseVersion(Text101) == Success(Version(1, 0, 1, [], []))
  {
    var v := Version(1, 0, 1, [], []);
    assert Format(v) == Text101 by { FormatRelease(v); }
    ParseVersionAcceptsPrinted(v);
  }

  lemma Accepts200()
    ensures ParseVersion(Text200) == Success(Version(2, 0, 0, [], []))
  {
    var v := Version(2, 0, 0, [], []);
    assert Format(v) == Text200 by { FormatRelease(v); }
    ParseVersionAcceptsPrinted(v);
  }

  lemma Accepts010()
    ensures ParseVersion(Text010) == Success(Version(0, 1, 0, [], []))
  {
    var v := Version(0, 1, 0, [], []);
    assert Format(v) == Text010 by { FormatRelease(v); }
    ParseVersionAcceptsPrinted(v);
  }

  /** A well-formed version is what the text it prints parses to. */
  lemma ParsesTo(text: string, v: Version)
    requires WellFormed(v) && Format(v) == text
    ensures ParseVersion(text) == Success(v)
  {
    ParseVersionAcceptsPrinted(v);
  }

  lemma FormatBeta()
    ensures Format(Version(1, 0, 0, [Alpha("beta")], [])) == TextBeta
  {
    FormatPrerelease(Version(1, 0, 0, [Alpha("beta")], []));
    assert IdentStrings([Alpha("beta")]) == ["beta"];
  }

  lemma AcceptsBeta()
    ensures ParseVersion(TextBeta) == Success(Version(1, 0, 0, [Alpha("beta")], []))
  {
    AlphaWords();
    FormatBeta();
    ParsesTo(TextBeta, Version(1, 0, 0, [Alpha("beta")], []));
  }

  lemma FormatAlpha(n: nat, text: string)
    requires n < 10 && text == "1.0.0-alpha." + [DigitChar(n)]
    ensures Format(Version(1, 0, 0, [Alpha("alpha"), Num(n)], [])) == text
  {
    FormatPrerelease(Version(1, 0, 0, [Alpha("alpha"), Num(n)], []));
    AlphaNum("alpha", n);
  }

  lemma AcceptsAlpha1()
    ensures ParseVersion(TextAlpha1) == Success(Version(1, 0, 0, [Alpha("alpha"), Num(1)], []))
  {
    AlphaWords();
    FormatAlpha(1, TextAlpha1);
    ParsesTo(TextAlpha1, Version(1, 0, 0, [Alpha("alpha"), Num(1)], []));
  }

  lemma AcceptsAlpha2()
    ensures ParseVersion(TextAlpha2) == Success(Version(1, 0, 0, [Alpha("alpha"), Num(2)], []))
  {
    AlphaWords();
    FormatAlpha(2, TextAlpha2);
    ParsesTo(TextAlpha2, Version(1, 0, 0, [Alpha("alpha"), Num(2)], []));
  }

  lemma FormatOneBuild(b: string)
    ensures Format(Version(1, 0, 0, [], [b])) == "1.0.0+" + b
  {
    FormatBuild(Version(1, 0, 0, [], [b]));
    assert Join([b], ".") == b;
  }

  lemma FormatBuild123()
    ensures Format(Version(1, 0, 0, [], ["build123"])) == TextBuild
  {
    FormatOneBuild("build123");
  }

  lemma AcceptsBuild()
    ensures ParseVersion(TextBuild) == Success(Version(1, 0, 0, [], ["build123"]))
  {
    FormatBuild123();
    ParsesTo(TextBuild, Version(1, 0, 0, [], ["build123"]));
  }

  lemma NoDotIn(s: string)
    requires '.' !in s
    ensures IndexOf(s, '.') == |s|
  {
    IndexOfAbsent(s, '.');
  }

  /** A plain text without a dot lacks a component. */
  lemma RejectsNoDot(x: string)
    requires x != [] && !IsSpace(x[0]) && !IsSpace(x[|x| - 1]) && x[0] != 'v' && '.' !in x
    ensures ParseVersion(x) == Failure(MissingComponents)
  {
    ParseVersionPlain(x);
    NoDotIn(x);
  }

  lemma IndexOfDot(x: string, i: nat)
    requires i < |x| && x[i] == '.' && '.' !in x[..i]
    ensures IndexOf(x, '.') == i
  {
    IndexOfFirst(x[..i], '.', x[i + 1..]);
    assert x[..i] + ['.'] + x[i + 1..] == x;
  }

  lemma ParseOneDot(x: string, i: nat)
    requires i < |x| && IndexOf(x, '.') == i && '.' !in x[i + 1..]
    ensures Parse(x) == Failure(MissingComponents)
  {
    NoDotIn(x[i + 1..]);
  }

  /** A plain text with one dot lacks a component. */
  lemma RejectsOneDot(x: string, i: nat)
    requires x != [] && !IsSpace(x[0]) && !IsSpace(x[|x| - 1]) && x[0] != 'v'
    requires i < |x| && x[i] == '.' && '.' !in x[..i] && '.' !in x[i + 1..]
    ensures ParseVersion(x) == Failure(MissingComponents)
  {
    ParseVersionPlain(x);
    IndexOfDot(x, i);
    ParseOneDot(x, i);
  }

  lemma RejectsInvalid()
    ensures ParseVersion(TextInvalid) == Failure(MissingComponents)
  {
    RejectsNoDot(TextInvalid);
  }

  lemma RejectsPartial()
    ensures ParseVersion(TextPartial) == Failure(MissingComponents)
  {
    RejectsOneDot(TextPartial, 1);
  }

  /** The parse test table: which texts are accepted. */
  lemma ParseTestCases()
    ensures ParseVersion(Text100).Success?
    ensures ParseVersion(TextAlpha1).Success?
    ensures ParseVersion(TextBuild).Success?
    ensures ParseVersion("") == Failure(EmptyVersion)
    ensures ParseVersion(TextInvalid).Failure?
    ensures ParseVersion(TextPartial).Failure?
    ensures ParseVersion(Tagged100).Success?
  {
    Accepts100();
    AcceptsTagged100();
    AcceptsAlpha1();
    AcceptsBuild();
    RejectsInvalid();
    RejectsPartial();
  }

  lemma CompareEqualRow()
    ensures CompareVersions(Text100, Text100) == (0, None)
  {
    Accepts100();
  }

  lemma CompareGreaterRow()
    ensures CompareVersions(Text200, Text100) == (1, None)
  {
    Accepts100();
    Accepts200();
  }

  lemma CompareLessRow()
    ensures CompareVersions(Text010, Text100) == (-1, None)
  {
    Accepts100();
    Accepts010();
  }

  lemma ComparePrereleaseRow()
    ensures CompareVersions(TextBeta, Text100) == (-1, None)
  {
    Accepts100();
    AcceptsBeta();
  }

  lemma ComparePrereleaseIdentsRow()
    ensures CompareVersions(TextAlpha1, TextAlpha2) == (-1, None)
  {
    AcceptsAlpha1();
    AcceptsAlpha2();
  }

  lemma CompareInvalidRows()
    ensures CompareVersions(TextInvalid, Text100) == (0, Some(MissingComponents))
    ensures CompareVersions(Text100, TextInvalid) == (0, Some(MissingComponents))
  {
    Accepts100();
    RejectsInvalid();
  }

  /** The comparison test table. */
  lemma CompareTestCases()
    ensures CompareVersions(Text100, Text100) == (0, None)
    ensures CompareVersions(Text200, Text100) == (1, None)
    ensures CompareVersions(Text010, Text100) == (-1, None)
    ensures CompareVersions(TextBeta, Text100) == (-1, None)
    ensures CompareVersions(TextAlpha1, TextAlpha2) == (-1, None)
    ensures CompareVersions(TextInvalid, Text100) == (0, Some(MissingComponents))
    ensures CompareVersions(Text100, TextInvalid) == (0, Some(MissingComponents))
  {
    CompareEqualRow();
    CompareGreaterRow();
    CompareLessRow();
    ComparePrereleaseRow();
    ComparePrereleaseIdentsRow();
    CompareInvalidRows();
  }

  /** The two checks of the update-availability test. */
  lemma UpdateTestCases()
    ensures IsUpdateAvailable(Text100, Text101) == (true, None)
    ensures IsUpdateAvailable(Text100, Text100) == (false, None)
  {
    Accepts100();
    Accepts101();
  }
}

=== FILE: wrappers.dfy ===
/** Failure-compatible Option and Result types shared by every module of the model. */
module Wrappers {

  datatype Option<+T> = None | Some(value: T) {

    predicate IsFailure() {
      None?
    }

    function PropagateFailure<U>(): Option<U>
      requires None?
    {
      None
    }

    function Extract(): T
      requires Some?
    {
      value
    }

    function GetOr(default: T): T {
      match this
      case Some(v) => v
      case None => default
    }
  }

  /** The outcome of an operation that the source reports with a Go `error` or a panic. */
  datatype Result<+T, +E> = Success(value: T) | Failure(error: E) {

    predicate IsFailure() {
      Failure?
    }

    function PropagateFailure<U>(): Result<U, E>
      requires Failure?
    {
      Failure(error)
    }

    function Extract(): T
      requires Success?
    {
      value
    }
  }
}
